=== FILE: README.md ===
# low: a Dafny model of the package manager's core

This project models the core of low, a small yum-like package manager written
in C, together with two pieces of its test and tooling code. It covers:

- the architecture table and how it ranks arches (`src/low-arch.c`);
- EVR splitting and comparison, and digest names (`src/low-util.c`);
- the dependency constructor (`src/low-package.c`);
- the transaction: its four hash tables, the per-package requirement,
  removal and conflict checks, and the resolve loop (`src/low-transaction.c`);
- the expat handlers of the four XML readers: prestodelta.xml
  (`src/low-delta-parser.c`), repomd.xml (`src/low-repomd-parser.c`), the
  metalink (`src/low-metalink-parser.c`), and primary.xml with filelists.xml
  (`src/low-repoxml-parser.c`);
- the mirror-list reader (`src/low-mirror-list.c`) and the option scanner
  (`src/low-parse-options.c`);
- the fake repository of the unit tests (`test/unit/low-fake-repo.c`) and
  the repository builders of the dependency-solver harness
  (`test/depsolver/main.c`);
- the file scaffolder `tools/new-file.py`.

There is one module per source file. `CText` holds what C gives for free:
`Option`, reading a string's NUL, `index`/`rindex`, `g_strstrip`,
`strtoul` and `atol`. `Sax` holds the expat attribute list and the "last
attribute of this name wins" rule that every attribute loop follows.

Some things are not part of the model and become parameters instead:

- An expat parse is the sequence of callbacks it makes (`Start`, `End`,
  `Text`). Each parser module runs its handlers over such a sequence.
- `rpmvercmp` is the parameter `vercmp`.
- `low_package_dependency_satisfies` is the parameter `sat`.
- The installed and available packages are sequences in an `Env`.
- The file system of `new-file.py` is a map from paths to contents and a set
  of existing directories.

Where the C has a defect, the model has a boolean parameter that selects
between the code as written and the corrected code, or a pair of members.
The flags are `exactSize`, `fallThrough`, `buffered`, `clear` and
`charEof`. Each defect is listed under "## Findings".

## Model

| member | source | states |
|---|---|---|
| Arch.LookupName | src/low-arch.c:40-51 | the result is the arch of the first table entry with that name, and UNKNOWN when no entry has it |
| Arch.LookupArch | src/low-arch.c:54-65 | the result is the name of the first table entry with that arch, and "unknown" when no entry has it |
| Arch.LookupNameAt | src/low-arch.c:43-48 | the scan stops at the first entry holding the name |
| Arch.LookupArchAt | src/low-arch.c:57-62 | the scan stops at the first entry holding the arch |
| Arch.FromStrToStr | src/low-arch.c:28-65 | printing any mapped arch and reading it back gives the same arch |
| Arch.ToStrFromStr | src/low-arch.c:28-65 | reading any of the five table names and printing the result gives the same name |
| Arch.NamesDistinct | src/low-arch.c:28-37 | no two entries of arch_map share a name |
| Arch.UnmappedIsUnknown | src/low-arch.c:40-65 | a string reads as UNKNOWN exactly when it is not one of the five names; UNKNOWN prints as "unknown" |
| Arch.ValueName | src/low-arch.c:54-65 | an integer that is an enumerator's value prints as that enumerator; any value outside 0..4 prints as "unknown" |
| Arch.CompatibilityShape | src/low-arch.c:74-92 | compatibility is reflexive and symmetric, noarch is compatible with everything, and all ix86 arches are mutually compatible |
| Arch.IncompatibleOtherwise | src/low-arch.c:74-92 | two distinct arches, neither noarch and not both ix86, are incompatible |
| Arch.CmpForX86 | src/low-arch.c:95-106 | the comparison answers -1, 0 or 1 |
| Arch.ChooseBest | src/low-arch.c:109-134 | the answer is 0 exactly when the two arches are equal, and otherwise 1 or -1 |
| Arch.NonIx86TargetPreference | src/low-arch.c:109-134 | for a target that is not ix86, the target itself wins over any other arch, and noarch wins over any arch other than the target |
| Arch.Ix86TargetPreference | src/low-arch.c:109-134 | for an ix86 target, every ix86 arch beats every other arch, and the later ix86 enumerator wins, whichever argument it is |
| Arch.ChooseBestForSystem | src/low-arch.c:137-153 | the answer is 0 exactly when the two arches are equal, and otherwise 1 or -1 |
| Arch.SystemPrefersX86_64 | src/low-arch.c:137-153 | x86_64 is preferred over every ix86 arch, in either argument position |
| Arch.SystemIx86Order | src/low-arch.c:137-153 | among ix86 arches the system choice is antisymmetric and prefers the later enumerator |
| Util.SplitEvr | src/low-util.c:121-143 | the epoch is the text before the first ':' or "0"; the release is the text after the last '-' or "0"; the version is the text between them |
| Util.SplitJoin | src/low-util.c:121-143 | `e:v-r` splits back into e, v and r when e has no ':' and r has no '-' |
| Util.MissingEpochIsZero | src/low-util.c:121-143 | with no colon anywhere, `v-r` and `0:v-r` split into the same parts |
| Util.EvrCmpWorker | src/low-util.c:99-118 | the epochs decide first, then the versions, then the releases |
| Util.EvrCmpAntisymmetric | src/low-util.c:146-167 | with an antisymmetric rpmvercmp, swapping the two EVRs negates the comparison |
| Util.EvrCmpMissingEpoch | src/low-util.c:146-167 | an EVR without an epoch compares against anything exactly as the same EVR with epoch "0" does |
| Util.DigestTypeFromString | src/low-util.c:170-184 | "md5" gives MD5; "sha" and "sha1" give SHA1; "sha256" gives SHA256; every other string gives UNKNOWN, and never NONE |
| Package.DependencyNewAsWritten | src/low-package.c:27-37 | the constructor as written crashes exactly when the evr is NULL, and otherwise keeps the name, sense and evr |
| Package.DependencyNewAgrees | src/low-package.c:27-37 | the corrected constructor agrees with the written one whenever an evr is given, and keeps a NULL evr NULL |
| Package.FileDependencyCrashes | src/low-transaction.c:271-274 | the file dependency that check_removal builds (no sense, NULL evr) crashes the written constructor |
| Sax.Last | src/low-delta-parser.c:52-71 | the value an attribute loop leaves is that of the last attribute with the name, and it is absent when no attribute has the name |
| Sax.LastCons | src/low-delta-parser.c:52-71 | seen from the front, a later attribute with the name overrides the first one |
| TransactionTables.AddToHash | src/low-transaction.c:107-139 | inserts an unresolved member under the package's key exactly when the key is absent, reports whether it did, and otherwise leaves the table unchanged |
| TransactionTables.RemoveFromHash | src/low-transaction.c:142-163 | drops exactly the package's key, and leaves the table as it was when the key is absent |
| TransactionTables.AddIdempotent | src/low-transaction.c:107-139 | adding the same package twice: the second add reports FALSE and changes nothing |
| TransactionTables.RemoveUndoesAdd | src/low-transaction.c:107-163 | removing a package just added to a table that lacked it restores the table exactly |
| TransactionTables.KeyedPreserved | src/low-transaction.c:107-163 | adding, removing and marking keep every member stored under its own package's key |
| TransactionTables.Values | src/low-transaction.c:416-418 | the snapshot lists every member once, in the table's iteration order |
| TransactionTables.MarkResolved | src/low-transaction.c:445-454 | marks exactly one member resolved and leaves every other member and the key set unchanged |
| TransactionTables.NewTrans | src/low-transaction.c:60-85 | a new transaction has four empty tables |
| TransactionTables.AddInstall | src/low-transaction.c:166-176 | TRUE exactly when the package's key was not scheduled for install; afterwards it is scheduled, and the other three tables are untouched |
| TransactionTables.AddUpdate | src/low-transaction.c:179-189 | the package's key is scheduled for update, and the other three tables are untouched |
| TransactionTables.AddRemove | src/low-transaction.c:192-202 | TRUE exactly when the package's key was not scheduled for removal; afterwards it is scheduled, and the other three tables are untouched |
| TransactionRules.DepInDeplist | src/low-transaction.c:208-220 | TRUE exactly when some dependency in the list has the needle's name; sense and evr are ignored |
| TransactionRules.DepInFilelist | src/low-transaction.c:226-237 | TRUE exactly when the file list holds the needle exactly |
| TransactionRules.ResolveRequirement | src/low-transaction.c:314-402 | a requirement is unmet exactly when nothing meets it: not the package, no installed package, no available one; otherwise it schedules a new available provider only when neither the package nor an installed package meets it |
| TransactionRules.CheckRequiresFrom | src/low-transaction.c:311-403 | UNRESOLVABLE exactly when some remaining requirement is unmet; only available packages are scheduled; NO_CHANGE means every requirement was already covered |
| TransactionRules.CheckPackageRequires | src/low-transaction.c:297-410 | UNRESOLVABLE exactly when the package has an unmet requirement; PACKAGES_ADDED exactly when it scheduled an available provider; NO_CHANGE leaves the table as it was with every requirement covered |
| TransactionRules.AddRequirers | src/low-transaction.c:252-267 | schedules for removal exactly the installed packages that require one of the given dependencies, and reports whether any was new |
| TransactionRules.FileDeps | src/low-transaction.c:269-274 | one dependency per file, holding the path with no sense and no evr |
| TransactionRules.CheckRemoval | src/low-transaction.c:240-295 | schedules for removal exactly the installed packages that require a provide or a file of the removed package; PACKAGES_ADDED exactly when one of them was new; never UNRESOLVABLE |
| TransactionRules.CheckRemovalAsWritten | src/low-transaction.c:240-295 | as written, the check crashes exactly when the removed package has files; without files it schedules the requirers of its provides |
| TransactionRules.CheckRemovalAsWrittenAgrees | src/low-transaction.c:240-295 | the written check and the corrected one agree on every package without files; on every package with files the written one crashes |
| TransactionRules.FirstProvider | src/low-transaction.c:463-491 | the first member with a provide of that name, and none when no member has one |
| TransactionRules.SearchProvides | src/low-transaction.c:463-491 | finds a scheduled package with a provide of that name exactly when one exists |
| TransactionRules.InstallConflict | src/low-transaction.c:561-581 | finds a scheduled package that provides one of the conflicts exactly when one exists |
| TransactionRules.CheckInstalledConflicts | src/low-transaction.c:504-552 | TRUE exactly when an installed package conflicts with one of the package's provides, or provides one of its conflicts |
| Transaction.Unresolve | src/low-transaction.c:586-591 | giving up on a package takes its key out of the install table and puts it into the unresolved table |
| Transaction.ConflictPass | src/low-transaction.c:494-598 | NO_CHANGE exactly when every package in the snapshot is clean, and then nothing changes; otherwise UNRESOLVABLE; never PACKAGES_ADDED |
| Transaction.ConflictPassMovesFirst | src/low-transaction.c:494-598 | the first package that is not clean ends up unresolved and out of the install table |
| Transaction.InstallPass | src/low-transaction.c:413-440 | UNRESOLVABLE exactly when some package in the snapshot has an unmet requirement; otherwise the install table only grows and the unresolved table is unchanged |
| Transaction.InstallPassAdds | src/low-transaction.c:413-440 | the requirement pass schedules only available packages, and reports PACKAGES_ADDED exactly when it scheduled one |
| Transaction.InstallPassMovesFirst | src/low-transaction.c:413-440 | the first package with an unmet requirement ends up unresolved and out of the install table |
| Transaction.InstallPassStops | src/low-transaction.c:424-431 | a pass whose first package has an unmet requirement stops there and marks it unresolved |
| Transaction.InstallPassSkips | src/low-transaction.c:424-436 | a pass whose first package's requirements can all be met goes on with the rest, on the grown table |
| Transaction.InstallPassCovers | src/low-transaction.c:413-440 | a pass that changes nothing found every requirement of every package covered |
| Transaction.Expand | src/low-transaction.c:439-457 | expanding a removal marks that member resolved, keeps every other member, and never fails |
| Transaction.ExpandAdds | src/low-transaction.c:439-457 | an expansion schedules exactly the member's installed dependents, and reports PACKAGES_ADDED exactly when one was new |
| Transaction.RemovePass | src/low-transaction.c:439-457 | after the removal pass every member of the snapshot is resolved, and the table only grows |
| Transaction.RemovePassAdds | src/low-transaction.c:439-457 | the removal pass schedules only installed packages, and reports PACKAGES_ADDED exactly when it scheduled one |
| Transaction.RemovePassSkipsResolved | src/low-transaction.c:445-454 | a pass over members already resolved changes nothing, so each member is expanded at most once |
| Transaction.RemovePassClosed | src/low-transaction.c:439-457 | the removal pass keeps every resolved member's installed dependents scheduled for removal |
| Transaction.ExpansionClosed | src/low-transaction.c:439-457 | one expansion keeps the remove table closed under dependents |
| Transaction.CheckAllConflicts | src/low-transaction.c:494-598 | NO_CHANGE exactly when every package to install is clean, and then the transaction is unchanged; never PACKAGES_ADDED; the update and remove tables are untouched |
| Transaction.ConflictRoundMoves | src/low-transaction.c:494-598 | a failed conflict round moves a package that is not clean out of the install table and into unresolved |
| Transaction.CheckAllRequires | src/low-transaction.c:413-460 | UNRESOLVABLE exactly when a package to install has an unmet requirement; otherwise install and remove only grow and unresolved is unchanged |
| Transaction.RequiresRoundMoves | src/low-transaction.c:413-460 | a failed requirement round moves a package with an unmet requirement out of the install table and into unresolved |
| Transaction.RequiresRoundAdds | src/low-transaction.c:413-460 | a round schedules only available packages for install and only installed ones for removal, and reports PACKAGES_ADDED exactly when it scheduled one |
| Transaction.RequiresRoundQuiet | src/low-transaction.c:413-460 | a round that changes nothing leaves the install table as it was, has every removal expanded, and found every requirement covered |
| Transaction.RequiresRoundSkipsResolved | src/low-transaction.c:439-457 | a round over a remove table that is already expanded leaves that table unchanged |
| Transaction.Combine | src/low-transaction.c:617-625 | the combined status is whichever of the two ranks higher, UNRESOLVABLE over PACKAGES_ADDED over NO_CHANGE |
| Transaction.ResolveStep | src/low-transaction.c:611-626 | one round keeps the update table, only grows the remove table, and installs nothing that is not available |
| Transaction.QuietConflicts | src/low-transaction.c:611-626 | when a round does not fail, its conflict pass changed nothing |
| Transaction.StepAdds | src/low-transaction.c:611-626 | a round reporting PACKAGES_ADDED keeps every scheduled package and schedules at least one more |
| Transaction.StepUnresolvable | src/low-transaction.c:611-626 | a failed round leaves some package unresolved |
| Transaction.StepQuiet | src/low-transaction.c:611-626 | a round that changes nothing found every package to install clean with its requirements covered, and every removal expanded |
| Transaction.AddedRoundProgresses | src/low-transaction.c:611-626 | a round that adds packages brings the transaction strictly closer to scheduling everything available and installed, so the loop ends |
| Transaction.Resolve | src/low-transaction.c:601-641 | an OK result is a fixpoint: every package to install is clean with its requirements covered, and every removal is expanded; an UNRESOLVED result leaves some package unresolved |
| Transaction.ResolveStaysWithin | src/low-transaction.c:601-641 | resolution schedules for removal only packages that were scheduled already or are installed |
| Transaction.QuietRoundIsFixpoint | src/low-transaction.c:611-626 | after a round that changes nothing, another round changes nothing either |
| Transaction.StepKeepsClosed | src/low-transaction.c:611-626 | a round keeps the remove table closed under dependents |
| Transaction.ResolveKeepsClosed | src/low-transaction.c:601-641 | resolution keeps the remove table closed under dependents |
| Transaction.ResolvedRemovalIsClosed | src/low-transaction.c:601-641 | when removals were only just scheduled and resolution succeeds, every installed dependent of every removed package is scheduled for removal too |
| FakeRepo.Initialize | test/unit/low-fake-repo.c:33-45 | a new fake repository keeps its id, name and enabled flag, and has no package array yet |
| FakeRepo.Filter | test/unit/low-fake-repo.c:63-84 | keeps, in order, exactly the packages the filter accepts |
| FakeRepo.IterateSlots | test/unit/low-fake-repo.c:63-84 | iteration ends exactly when a NULL slot exists, and then yields the accepted packages before it, in array order |
| FakeRepo.ContentsOfSlots | test/unit/low-fake-repo.c:63-84 | a NULL-terminated array of packages iterates back to exactly those packages |
| FakeRepo.Iterate | test/unit/low-fake-repo.c:63-84 | a repository without a package array is read through a NULL pointer |
| FakeRepo.ListAll | test/unit/low-fake-repo.c:87-99 | listing yields every package in array order, exactly when the array is NULL-terminated |
| FakeRepo.ListByName | test/unit/low-fake-repo.c:102-126 | yields, in array order, exactly the packages with that name |
| FakeRepo.SearchProvides | test/unit/low-fake-repo.c:129-161 | crashes exactly when the query has a NULL evr, since copying it strdup()s the evr; otherwise yields, in array order, exactly the packages with a provide that satisfies the query |
| FakeRepo.SearchRequires | test/unit/low-fake-repo.c:164-196 | crashes exactly when the query has a NULL evr, since copying it strdup()s the evr; otherwise yields, in array order, exactly the packages with a requirement that satisfies the query |
| FakeRepo.SearchConflicts | test/unit/low-fake-repo.c:199-231 | crashes exactly when the query has a NULL evr, since copying it strdup()s the evr; otherwise yields, in array order, exactly the packages with a conflict that satisfies the query |
| FakeRepo.SearchObsoletes | test/unit/low-fake-repo.c:234-266 | crashes exactly when the query has a NULL evr, since copying it strdup()s the evr; otherwise yields, in array order, exactly the packages with an obsolete that satisfies the query |
| FakeRepo.SearchFiles | test/unit/low-fake-repo.c:269-297 | yields, in array order, exactly the packages whose file list holds the file |
| FakeRepo.SearchDetails | test/unit/low-fake-repo.c:304-307 | ignores the query and lists every package |
| DeltaParser.NewPackageAttrsLast | src/low-delta-parser.c:52-71 | the newpackage attributes fill the name, arch and new EVR fields, the last occurrence winning, and nothing else changes |
| DeltaParser.DeltaAttrsLast | src/low-delta-parser.c:74-87 | the delta attributes fill the old EVR fields, the last occurrence winning, and nothing else changes |
| DeltaParser.ChecksumAttrsLast | src/low-delta-parser.c:90-100 | the digest type is the classification of the last type attribute, and nothing else changes |
| DeltaParser.TagOfNames | src/low-delta-parser.c:103-123 | each of the six element names has its own tag, and every other name is ignored |
| DeltaParser.StartElement | src/low-delta-parser.c:103-123 | a start tag never touches the text or the table; it is undefined exactly when a delta or checksum attribute arrives with no record open |
| DeltaParser.StartStates | src/low-delta-parser.c:103-123 | newpackage opens a fresh record, and each element enters its own state; any other element changes nothing |
| DeltaParser.AppendText | src/low-delta-parser.c:168-179 | the new text follows the current text in the buffer, and the buffer grows by the text's length when the text does not fit |
| DeltaParser.TextAccumulates | src/low-delta-parser.c:134-179 | text accumulates across callbacks whatever the state, and every end element empties it |
| DeltaParser.EndElement | src/low-delta-parser.c:134-165 | every end empties the text; only closing newpackage changes the table; a text element with no record open is undefined |
| DeltaParser.EndStates | src/low-delta-parser.c:134-165 | newpackage returns to BEGIN and stores the record under its key, delta returns to PACKAGE, and the text elements return to DELTA |
| DeltaParser.Deltas | src/low-delta-parser.c:184-246 | the parsed table holds each stored key with the record it names |
| DeltaParser.CompareEpochsMeaning | src/low-delta-parser.c:289-301 | compare_epochs is equality once an absent epoch reads as "0", so it is symmetric |
| DeltaParser.FindDelta | src/low-delta-parser.c:304-319 | finds the record stored under the new package's key exactly when it is a delta from the old package's epoch, version and release |
| DeltaParser.FindDeltaAsWritten | src/low-delta-parser.c:280-319 | as written, the lookup uses the key built from the arch pointer |
| DeltaParser.WrittenKeyNeverStored | src/low-delta-parser.c:280-286 | a key built from a string pointer ends in ".unknown" and is never the key of a delta for a real arch |
| DeltaParser.WrittenLookupMisses | src/low-delta-parser.c:280-319 | in a table holding one real-arch delta, the written lookup finds nothing |
| DeltaParser.FindParsedAsWritten | src/low-delta-parser.c:280-319 | as written, the delta that a parsed entry stores is never found, whatever the package |
| DeltaParser.StripElement | src/low-delta-parser.c:145-154 | a filename or sequence element stores its text, stripped, in the current record |
| DeltaParser.SizeElementRead | src/low-delta-parser.c:155-158 | a size element stores the number strtoul reads from the size text |
| DeltaParser.SizeElement | src/low-delta-parser.c:155-158 | read exactly, a decimal size element stores that number |
| DeltaParser.ChecksumElement | src/low-delta-parser.c:90-100 | a checksum element stores its type's classification and its stripped text |
| DeltaParser.OpenEntry | src/low-delta-parser.c:52-87 | the newpackage and delta start tags open a record holding the entry's new and old fields |
| DeltaParser.CloseEntry | src/low-delta-parser.c:134-143 | the delta and newpackage end tags store the current record under its key and return to BEGIN |
| DeltaParser.ParseEntry | src/low-delta-parser.c:52-179 | parsing one rendered newpackage element stores a record holding exactly the entry's fields under the entry's key, and leaves the earlier records alone |
| DeltaParser.FindParsed | src/low-delta-parser.c:184-319 | after parsing an entry, the lookup finds exactly that record for its package when the old epoch, version and release match; other keys answer as before |
| DeltaParser.FindStored | src/low-delta-parser.c:304-319 | the lookup in a table to which one entry's record was added under its key |
| DeltaParser.SizeReadsStaleText | src/low-delta-parser.c:155-158 | after the two-character sequence "12", the size "5" is stored as 52 as written, and as 5 when only the current text is read |
| DeltaParser.StaleSizeValue | src/low-delta-parser.c:157 | the text "5" written over "12" reads as 5 from the current text and as 52 from the whole buffer |
| DeltaParser.InitialValid | src/low-delta-parser.c:207-213 | the starting context is consistent: no buffer, no record, no entries |
| RepomdParser.InitialEmpty | src/low-repomd-parser.c:164-165 | the parse starts in BEGIN with every location absent and every time 0 |
| RepomdParser.TagOfNames | src/low-repomd-parser.c:49-103 | data, location and timestamp have their own tags, and every other name is ignored |
| RepomdParser.DataAttrsLast | src/low-repomd-parser.c:54-66 | a data start tag selects the state of its last known type attribute, and keeps the state when it has none |
| RepomdParser.LocationsLast | src/low-repomd-parser.c:67-88 | the effect of a location tag is that of its last href attribute alone |
| RepomdParser.HrefEffects | src/low-repomd-parser.c:67-88 | PRIMARY sets only the primary location and DELTA only the delta one; FILELISTS sets the filelists location, and as written the delta one too; other states set nothing |
| RepomdParser.LocationsKeep | src/low-repomd-parser.c:67-88 | a location tag changes only the three locations, and nothing at all outside a data state |
| RepomdParser.StartElement | src/low-repomd-parser.c:49-103 | only a location tag changes the record; location and unknown tags keep the state |
| RepomdParser.EndElement | src/low-repomd-parser.c:106-113 | an end tag never changes the record; only the end of a data element changes the state, back to BEGIN |
| RepomdParser.EndResets | src/low-repomd-parser.c:106-113 | the state after an end tag is BEGIN exactly when the tag was data or the state already was BEGIN |
| RepomdParser.BeginInert | src/low-repomd-parser.c:49-135 | outside a data element, nothing but a data start tag has any effect |
| RepomdParser.TimestampText | src/low-repomd-parser.c:89-135 | a timestamp's text is stored as its own data element's time and the state returns to that data state; as written a filelists timestamp becomes the delta time |
| RepomdParser.TextOutsideTimestamp | src/low-repomd-parser.c:116-135 | text outside a timestamp state changes nothing |
| RepomdParser.DataAttrsNeverTimestamp | src/low-repomd-parser.c:54-66 | a data tag never selects a timestamp state |
| RepomdParser.FilelistsTimeNeverSet | src/low-repomd-parser.c:94-98 | as written, no document ever sets the filelists time |
| RepomdParser.ParseData | src/low-repomd-parser.c:49-135 | parsing one data element from BEGIN records its location and time, and returns to BEGIN |
| RepomdParser.ParseAll | src/low-repomd-parser.c:140-197 | a document of data elements parses to the records of its elements, applied in document order |
| RepomdParser.ParseEachType | src/low-repomd-parser.c:140-197 | with a break in every case, a document with one element of each type yields exactly those three locations and times |
| RepomdParser.FilelistsFallThrough | src/low-repomd-parser.c:76-81 | as written, a repository without prestodelta data reports its filelists database as the delta file and keeps the filelists time 0; with the breaks it does not |
| MetalinkParser.DropSuffix | src/low-metalink-parser.c:88 | the text without its last 19 characters; a shorter text is kept whole |
| MetalinkParser.DropSuffixAppended | src/low-metalink-parser.c:86-88 | the handler recovers a mirror's base url from the url of its repodata/repomd.xml |
| MetalinkParser.KindOfMeaning | src/low-metalink-parser.c:53-62 | a type attribute makes a mirror exactly when it is http or ftp; a preference attribute sets the weight |
| MetalinkParser.Weight | src/low-metalink-parser.c:61 | the weight is atol's value converted to a 32-bit int |
| MetalinkParser.UrlAttrsEffect | src/low-metalink-parser.c:53-64 | a url element enters URL exactly when one of its type attributes is http or ftp, and takes the weight of its last preference attribute |
| MetalinkParser.StartElement | src/low-metalink-parser.c:46-66 | every start resets the state; a url element enters URL exactly when one of its type attributes is http or ftp; the mirrors are untouched |
| MetalinkParser.EndElement | src/low-metalink-parser.c:69-75 | every end returns to OTHER with weight 100; collecting the text, the end of an http/ftp url adds the one mirror its text names |
| MetalinkParser.CharacterData | src/low-metalink-parser.c:78-96 | as written, text in URL state adds a mirror with the current weight; text elsewhere is ignored |
| MetalinkParser.MirrorsGrow | src/low-metalink-parser.c:78-96 | mirrors are only ever appended; a run keeps the earlier mirrors as a prefix |
| MetalinkParser.ParseMirror | src/low-metalink-parser.c:46-96 | one rendered mirror, parsed from OTHER, adds exactly that mirror |
| MetalinkParser.ParseAll | src/low-metalink-parser.c:106-159 | a metalink document listing http mirrors, one text callback each, parses back to exactly those mirrors, in order, with their weights |
| MetalinkParser.NoPreferenceWeight | src/low-metalink-parser.c:69-75 | a mirror whose url element has no preference gets the weight 100 that the previous end tag left |
| MetalinkParser.OtherTypeIgnored | src/low-metalink-parser.c:53-58 | a url element whose type is neither http nor ftp yields no mirror |
| MetalinkParser.SplitTextThreeMirrors | src/low-metalink-parser.c:85-92 | as written, a url holding `&amp;`, which expat reports as three callbacks (before, "&", after), yields three mirrors, none of them the url |
| MetalinkParser.SplitTextOneMirror | src/low-metalink-parser.c:85-92 | collecting the text up to the end tag yields the one mirror the element names |
| MirrorList.New | src/low-mirror-list.c:27-33 | a new list has no entries |
| MirrorList.Stop | src/low-mirror-list.c:56-66 | as written on a signed-char target, the read ends at the first 0xFF byte; read into an int, at the end of the file |
| MirrorList.CharEofMeaning | src/low-mirror-list.c:56-66 | stored in a signed char, the fgetc result equals EOF exactly at EOF and at the byte 0xFF; stored in an unsigned char, it never equals EOF, so the loop never ends |
| MirrorList.StopIsFirstSignedEof | src/low-mirror-list.c:56-66 | on a signed-char target the read stops exactly at the first byte for which the loop's EOF test fails |
| MirrorList.CompleteLines | src/low-mirror-list.c:66-79 | the newline-terminated lines of a text, none holding a newline |
| MirrorList.Kept | src/low-mirror-list.c:70 | keeps, in order, exactly the lines that are not comments |
| MirrorList.ScanEntries | src/low-mirror-list.c:66-79 | the byte-by-byte reading loop yields exactly the kept complete lines of the text |
| MirrorList.LinesOfUnlines | src/low-mirror-list.c:66-79 | a text of newline-terminated lines and a partial line splits back into exactly those lines |
| MirrorList.NewFromTxtFile | src/low-mirror-list.c:53-83 | an unopenable file gives NULL; otherwise the entries are the kept complete lines read before EOF is seen, in order |
| MirrorList.EntriesOfLines | src/low-mirror-list.c:66-79 | read to the real end, a file yields exactly its lines not starting with '#', in order; the partial last line is dropped |
| MirrorList.EmptyLineKept | src/low-mirror-list.c:70 | an empty line is an entry, since its first byte is the NUL and not '#' |
| MirrorList.EofByteEndsRead | src/low-mirror-list.c:56-66 | as written on a signed-char target, a 0xFF byte in a comment ends the read, and the mirror on the next line is lost |
| ParseOptions.StoreOption | src/low-parse-options.c:31-42 | an OPTION_BOOL sets its own flag to TRUE and nothing else; other types change nothing |
| ParseOptions.FindLong | src/low-parse-options.c:45-58 | the first entry whose long name is exactly the text, or none when no entry has it |
| ParseOptions.FindShort | src/low-parse-options.c:61-72 | the first entry whose short name is the character, or none when no entry has it |
| ParseOptions.ParseOpt | src/low-parse-options.c:45-72 | 0 exactly when the argument selects an entry, and then that entry's flag is stored; INVALID_OPTION otherwise |
| ParseOptions.Leading | src/low-parse-options.c:79-85 | the scan stops at the first argument not starting with '-' |
| ParseOptions.Parse | src/low-parse-options.c:75-99 | returns the index of the first non-option, with every option's flag stored, exactly when every leading option is recognised; otherwise it loops forever on the first unrecognised one |
| ParseOptions.ApplyAllNext | src/low-parse-options.c:79-96 | one more argument applies its option to the flags the earlier ones left |
| ParseOptions.AnySetsMeaning | src/low-parse-options.c:31-42 | the recursive "some argument sets the flag" means that some argument selects an OPTION_BOOL entry for it |
| ParseOptions.FlagsAfterRun | src/low-parse-options.c:75-99 | after a run, a flag is present exactly when it was present or some argument set it, and then it is true exactly when some argument set it or it was true |
| ParseOptions.FlagsAfter | src/low-parse-options.c:75-99 | after a run of options, a flag is TRUE exactly when some argument set it or it was TRUE before; no flag is cleared |
| ParseOptions.LongOptionExact | src/low-parse-options.c:45-58 | "--xyz" selects the first entry whose long name is exactly "xyz" |
| ParseOptions.ShortOptionSecondChar | src/low-parse-options.c:61-72 | a short option is decided by its second character alone |
| Depsolver.ParseEvr | test/depsolver/main.c:142-162 | undefined exactly when the last '-' lies before the first ':'; the epoch is absent exactly when there is no ':'; the release is unassigned exactly when there is no '-' |
| Depsolver.ParseEvrAgreesWithSplitEvr | test/depsolver/main.c:142-162 | the harness splits EVRs exactly as low_util_split_evr does, except that it leaves missing parts unset instead of "0" |
| Depsolver.ParseEvrJoin | test/depsolver/main.c:142-162 | `e:v-r` parses back into its parts |
| Depsolver.ParseEvrBare | test/depsolver/main.c:142-162 | a string without ':' or '-' is all version, with no epoch and the release unassigned |
| Depsolver.PackageFromHash | test/depsolver/main.c:165-180 | the package takes its name, arch and split EVR from the entry, and every other field is whatever the allocation held |
| Depsolver.PackagesFromList | test/depsolver/main.c:183-198 | one package per entry, in list order, exactly when no entry's EVR is undefined to parse |
| Depsolver.RepoFromListAsWritten | test/depsolver/main.c:183-198 | as written, the repository has one slot per entry, in list order, and the name and id arguments swapped |
| Depsolver.RepoFromListUnterminated | test/depsolver/main.c:183-198 | as written, no slot is NULL, so listing the repository reads past the end of its array |
| Depsolver.RepoFromList | test/depsolver/main.c:183-198 | with the NULL slot added, the repository is built exactly when every entry parses |
| Depsolver.RepoFromListListsAll | test/depsolver/main.c:183-198 | with the NULL slot added, listing the repository yields one package per entry, in list order |
| NewFile.HeaderPath | tools/new-file.py:50 | the header's path is "src/low-", the name and ".h" |
| NewFile.SourcePath | tools/new-file.py:67 | the source's path is "src/low-", the name and ".c" |
| NewFile.GuardSymbol | tools/new-file.py:51 | each character of the name, with '-' as '_' and then upper-cased |
| NewFile.Main | tools/new-file.py:49-90 | refuses and writes nothing when either path exists; otherwise, when the files' directory does not exist, the header's open() raises IOError and nothing is written; otherwise writes the header and the source from their templates, and keeps every other file |
| NewFile.DirOfPaths | tools/new-file.py:50-67 | both files go in one directory: "src" for a name without '/', and a directory below "src/low-" for a name with one |
| NewFile.OutsideTreeFails | tools/new-file.py:50 | run where there is no "src" directory, the script raises and writes nothing |
| NewFile.SlashNameFails | tools/new-file.py:50 | the name "a/b" in a tree holding only "src" raises and writes nothing |
| NewFile.PathsDistinct | tools/new-file.py:50-67 | a header path is never a source path, and different names never share a path |
| NewFile.IncludeNamesHeader | tools/new-file.py:66-72 | the source includes exactly the header it is paired with |
| NewFile.SecondRunRefuses | tools/new-file.py:49-90 | after a run that wrote or refused, a second run with the same name refuses and changes nothing; after a run that raised, the second raises alike |
| NewFile.GuardIsMacro | tools/new-file.py:49-64 | for a name of letters, digits, '-' and '_', the guard is an upper-case macro name |
| NewFile.GuardCache | tools/new-file.py:49-64 | "cache" gives the guard "_LOW_CACHE_H_" |
| NewFile.GuardHttpClient | tools/new-file.py:49-64 | "http-client" gives "_LOW_HTTP_CLIENT_H_" |
| NewFile.GuardLines | tools/new-file.py:49-79 | the guard is tested, defined and named in the header's closing comment, and both files end with the same footer |
| RepoxmlParser.Set | src/low-repoxml-parser.c:216-236 | a buffer written with a value holds that value, and every other buffer is unchanged |
| RepoxmlParser.Restart | src/low-repoxml-parser.c:93-134 | a text element points the cursor at its buffer; as written the buffer keeps its old contents |
| RepoxmlParser.PrimaryStart | src/low-repoxml-parser.c:80-180 | a text element restarts its buffer; a dependency list selects its type; a version with both ver and rel begins the package; an rpm:entry with a name, inside an element, adds a dependency; any other element changes nothing |
| RepoxmlParser.PrimaryEnd | src/low-repoxml-parser.c:183-213 | a text state returns to BEGIN; closing a package hands the details to the importer and switches to the filelists parser |
| RepoxmlParser.CharacterData | src/low-repoxml-parser.c:216-236 | in a text state the buffer holds the text since its element started; elsewhere the text is dropped |
| RepoxmlParser.FilelistsStart | src/low-repoxml-parser.c:239-262 | undefined exactly for a package without a pkgid attribute; file restarts the file buffer; anything else changes nothing |
| RepoxmlParser.FilelistsEnd | src/low-repoxml-parser.c:266-278 | every end returns to BEGIN; a file hands its text to add_file; a package finishes and switches back to the primary parser |
| RepoxmlParser.ParsePrimaryRun | src/low-repoxml-parser.c:283-377 | while the primary parser is current, the read loop makes exactly the callbacks of its document |
| RepoxmlParser.ParseFilelistsRun | src/low-repoxml-parser.c:283-377 | while the filelists parser is current, the read loop makes exactly the callbacks of its document |
| RepoxmlParser.EntryFields | src/low-repoxml-parser.c:136-176 | the attribute loop over a rendered rpm:entry picks up exactly its fields |
| RepoxmlParser.VersionFields | src/low-repoxml-parser.c:100-118 | the attribute loop over a rendered version element picks up its epoch, version and release |
| RepoxmlParser.EntriesRun | src/low-repoxml-parser.c:136-176 | inside a dependency list every entry makes one add_dependency call, in order, and nothing else changes |
| RepoxmlParser.PrimaryRun | src/low-repoxml-parser.c:80-213 | a package's primary.xml callbacks make its begin, dependency and details calls, and hand over to filelists |
| RepoxmlParser.FilelistsRun | src/low-repoxml-parser.c:239-278 | a package's filelists.xml callbacks make one add_file call per file, finish it, and hand back to primary |
| RepoxmlParser.PackageRun | src/low-repoxml-parser.c:283-377 | one package through both parsers makes exactly its importer calls |
| RepoxmlParser.ParsePackages | src/low-repoxml-parser.c:283-377 | parsing the two documents of a list of packages makes each package's calls, package after package |
| RepoxmlParser.ParseAll | src/low-repoxml-parser.c:283-377 | the importer round trip: parsing primary.xml and filelists.xml of a package list makes exactly each package's begin, dependency, details, file and finish calls, in order |
| RepoxmlParser.EmptyUrlKeepsPrevious | src/low-repoxml-parser.c:127-128 | as written, a package with an empty url element hands the importer the previous package's url; when the start empties the buffer it hands "" |

## Left out

- I/O is not modelled: reading files into expat in 4096-byte chunks, `fopen` and `fclose`, and the `printf`/`fprintf` progress and error messages. The parsers start from the callbacks expat makes, and the mirror-list reader starts from the file's contents.
- Memory management is not modelled: the `free` functions, reference counts, and the destroy functions of the tables.
- `low_util_word_wrap` (src/low-util.c:37-96) only formats text for display.
- `low_mirror_list_lookup_random_mirror` (src/low-mirror-list.c:96-105) is left out because it depends on `rand()`.
- The timing with `gettimeofday` in `low_transaction_resolve` is left out; it only feeds a debug message.
- The `metadata` branch of the primary handler is left out; it only records a progress total.
- The sqlite importer (src/low-sqlite-importer.c) is not part of this model. Its calls are recorded as a log of `Call` values.
- `add_details` is declared in the importer header with a different parameter list. The model records the four strings the parser passes.
- The YAML parser of the dependency-solver harness, and its handling of missing keys, are not part of this model. A package entry is the three strings it holds.
- The rpmdb and the repositories are not part of this model. The available packages of every repository are flattened into one sequence, `Env.repos`, and the installed packages are the sequence `Env.rpmdb`.
- Searches of the rpmdb are modelled by the same `Filter` over a satisfies function `sat` as the fake repository, without the fake repository's crash on a query with a NULL evr. The rpmdb's own query code is not part of this model.
- MirrorList.Stop: on a target where `char` is unsigned, the loop never ends: EOF is stored as 255 and never compares equal to EOF (`MirrorList.CharEofMeaning`). `MirrorList.NewFromTxtFile` does not model that case as an outcome; its `charEof` flag covers only the signed-char reading and the corrected reading.
- MirrorList.EofByteEndsRead: the lemma is about signed-char targets. On an unsigned-char target the same file makes the loop run forever instead.
- `rpmvercmp` and `low_package_dependency_satisfies` are not part of this model. They are the parameters `vercmp` and `sat`.
- CText.StrToUL: `unsigned long` is taken to be 64 bits, as on an LP64 target, so a saturating read gives 2^64 - 1.
- The LowArch enumerators are assumed to have the values of their declaration order, NOARCH 0 through I686 4. Only the order of the ix86 values matters to any contract.
- TransactionTables.Values: GHashTable's iteration order is unspecified. The model takes it to be insertion order, so statements about snapshot order are about that order.
- DeltaParser.KeyFromPkgAsWritten: the integer a string pointer converts to is the parameter `archPtr`. The contracts assume it is not one of the enumerator values 0 to 4; it may be negative once truncated to the enumeration's width.
- DeltaParser.StartElement: `malloc`'s fields are indeterminate. A fresh record's fields are taken to be unset (`None`).
- DeltaParser.AppendText: the bytes `realloc` adds are indeterminate. They are taken to be NUL (`Fresh`).
- DeltaParser.SizeText: when no text was ever received, the buffer is NULL and `strtoul(NULL)` crashes. The model reads the empty text as 0.
- DeltaParser.SizeText: `low_delta_character_data` copies text with `strncpy` and never writes a terminating NUL, so `strtoul(ctx->buf, …)` can read past the end of the allocation when every byte from the size text to the end of the buffer is a digit. The model reads the buffer as if a NUL followed it.
- DeltaParser.SizeReadsStaleText: the stored 52 assumes the byte after the two-byte allocation is not a digit. If it is, the source reads further, past the allocation, and stores a larger number; the model does not say which.
- DeltaParser.FindDelta: a record without oldversion or oldrelease never matches. The source would pass NULL to `strcmp`.
- RepomdParser.CharacterData: `strtoul` reads the callback's text, which expat does not NUL-terminate, so it may read past `len`. The model reads only the callback's text.
- MetalinkParser.DropSuffix: for a text shorter than 19 characters, the negative length converts to a huge `size_t` and `strndup` copies up to the next NUL. The model keeps the callback's whole text.
- RepoxmlParser.CharacterData: the fixed-size buffers and their overflow are not modelled: name[256], arch[64], summary[512], description[4096], url[256], license[64], pkgid[128] and the file buffer[512]. In the model a buffer holds any length of text, so an arch or licence text of 64 bytes or more, which overflows in the source, is kept whole.
- RepoxmlParser.Initial: the buffers start with whatever the stack held, given as `leftover`. The dependency type starts unset.
- Depsolver.PackageFromHash: the fields the harness never assigns hold whatever the allocation held, given as `leftover`.
- ParseOptions.LowOption: a NULL long name in an option table is not modelled. Every entry has a string long name.
- NewFile.Main: the licence banner is the parameter `banner`. The interaction with the command line is not modelled beyond the name argument. Of open()'s IOErrors only the missing directory is modelled; a permission error or a full disk is not, and the path map and the directory set are not required to agree.
- TransactionRules.CheckRemoval: the corrected check is the one the resolve loop uses (`Transaction.Expand`). The written one crashes on any package with files; see "## Findings".

## Findings

| source | as written | input that shows it | evidently intended | confidence | as-written member | corrected member |
|---|---|---|---|---|---|---|
| src/low-delta-parser.c:157 | the size is read with `strtoul(ctx->buf, …)`, which reads the whole buffer past the current text into the stale text of an earlier element | a `sequence` "12" followed by a `size` "5" stores size 52 | read only the current text, as the other fields do with `strndup(buf, str_len)` | high, not executed | DeltaParser.SizeReadsStaleText | DeltaParser.ParseEntry |
| src/low-repomd-parser.c:76-81, 94-98, 125-130 | the FILELISTS cases have no `break` and fall into DELTA | a repomd.xml with primary_db and filelists_db data but no prestodelta reports the filelists database as the delta file, and the filelists time stays 0 | each case ends with `break`, so a filelists element sets only the filelists fields | high, not executed | RepomdParser.FilelistsFallThrough | RepomdParser.ParseEachType |
| src/low-transaction.c:271-274 | each file dependency is built with a NULL evr, and `low_package_dependency_new` calls `strdup` on it (src/low-package.c:34) | removing any package that owns a file crashes | a NULL evr stays NULL, and every installed package that requires the file is scheduled for removal | high, not executed | TransactionRules.CheckRemovalAsWritten | TransactionRules.CheckRemoval |
| src/low-delta-parser.c:280-286 | the package's arch, a `const char *`, is passed to `low_arch_to_str`, which expects a LowArch | a delta stored for "foo-0:1-1.x86_64" is never found, because the key looked up ends in ".unknown" | look the key up with the package's arch string | high, not executed | DeltaParser.FindParsedAsWritten | DeltaParser.FindParsed |
| test/depsolver/main.c:186-196 | the package array has one slot per package and no NULL slot, but the fake repository's iterator stops only at NULL | listing any repository built from a list reads past the end of its array | allocate one more slot and set it to NULL | high, not executed | Depsolver.RepoFromListUnterminated | Depsolver.RepoFromListListsAll |
| src/low-mirror-list.c:56-66 | the result of `fgetc` is stored in a `gchar` before it is compared with EOF | on a signed-char target, a comment holding the byte 0xFF ends the read, and the mirror on the next line is lost | keep the result in an `int` and read to the real end of the file | medium, not executed | MirrorList.EofByteEndsRead | MirrorList.EntriesOfLines |
| src/low-metalink-parser.c:85-92 | every character-data callback in URL state adds a mirror cut by 19 characters | a url holding `&amp;`, which expat reports as three callbacks, yields three mirrors, none of them the url | collect the element's text and add one mirror at its end | medium, not executed | MetalinkParser.SplitTextThreeMirrors | MetalinkParser.SplitTextOneMirror |
| src/low-repoxml-parser.c:127-128, 229-231 | a text element points the cursor at its buffer without emptying it, and an empty element gets no text callback | a package whose url element is empty is imported with the previous package's url | empty the buffer when its element starts | medium, not executed | RepoxmlParser.EmptyUrlKeepsPrevious | RepoxmlParser.ParseAll |

=== FILE: arch.dfy ===
/**
 * Architecture policy of src/low-arch.c: the name table, the compatibility
 * relation and the "best arch" choosers.
 *
 * The enum's declaration is not part of this model; its order is taken to be
 * the order of `arch_map` (NOARCH, X86_64, I386, I586, I686) with UNKNOWN
 * after them, which is what `Rank` states. Only the relative order of the
 * three ix86 values is ever observed.
 */
module Arch {

  datatype Arch = NoArch | X86_64 | I386 | I586 | I686 | Unknown

  /** The assumed numeric value of each enumerator. */
  function Rank(a: Arch): nat {
    match a
    case NoArch => 0
    case X86_64 => 1
    case I386 => 2
    case I586 => 3
    case I686 => 4
    case Unknown => 5
  }

  datatype Entry = Entry(arch: Arch, name: string)

  /** `arch_map`, in source order. */
  const ArchMap: seq<Entry> := [
    Entry(NoArch, "noarch"),
    Entry(X86_64, "x86_64"),
    Entry(I386, "i386"),
    Entry(I586, "i586"),
    Entry(I686, "i686")
  ]

  /** The first entry of `table` whose name is `s`, scanning as the loop in low_arch_from_str does. */
  function LookupName(table: seq<Entry>, s: string): (a: Arch)
    ensures (forall i :: 0 <= i < |table| ==> table[i].name != s) ==> a == Unknown
    ensures (exists i :: 0 <= i < |table| && table[i].name == s) ==>
              exists i :: 0 <= i < |table| && table[i].name == s && a == table[i].arch
                          && forall j :: 0 <= j < i ==> table[j].name != s
  {
    if |table| == 0 then Unknown
    else if table[0].name == s then table[0].arch
    else
      var r := LookupName(table[1..], s);
      assert forall i :: 1 <= i < |table| ==> table[i] == table[1..][i - 1];
      r
  }

  /** The name of the first entry of `table` whose arch is `a`, as low_arch_to_str scans it. */
  function LookupArch(table: seq<Entry>, a: Arch): (s: string)
    ensures (forall i :: 0 <= i < |table| ==> table[i].arch != a) ==> s == "unknown"
    ensures (exists i :: 0 <= i < |table| && table[i].arch == a) ==>
              exists i :: 0 <= i < |table| && table[i].arch == a && s == table[i].name
                          && forall j :: 0 <= j < i ==> table[j].arch != a
  {
    if |table| == 0 then "unknown"
    else if table[0].arch == a then table[0].name
    else
      var r := LookupArch(table[1..], a);
      assert forall i :: 1 <= i < |table| ==> table[i] == table[1..][i - 1];
      r
  }

  /** low_arch_from_str */
  function FromStr(s: string): Arch {
    LookupName(ArchMap, s)
  }

  /** low_arch_to_str */
  function ToStr(a: Arch): string {
    LookupArch(ArchMap, a)
  }

  /**
   * low_arch_to_str handed an integer `v` that need not be an enumerator:
   * the name of the enumerator whose value is `v`, and "unknown" for any
   * other value.
   */
  function ValueName(v: int): (s: string)
    ensures forall a :: Rank(a) == v ==> s == ToStr(a)
    ensures v < 0 || v > 4 ==> s == "unknown"
  {
    if v == 0 then ToStr(NoArch)
    else if v == 1 then ToStr(X86_64)
    else if v == 2 then ToStr(I386)
    else if v == 3 then ToStr(I586)
    else if v == 4 then ToStr(I686)
    else "unknown"
  }

  predicate Mapped(a: Arch) {
    a != Unknown
  }

  predicate IsMappedName(s: string) {
    s == "noarch" || s == "x86_64" || s == "i386" || s == "i586" || s == "i686"
  }

  /** Printing a mapped arch and reading it back gives the same arch. */
  lemma FromStrToStr(a: Arch)
    requires Mapped(a)
    ensures FromStr(ToStr(a)) == a
  {
    var i := Rank(a);
    assert ArchMap[i].arch == a;
    assert forall j :: 0 <= j < i ==> ArchMap[j].arch != a;
    LookupArchAt(ArchMap, a, i);
    var s := ArchMap[i].name;
    forall j | 0 <= j < i
      ensures ArchMap[j].name != s
    {
      NamesDistinct(j, i);
    }
    LookupNameAt(ArchMap, s, i);
  }

  /** No two entries of `arch_map` share a name. */
  lemma NamesDistinct(i: nat, j: nat)
    requires i < j < |ArchMap|
    ensures ArchMap[i].name != ArchMap[j].name
  {
    var a, b := ArchMap[i].name, ArchMap[j].name;
    if |a| == |b| {
      assert a[0] != b[0] || a[1] != b[1];
    }
  }

  /** The scan for a name stops at the first entry holding it. */
  lemma {:induction false} LookupNameAt(table: seq<Entry>, s: string, i: nat)
    requires i < |table| && table[i].name == s
    requires forall j :: 0 <= j < i ==> table[j].name != s
    ensures LookupName(table, s) == table[i].arch
    decreases i
  {
    if i > 0 {
      assert forall j :: 0 <= j < i - 1 ==> table[1..][j] == table[j + 1];
      LookupNameAt(table[1..], s, i - 1);
    }
  }

  /** The scan for an arch stops at the first entry holding it. */
  lemma {:induction false} LookupArchAt(table: seq<Entry>, a: Arch, i: nat)
    requires i < |table| && table[i].arch == a
    requires forall j :: 0 <= j < i ==> table[j].arch != a
    ensures LookupArch(table, a) == table[i].name
    decreases i
  {
    if i > 0 {
      assert forall j :: 0 <= j < i - 1 ==> table[1..][j] == table[j + 1];
      LookupArchAt(table[1..], a, i - 1);
    }
  }

  /** Reading one of the five names and printing the result gives the same name. */
  lemma ToStrFromStr(s: string)
    requires IsMappedName(s)
    ensures ToStr(FromStr(s)) == s
  {
    var i := if s == "noarch" then 0 else if s == "x86_64" then 1 else if s == "i386" then 2 else if s == "i586" then 3 else 4;
    assert ArchMap[i].name == s;
    forall j | 0 <= j < i
      ensures ArchMap[j].name != s
    {
      NamesDistinct(j, i);
    }
    LookupNameAt(ArchMap, s, i);
    var a := ArchMap[i].arch;
    assert forall j :: 0 <= j < i ==> ArchMap[j].arch != a;
    LookupArchAt(ArchMap, a, i);
  }

  /** Every string outside the table reads as UNKNOWN, and UNKNOWN prints as "unknown". */
  lemma UnmappedIsUnknown(s: string)
    ensures !IsMappedName(s) <==> FromStr(s) == Unknown
    ensures ToStr(Unknown) == "unknown"
  {
  }

  /** low_arch_is_ix86 */
  predicate IsIx86(a: Arch) {
    a == I386 || a == I586 || a == I686
  }

  /** low_arch_is_compatible */
  predicate IsCompatible(target: Arch, arch: Arch) {
    if IsIx86(target) && IsIx86(arch) then true
    else if target == arch then true
    else if target == NoArch then true
    else if arch == NoArch then true
    else false
  }

  /** Compatibility is reflexive and symmetric; noarch goes with everything; ix86 arches go together. */
  lemma CompatibilityShape(t: Arch, a: Arch)
    ensures IsCompatible(t, t)
    ensures IsCompatible(t, a) <==> IsCompatible(a, t)
    ensures IsCompatible(NoArch, a) && IsCompatible(a, NoArch)
    ensures IsIx86(t) && IsIx86(a) ==> IsCompatible(t, a)
  {
  }

  /** Two distinct arches, neither noarch and not both ix86, are incompatible. */
  lemma IncompatibleOtherwise(t: Arch, a: Arch)
    requires t != a && t != NoArch && a != NoArch && !(IsIx86(t) && IsIx86(a))
    ensures !IsCompatible(t, a)
  {
  }

  /** low_arch_choose_best_for_system: 1 when arch1 is better, -1 when arch2 is, 0 when equal. */
  function ChooseBestForSystem(arch1: Arch, arch2: Arch): (r: int)
    ensures r == 0 <==> arch1 == arch2
    ensures r == -1 || r == 0 || r == 1
  {
    if arch1 == arch2 then 0
    else if arch2 == X86_64 && IsIx86(arch1) then -1
    else if IsIx86(arch1) && IsIx86(arch2) then (if Rank(arch1) > Rank(arch2) then 1 else -1)
    else 1
  }

  /** low_arch_cmp_for_x86 */
  function CmpForX86(arch1: Arch, arch2: Arch): (r: int)
    ensures r == -1 || r == 0 || r == 1
  {
    if IsIx86(arch1) && IsIx86(arch2) then (if Rank(arch1) >= Rank(arch2) then 1 else -1)
    else if IsIx86(arch1) then 1
    else if IsIx86(arch2) then -1
    else ChooseBestForSystem(arch1, arch2)
  }

  /** low_arch_choose_best */
  function ChooseBest(target: Arch, arch1: Arch, arch2: Arch): (r: int)
    ensures r == 0 <==> arch1 == arch2
    ensures r == -1 || r == 0 || r == 1
  {
    if arch1 == arch2 then 0
    else if IsIx86(target) then CmpForX86(arch1, arch2)
    else if target == arch1 then 1
    else if target == arch2 then -1
    else if arch1 == NoArch then 1
    else if arch2 == NoArch then -1
    else ChooseBestForSystem(arch1, arch2)
  }

  /** For a non-ix86 target an exact match wins first, then noarch. */
  lemma NonIx86TargetPreference(target: Arch, a: Arch)
    requires !IsIx86(target) && a != target
    ensures ChooseBest(target, target, a) == 1 && ChooseBest(target, a, target) == -1
    ensures a != NoArch && target != NoArch ==> ChooseBest(target, NoArch, a) == 1 && ChooseBest(target, a, NoArch) == -1
  {
  }

  /** For an ix86 target every ix86 arch beats every other arch, and the later ix86 enumerator wins. */
  lemma Ix86TargetPreference(target: Arch, a: Arch, b: Arch)
    requires IsIx86(target)
    ensures IsIx86(a) && !IsIx86(b) ==> ChooseBest(target, a, b) == 1 && ChooseBest(target, b, a) == -1
    ensures IsIx86(a) && IsIx86(b) && Rank(a) > Rank(b) ==> ChooseBest(target, a, b) == 1 && ChooseBest(target, b, a) == -1
  {
  }

  /** x86_64 is preferred over any ix86 arch, whichever argument it is. */
  lemma SystemPrefersX86_64(a: Arch)
    requires IsIx86(a)
    ensures ChooseBestForSystem(X86_64, a) == 1 && ChooseBestForSystem(a, X86_64) == -1
  {
  }

  /** Among ix86 arches the system chooser is antisymmetric and follows the enum order. */
  lemma SystemIx86Order(a: Arch, b: Arch)
    requires IsIx86(a) && IsIx86(b) && a != b
    ensures ChooseBestForSystem(a, b) == -ChooseBestForSystem(b, a)
    ensures ChooseBestForSystem(a, b) == 1 <==> Rank(a) > Rank(b)
  {
  }
}

=== FILE: ctext.dfy ===
/**
 * The handful of C library string routines the parsers and utilities lean on
 * (index, rindex, g_strstrip, strtoul, atol), stated over NUL-free strings.
 * A C string is a `string` here; reading one character past its end yields
 * the terminating NUL, which `CharAt` makes explicit.
 */
module CText {

  datatype Option<+T> = None | Some(value: T)

  /** 2^64 - 1, the largest `unsigned long` on an LP64 target, which the model assumes. */
  const ULONG_MAX: nat := 0xFFFF_FFFF_FFFF_FFFF
  /** The `long` range on LP64. */
  const LONG_MAX: int := 0x7FFF_FFFF_FFFF_FFFF
  const LONG_MIN: int := -0x8000_0000_0000_0000

  /** `s[i]` as C reads it: the terminating NUL at and past the end. */
  function CharAt(s: string, i: nat): (c: char)
    ensures i < |s| ==> c == s[i]
    ensures i >= |s| ==> c == '\0'
  {
    if i < |s| then s[i] else '\0'
  }

  /** index(3): position of the first `c` in `s`. */
  function IndexOf(s: string, c: char): (r: Option<nat>)
    ensures r.Some? ==> r.value < |s| && s[r.value] == c
    ensures r.Some? ==> forall i :: 0 <= i < r.value ==> s[i] != c
    ensures r.None? ==> forall i :: 0 <= i < |s| ==> s[i] != c
  {
    if |s| == 0 then None
    else if s[0] == c then Some(0)
    else match IndexOf(s[1..], c)
      case None => None
      case Some(k) => Some(k + 1)
  }

  /** The text of `ls` written one line at a time, each line followed by a newline. */
  function Unlines(ls: seq<string>): string
    decreases |ls|
  {
    if |ls| == 0 then [] else ls[0] + "\n" + Unlines(ls[1..])
  }

  /** rindex(3): position of the last `c` in `s`. */
  function LastIndexOf(s: string, c: char): (r: Option<nat>)
    ensures r.Some? ==> r.value < |s| && s[r.value] == c
    ensures r.Some? ==> forall i :: r.value < i < |s| ==> s[i] != c
    ensures r.None? ==> forall i :: 0 <= i < |s| ==> s[i] != c
  {
    if |s| == 0 then None
    else if s[|s| - 1] == c then Some(|s| - 1)
    else LastIndexOf(s[..|s| - 1], c)
  }

  /** isspace(3) in the C locale (also g_ascii_isspace). */
  predicate IsSpace(c: char) {
    c == ' ' || c == '\t' || c == '\n' || c == '\U{0B}' || c == '\U{0C}' || c == '\r'
  }

  predicate IsDigit(c: char) {
    '0' <= c <= '9'
  }

  /** `s` without its leading white space. */
  function TrimStart(s: string): (r: string)
    ensures |r| <= |s| && r == s[|s| - |r|..]
    ensures forall i :: 0 <= i < |s| - |r| ==> IsSpace(s[i])
    ensures |r| > 0 ==> !IsSpace(r[0])
  {
    if |s| > 0 && IsSpace(s[0]) then TrimStart(s[1..]) else s
  }

  /** `s` without its trailing white space. */
  function TrimEnd(s: string): (r: string)
    ensures |r| <= |s| && r == s[..|r|]
    ensures forall i :: |r| <= i < |s| ==> IsSpace(s[i])
    ensures |r| > 0 ==> !IsSpace(r[|r| - 1])
  {
    if |s| > 0 && IsSpace(s[|s| - 1]) then TrimEnd(s[..|s| - 1]) else s
  }

  /** g_strstrip: remove leading and trailing white space. */
  function Strip(s: string): (r: string)
    ensures exists i, j :: 0 <= i <= j <= |s| && r == s[i..j]
    ensures |r| > 0 ==> !IsSpace(r[0]) && !IsSpace(r[|r| - 1])
    ensures (forall i :: 0 <= i < |s| ==> IsSpace(s[i])) ==> r == []
  {
    var t := TrimStart(s);
    var u := TrimEnd(t);
    assert u == s[|s| - |t|..|s| - |t| + |u|];
    u
  }

  /** Number of leading decimal digits of `s`. */
  function DigitRun(s: string): (n: nat)
    ensures n <= |s|
    ensures forall i :: 0 <= i < n ==> IsDigit(s[i])
    ensures n < |s| ==> !IsDigit(s[n])
  {
    if |s| > 0 && IsDigit(s[0]) then 1 + DigitRun(s[1..]) else 0
  }

  /** The value of a string made only of decimal digits. */
  function DigitsValue(s: string): nat
    requires forall i :: 0 <= i < |s| ==> IsDigit(s[i])
  {
    if |s| == 0 then 0
    else
      assert IsDigit(s[|s| - 1]);
      DigitsValue(s[..|s| - 1]) * 10 + (s[|s| - 1] as int - '0' as int)
  }

  /** The decimal spelling of `n`, without sign or leading zeros. */
  function Decimal(n: nat): (s: string)
    ensures |s| > 0
    ensures forall i :: 0 <= i < |s| ==> IsDigit(s[i])
  {
    var d := ['0' + (n % 10) as char];
    if n < 10 then d else Decimal(n / 10) + d
  }

  lemma {:induction false} DecimalValue(n: nat)
    ensures DigitsValue(Decimal(n)) == n
    decreases n
  {
    var s := Decimal(n);
    if n >= 10 {
      DecimalValue(n / 10);
      assert s[..|s| - 1] == Decimal(n / 10);
    }
  }

  /** Sign and magnitude of the number at the head of `s`, as strtol/strtoul scan it. */
  datatype Scan = Scan(negative: bool, magnitude: nat)

  function ScanNumber(s: string): Scan {
    var t := TrimStart(s);
    var signed := |t| > 0 && (t[0] == '-' || t[0] == '+');
    var u := if signed then t[1..] else t;
    Scan(signed && t[0] == '-', DigitsValue(u[..DigitRun(u)]))
  }

  /**
   * strtoul(s, NULL, 10): leading white space, an optional sign, decimal
   * digits; an out-of-range magnitude saturates at ULONG_MAX and a minus sign
   * negates modulo 2^64.
   */
  function StrToUL(s: string): (r: nat)
    ensures r <= ULONG_MAX
    ensures ScanNumber(s).magnitude > ULONG_MAX ==> r == ULONG_MAX
    ensures !ScanNumber(s).negative && ScanNumber(s).magnitude <= ULONG_MAX ==> r == ScanNumber(s).magnitude
  {
    var sc := ScanNumber(s);
    if sc.magnitude > ULONG_MAX then ULONG_MAX
    else if sc.negative && sc.magnitude > 0 then ULONG_MAX + 1 - sc.magnitude
    else sc.magnitude
  }

  /** atol(s), which glibc implements as strtol(s, NULL, 10): saturates at the `long` bounds. */
  function AtoL(s: string): (r: int)
    ensures LONG_MIN <= r <= LONG_MAX
    ensures ScanNumber(s).negative && ScanNumber(s).magnitude <= LONG_MAX + 1 ==> r == -(ScanNumber(s).magnitude as int)
    ensures !ScanNumber(s).negative && ScanNumber(s).magnitude <= LONG_MAX ==> r == ScanNumber(s).magnitude
  {
    var sc := ScanNumber(s);
    if sc.negative then (if sc.magnitude > LONG_MAX + 1 then LONG_MIN else -(sc.magnitude as int))
    else (if sc.magnitude > LONG_MAX then LONG_MAX else sc.magnitude)
  }

  /** Conversion of a `long` to a 32-bit `int` as gcc performs it: modulo 2^32, two's complement. */
  function ToInt32(x: int): (r: int)
    ensures -0x8000_0000 <= r < 0x8000_0000
    ensures (r - x) % 0x1_0000_0000 == 0
  {
    (x + 0x8000_0000) % 0x1_0000_0000 - 0x8000_0000
  }

  /** strtoul reads back exactly the number that `Decimal` spells. */
  lemma {:induction false} StrToULDecimal(n: nat)
    requires n <= ULONG_MAX
    ensures StrToUL(Decimal(n)) == n
  {
    var s := Decimal(n);
    assert !IsSpace(s[0]) && s[0] != '-' && s[0] != '+' by { assert IsDigit(s[0]); }
    assert TrimStart(s) == s;
    DigitRunAll(s);
    assert s[..|s|] == s;
    DecimalValue(n);
  }

  /** atol reads back exactly the number that `Decimal` spells, within the `long` range. */
  lemma {:induction false} AtoLDecimal(n: nat)
    requires n <= LONG_MAX
    ensures AtoL(Decimal(n)) == n
  {
    var s := Decimal(n);
    assert !IsSpace(s[0]) && s[0] != '-' && s[0] != '+' by { assert IsDigit(s[0]); }
    assert TrimStart(s) == s;
    DigitRunAll(s);
    assert s[..|s|] == s;
    DecimalValue(n);
  }

  /** A value already in the 32-bit range is kept by the conversion to `int`. */
  lemma ToInt32InRange(x: int)
    requires -0x8000_0000 <= x < 0x8000_0000
    ensures ToInt32(x) == x
  {
  }

  lemma {:induction false} DigitRunAll(s: string)
    requires forall i :: 0 <= i < |s| ==> IsDigit(s[i])
    ensures DigitRun(s) == |s|
  {
    if |s| > 0 {
      DigitRunAll(s[1..]);
    }
  }
}

=== FILE: delta_parser.dfy ===
/**
 * The prestodelta parser of src/low-delta-parser.c: expat callbacks that
 * build one record per `newpackage` element and store it in a table keyed
 * by the new package's NEVRA, and the lookup low_delta_find_delta.
 *
 * The records the parser allocates live in `heap`, and the table maps keys
 * to heap positions, so that a record reachable through the context's
 * current pointer and through the table is one record, as in the source.
 * A record's fields start unset (None): malloc leaves them indeterminate and
 * only the attribute and text handlers write them.
 */
module DeltaParser {
  import opened CText
  import opened Sax
  import opened Package
  import Util
  import Arch

  /** The DELTA_STATE_* values. */
  datatype State = Begin | InPackage | InDelta | InFilename | InSequence | InSize | InChecksum

  /** LowPackageDelta. */
  datatype PackageDelta = PackageDelta(
    name: Option<string>,
    arch: Option<string>,
    newEpoch: Option<string>,
    newVersion: Option<string>,
    newRelease: Option<string>,
    oldEpoch: Option<string>,
    oldVersion: Option<string>,
    oldRelease: Option<string>,
    filename: Option<string>,
    size: Option<nat>,
    digestType: Option<Util.DigestType>,
    digest: Option<string>,
    sequence: Option<string>)

  const Unset: PackageDelta := PackageDelta(None, None, None, None, None, None, None, None, None, None, None, None, None)

  /**
   * struct delta_context with the records it allocated. `buf` is the whole
   * allocated text buffer (`buf_size` characters) and `strLen` how much of it
   * holds the current text.
   */
  datatype Context = Context(
    state: State,
    current: Option<nat>,
    heap: seq<PackageDelta>,
    deltas: map<string, nat>,
    buf: string,
    strLen: nat)

  ghost predicate Valid(ctx: Context) {
    && ctx.strLen <= |ctx.buf|
    && (ctx.current.Some? ==> ctx.current.value < |ctx.heap|)
    && forall k :: k in ctx.deltas ==> ctx.deltas[k] < |ctx.heap|
  }

  /** The context low_delta_parse sets up: BEGIN, no record, an empty table, no buffer. */
  const Initial: Context := Context(Begin, None, [], map[], [], 0)

  lemma InitialValid()
    ensures Valid(Initial)
  {
  }

  /** Parsing, or stopped on undefined behaviour (a handler dereferenced the never-set record pointer). */
  datatype Parse = Parsing(ctx: Context) | Undefined

  /** One attribute of a `newpackage` start tag. */
  function NewPackageAttr(pd: PackageDelta, a: Attr): PackageDelta {
    if a.name == "name" then pd.(name := Some(a.value))
    else if a.name == "arch" then pd.(arch := Some(a.value))
    else if a.name == "epoch" then pd.(newEpoch := Some(a.value))
    else if a.name == "version" then pd.(newVersion := Some(a.value))
    else if a.name == "release" then pd.(newRelease := Some(a.value))
    else pd
  }

  /** low_delta_handle_newpackage_start's loop over the attributes. */
  function NewPackageAttrs(pd: PackageDelta, attrs: seq<Attr>): PackageDelta
    decreases |attrs|
  {
    if |attrs| == 0 then pd else NewPackageAttrs(NewPackageAttr(pd, attrs[0]), attrs[1..])
  }

  /**
   * The newpackage attributes fill the new_* fields (the last occurrence
   * winning), and no other field changes.
   */
  lemma {:induction false} NewPackageAttrsLast(pd: PackageDelta, attrs: seq<Attr>)
    ensures var r := NewPackageAttrs(pd, attrs);
            && r.name == Override(pd.name, Last(attrs, "name"))
            && r.arch == Override(pd.arch, Last(attrs, "arch"))
            && r.newEpoch == Override(pd.newEpoch, Last(attrs, "epoch"))
            && r.newVersion == Override(pd.newVersion, Last(attrs, "version"))
            && r.newRelease == Override(pd.newRelease, Last(attrs, "release"))
            && r.(name := pd.name, arch := pd.arch, newEpoch := pd.newEpoch, newVersion := pd.newVersion,
                  newRelease := pd.newRelease) == pd
    decreases |attrs|
  {
    if |attrs| > 0 {
      NewPackageAttrsLast(NewPackageAttr(pd, attrs[0]), attrs[1..]);
      LastCons(attrs, "name");
      LastCons(attrs, "arch");
      LastCons(attrs, "epoch");
      LastCons(attrs, "version");
      LastCons(attrs, "release");
    }
  }

  /** One attribute of a `delta` start tag. */
  function DeltaAttr(pd: PackageDelta, a: Attr): PackageDelta {
    if a.name == "oldepoch" then pd.(oldEpoch := Some(a.value))
    else if a.name == "oldversion" then pd.(oldVersion := Some(a.value))
    else if a.name == "oldrelease" then pd.(oldRelease := Some(a.value))
    else pd
  }

  /** low_delta_handle_delta_start's loop over the attributes. */
  function DeltaAttrs(pd: PackageDelta, attrs: seq<Attr>): PackageDelta
    decreases |attrs|
  {
    if |attrs| == 0 then pd else DeltaAttrs(DeltaAttr(pd, attrs[0]), attrs[1..])
  }

  /** The delta attributes fill the old_* fields, and no other field changes. */
  lemma {:induction false} DeltaAttrsLast(pd: PackageDelta, attrs: seq<Attr>)
    ensures var r := DeltaAttrs(pd, attrs);
            && r.oldEpoch == Override(pd.oldEpoch, Last(attrs, "oldepoch"))
            && r.oldVersion == Override(pd.oldVersion, Last(attrs, "oldversion"))
            && r.oldRelease == Override(pd.oldRelease, Last(attrs, "oldrelease"))
            && r.(oldEpoch := pd.oldEpoch, oldVersion := pd.oldVersion, oldRelease := pd.oldRelease) == pd
    decreases |attrs|
  {
    if |attrs| > 0 {
      DeltaAttrsLast(DeltaAttr(pd, attrs[0]), attrs[1..]);
      LastCons(attrs, "oldepoch");
      LastCons(attrs, "oldversion");
      LastCons(attrs, "oldrelease");
    }
  }

  /** low_delta_handle_checksum_start's loop: each `type` attribute sets the digest type. */
  function ChecksumAttrs(pd: PackageDelta, attrs: seq<Attr>): PackageDelta
    decreases |attrs|
  {
    if |attrs| == 0 then pd
    else
      var next := if attrs[0].name == "type" then pd.(digestType := Some(Util.DigestTypeFromString(attrs[0].value))) else pd;
      ChecksumAttrs(next, attrs[1..])
  }

  /** The checksum's digest type is the classification of its last `type` attribute; nothing else changes. */
  lemma {:induction false} ChecksumAttrsLast(pd: PackageDelta, attrs: seq<Attr>)
    ensures var r := ChecksumAttrs(pd, attrs);
            && (Last(attrs, "type").None? ==> r == pd)
            && (Last(attrs, "type").Some? ==> r == pd.(digestType := Some(Util.DigestTypeFromString(Last(attrs, "type").value))))
    decreases |attrs|
  {
    if |attrs| > 0 {
      var next := if attrs[0].name == "type" then pd.(digestType := Some(Util.DigestTypeFromString(attrs[0].value))) else pd;
      ChecksumAttrsLast(next, attrs[1..]);
      LastCons(attrs, "type");
    }
  }

  /** Some attribute has one of `names`: the loops dereference the record pointer only then. */
  predicate HasAttr(attrs: seq<Attr>, names: set<string>) {
    exists i :: 0 <= i < |attrs| && attrs[i].name in names
  }

  /** Applies `f` to the current record; without one, a write through the pointer is undefined. */
  function UpdateCurrent(ctx: Context, pd: PackageDelta): (r: Context)
    requires Valid(ctx) && ctx.current.Some?
    ensures Valid(r)
    ensures r.heap == ctx.heap[ctx.current.value := pd]
    ensures r == ctx.(heap := r.heap)
  {
    ctx.(heap := ctx.heap[ctx.current.value := pd])
  }

  /** The elements the handlers tell apart by name; every other element is ignored. */
  datatype Tag = NewPackageTag | DeltaTag | FilenameTag | SequenceTag | SizeTag | ChecksumTag | OtherTag

  /** The strcmp chain both element handlers run on the element name. */
  function TagOf(name: string): Tag {
    if name == "newpackage" then NewPackageTag
    else if name == "delta" then DeltaTag
    else if name == "filename" then FilenameTag
    else if name == "sequence" then SequenceTag
    else if name == "size" then SizeTag
    else if name == "checksum" then ChecksumTag
    else OtherTag
  }

  /** Each element of the prestodelta format has its own tag, and any other name is ignored. */
  lemma TagOfNames(name: string)
    ensures TagOf("newpackage") == NewPackageTag && TagOf("delta") == DeltaTag
    ensures TagOf("filename") == FilenameTag && TagOf("sequence") == SequenceTag
    ensures TagOf("size") == SizeTag && TagOf("checksum") == ChecksumTag
    ensures TagOf(name) == OtherTag <==> name !in {"newpackage", "delta", "filename", "sequence", "size", "checksum"}
  {
  }

  /** low_delta_start_element */
  function StartElement(ctx: Context, name: string, attrs: seq<Attr>): (r: Parse)
    requires Valid(ctx)
    ensures r.Parsing? ==> Valid(r.ctx) && r.ctx.strLen == ctx.strLen && r.ctx.buf == ctx.buf && r.ctx.deltas == ctx.deltas
    ensures r.Undefined? <==>
              ctx.current.None?
              && ((TagOf(name) == DeltaTag && HasAttr(attrs, {"oldepoch", "oldversion", "oldrelease"}))
                  || (TagOf(name) == ChecksumTag && HasAttr(attrs, {"type"})))
  {
    match TagOf(name)
    case NewPackageTag =>
      Parsing(ctx.(state := InPackage, current := Some(|ctx.heap|), heap := ctx.heap + [NewPackageAttrs(Unset, attrs)]))
    case DeltaTag =>
      var c := ctx.(state := InDelta);
      if ctx.current.Some? then Parsing(UpdateCurrent(c, DeltaAttrs(ctx.heap[ctx.current.value], attrs)))
      else if HasAttr(attrs, {"oldepoch", "oldversion", "oldrelease"}) then Undefined
      else Parsing(c)
    case FilenameTag => Parsing(ctx.(state := InFilename))
    case SequenceTag => Parsing(ctx.(state := InSequence))
    case SizeTag => Parsing(ctx.(state := InSize))
    case ChecksumTag =>
      var c := ctx.(state := InChecksum);
      if ctx.current.Some? then Parsing(UpdateCurrent(c, ChecksumAttrs(ctx.heap[ctx.current.value], attrs)))
      else if HasAttr(attrs, {"type"}) then Undefined
      else Parsing(c)
    case OtherTag => Parsing(ctx)
  }

  /** A string argument as glibc's printf("%s") prints it: "(null)" for NULL. */
  function PrintS(s: Option<string>): string {
    match s
    case Some(v) => v
    case None => "(null)"
  }

  /** low_delta_make_key: "name-new_epoch:new_version-new_release.arch". */
  function MakeKey(pd: PackageDelta): string {
    PrintS(pd.name) + "-" + PrintS(pd.newEpoch) + ":" + PrintS(pd.newVersion) + "-" + PrintS(pd.newRelease) + "." + PrintS(pd.arch)
  }

  /** The `len` characters realloc() adds to a buffer; their content is indeterminate and taken to be NUL. */
  function Fresh(len: nat): (z: string)
    ensures |z| == len
  {
    seq(len, i => '\0')
  }

  /**
   * low_delta_character_data: grow the buffer by `|s|` when the text would
   * not fit, then copy `s` in after the current text.
   */
  function AppendText(ctx: Context, s: string): (r: Context)
    requires Valid(ctx)
    ensures Valid(r)
    ensures r.strLen == ctx.strLen + |s|
    ensures r.buf[..r.strLen] == ctx.buf[..ctx.strLen] + s
    ensures |ctx.buf| <= |r.buf|
    ensures r.buf[r.strLen..] == (if ctx.strLen + |s| > |ctx.buf| then ctx.buf + Fresh(|s|) else ctx.buf)[r.strLen..]
    ensures r == ctx.(buf := r.buf, strLen := r.strLen)
  {
    var grown := if ctx.strLen + |s| > |ctx.buf| then ctx.buf + Fresh(|s|) else ctx.buf;
    var buf := grown[..ctx.strLen] + s + grown[ctx.strLen + |s|..];
    assert buf[..ctx.strLen + |s|] == ctx.buf[..ctx.strLen] + s;
    ctx.(buf := buf, strLen := ctx.strLen + |s|)
  }

  /** The current text, as strndup(buf, str_len) copies it. */
  function CurrentText(ctx: Context): string
    requires Valid(ctx)
  {
    ctx.buf[..ctx.strLen]
  }

  /**
   * How the size element's text is read. As written, strtoul reads the
   * whole buffer, past the current text into whatever earlier text left
   * there; `exactSize` reads only the current text, like the other fields.
   */
  function SizeText(ctx: Context, exactSize: bool): string
    requires Valid(ctx)
  {
    if exactSize then CurrentText(ctx) else ctx.buf
  }

  /** Stores `pd` as the current record and returns to the delta state; without a record, the write is undefined. */
  function StoreCurrent(ctx: Context, pd: PackageDelta): (r: Parse)
    requires Valid(ctx)
    ensures r.Undefined? <==> ctx.current.None?
  {
    if ctx.current.None? then Undefined else Parsing(UpdateCurrent(ctx.(strLen := 0, state := InDelta), pd))
  }

  /** The record under the context's current pointer, or an unset one when there is none (never read then). */
  function CurrentRecord(ctx: Context): PackageDelta
    requires Valid(ctx)
  {
    if ctx.current.Some? then ctx.heap[ctx.current.value] else Unset
  }

  /**
   * low_delta_end_element. Closing newpackage stores the current record
   * under its key; closing a text element stores the text (stripped, or as a
   * number for size); every end element then empties the text.
   */
  function EndElement(ctx: Context, name: string, exactSize: bool): (r: Parse)
    requires Valid(ctx)
    ensures r.Parsing? ==> Valid(r.ctx) && r.ctx.strLen == 0 && r.ctx.buf == ctx.buf && r.ctx.current == ctx.current
    ensures r.Undefined? <==> ctx.current.None? && TagOf(name) !in {DeltaTag, OtherTag}
    ensures r.Parsing? && TagOf(name) != NewPackageTag ==> r.ctx.deltas == ctx.deltas
  {
    var pd := CurrentRecord(ctx);
    match TagOf(name)
    case NewPackageTag =>
      if ctx.current.None? then Undefined
      else Parsing(ctx.(strLen := 0, state := Begin, deltas := ctx.deltas[MakeKey(pd) := ctx.current.value]))
    case DeltaTag => Parsing(ctx.(strLen := 0, state := InPackage))
    case FilenameTag => StoreCurrent(ctx, pd.(filename := Some(Strip(CurrentText(ctx)))))
    case SequenceTag => StoreCurrent(ctx, pd.(sequence := Some(Strip(CurrentText(ctx)))))
    case SizeTag => StoreCurrent(ctx, pd.(size := Some(StrToUL(SizeText(ctx, exactSize)))))
    case ChecksumTag => StoreCurrent(ctx, pd.(digest := Some(Strip(CurrentText(ctx)))))
    case OtherTag => Parsing(ctx.(strLen := 0))
  }

  /**
   * The state after an end element, with a current record: newpackage
   * returns to BEGIN, delta to PACKAGE, the four text elements to DELTA, and
   * any other element keeps the state; only newpackage changes the table.
   */
  lemma EndStates(ctx: Context, name: string, exactSize: bool)
    requires Valid(ctx) && ctx.current.Some?
    ensures var r := EndElement(ctx, name, exactSize);
            && r.Parsing?
            && r.ctx.state == (match TagOf(name)
                               case NewPackageTag => Begin
                               case DeltaTag => InPackage
                               case OtherTag => ctx.state
                               case _ => InDelta)
            && (TagOf(name) == NewPackageTag ==>
                  r.ctx.deltas == ctx.deltas[MakeKey(ctx.heap[ctx.current.value]) := ctx.current.value]
                  && r.ctx.heap == ctx.heap)
            && (TagOf(name) in {DeltaTag, OtherTag} ==> r.ctx == ctx.(strLen := 0, state := r.ctx.state))
  {
  }

  /**
   * The state after a start element: newpackage opens a fresh record and
   * enters PACKAGE, delta enters DELTA, each text element enters its own
   * state, and any other element changes nothing.
   */
  lemma StartStates(ctx: Context, name: string, attrs: seq<Attr>)
    requires Valid(ctx)
    ensures var r := StartElement(ctx, name, attrs);
            && (r.Parsing? ==> r.ctx.state == (match TagOf(name)
                                               case NewPackageTag => InPackage
                                               case DeltaTag => InDelta
                                               case FilenameTag => InFilename
                                               case SequenceTag => InSequence
                                               case SizeTag => InSize
                                               case ChecksumTag => InChecksum
                                               case OtherTag => ctx.state))
            && (TagOf(name) == NewPackageTag ==>
                  r == Parsing(ctx.(state := InPackage, current := Some(|ctx.heap|),
                                    heap := ctx.heap + [NewPackageAttrs(Unset, attrs)])))
            && (TagOf(name) == OtherTag ==> r == Parsing(ctx))
  {
  }

  /** One callback; once behaviour is undefined nothing more is modelled. */
  function Step(p: Parse, ev: Event, exactSize: bool): (r: Parse)
    requires p.Parsing? ==> Valid(p.ctx)
    ensures r.Parsing? ==> p.Parsing? && Valid(r.ctx)
  {
    match p
    case Undefined => Undefined
    case Parsing(ctx) =>
      match ev
      case Start(name, attrs) => StartElement(ctx, name, attrs)
      case End(name) => EndElement(ctx, name, exactSize)
      case Text(s) => Parsing(AppendText(ctx, s))
  }

  /** The callbacks expat makes for a whole document, in order. */
  function Run(p: Parse, evs: seq<Event>, exactSize: bool): (r: Parse)
    requires p.Parsing? ==> Valid(p.ctx)
    ensures r.Parsing? ==> p.Parsing? && Valid(r.ctx)
    decreases |evs|
  {
    if |evs| == 0 then p else Run(Step(p, evs[0], exactSize), evs[1..], exactSize)
  }

  lemma {:induction false} RunAppend(p: Parse, a: seq<Event>, b: seq<Event>, exactSize: bool)
    requires p.Parsing? ==> Valid(p.ctx)
    ensures Run(p, a + b, exactSize) == Run(Run(p, a, exactSize), b, exactSize)
    decreases |a|
  {
    if |a| > 0 {
      assert (a + b)[1..] == a[1..] + b;
      RunAppend(Step(p, a[0], exactSize), a[1..], b, exactSize);
    } else {
      assert a + b == b;
    }
  }

  /** The table the parse returns: each key with the record it names. */
  function Deltas(ctx: Context): (d: map<string, PackageDelta>)
    requires Valid(ctx)
    ensures d.Keys == ctx.deltas.Keys
    ensures forall k :: k in d ==> d[k] == ctx.heap[ctx.deltas[k]]
  {
    map k | k in ctx.deltas :: ctx.heap[ctx.deltas[k]]
  }

  /** Text accumulates across callbacks, whatever the state, and every end element empties it. */
  lemma {:induction false} TextAccumulates(ctx: Context, a: string, b: string, name: string, exactSize: bool)
    requires Valid(ctx)
    ensures var c := Run(Parsing(ctx), [Text(a), Text(b)], exactSize);
            c.Parsing? && CurrentText(c.ctx) == CurrentText(ctx) + a + b && c.ctx.state == ctx.state
    ensures var e := Run(Parsing(ctx), [Text(a), End(name)], exactSize);
            e.Parsing? ==> e.ctx.strLen == 0
  {
    var c1 := AppendText(ctx, a);
    var c2 := AppendText(c1, b);
    assert [Text(a), Text(b)][1..] == [Text(b)];
    assert Run(Parsing(c1), [Text(b)], exactSize) == Run(Parsing(c2), [], exactSize);
    assert [Text(a), End(name)][1..] == [End(name)];
    assert Run(Parsing(c1), [End(name)], exactSize) == Run(EndElement(c1, name, exactSize), [], exactSize);
  }

  /** compare_epochs: two absent epochs match, an absent one matches "0", otherwise the strings must be equal. */
  function CompareEpochs(e1: Option<string>, e2: Option<string>): bool {
    if e1.None? && e2.None? then true
    else if e1.None? then "0" == e2.value
    else if e2.None? then "0" == e1.value
    else e1.value == e2.value
  }

  /** An absent epoch stands for "0". */
  function EpochOrZero(e: Option<string>): string {
    match e
    case Some(v) => v
    case None => "0"
  }

  /** compare_epochs is equality of the epochs once an absent one reads as "0"; so it is symmetric. */
  lemma CompareEpochsMeaning(e1: Option<string>, e2: Option<string>)
    ensures CompareEpochs(e1, e2) <==> EpochOrZero(e1) == EpochOrZero(e2)
    ensures CompareEpochs(e1, e2) == CompareEpochs(e2, e1)
  {
  }

  /** low_delta_make_key_from_pkg: the new package's key, its arch spelled through low_arch_to_str. */
  function KeyFromPkg(p: Package): string {
    p.name + "-" + PrintS(p.epoch) + ":" + p.version + "-" + p.release + "." + Arch.ToStr(Arch.FromStr(p.arch))
  }

  /**
   * low_delta_make_key_from_pkg as written: the package's arch field is a
   * string, and the pointer is handed to low_arch_to_str where an enumerator
   * is expected; `archPtr` is the integer that pointer converts to.
   */
  function KeyFromPkgAsWritten(p: Package, archPtr: int): string {
    p.name + "-" + PrintS(p.epoch) + ":" + p.version + "-" + p.release + "." + Arch.ValueName(archPtr)
  }

  /** low_delta_find_delta with the written key. */
  function FindDeltaAsWritten(deltas: map<string, PackageDelta>, newPkg: Package, archPtr: int, oldPkg: Package): (r: Option<PackageDelta>)
    ensures r.Some? <==> KeyFromPkgAsWritten(newPkg, archPtr) in deltas && FromOld(deltas[KeyFromPkgAsWritten(newPkg, archPtr)], oldPkg)
  {
    var key := KeyFromPkgAsWritten(newPkg, archPtr);
    if key in deltas && FromOld(deltas[key], oldPkg) then Some(deltas[key]) else None
  }

  /**
   * A pointer to a string, converted to the enumeration, is never one of the
   * enumerators' values 0 to 4 (truncated to 32 bits it may be negative), so
   * the written key always ends in ".unknown", and it is never the key of a
   * delta whose arch is one of the five names.
   */
  lemma {:induction false} WrittenKeyNeverStored(p: Package, archPtr: int, e: Entry)
    requires (archPtr < 0 || archPtr > 4) && Arch.IsMappedName(e.arch)
    ensures KeyFromPkgAsWritten(p, archPtr) != EntryKey(e)
  {
    var x := p.name + "-" + PrintS(p.epoch) + ":" + p.version + "-" + p.release + ".";
    var u := "unknown";
    var s1 := KeyFromPkgAsWritten(p, archPtr);
    var s2 := EntryKey(e);
    assert s1 == x + u;
    var y := e.name + "-" + e.epoch + ":" + e.version + "-" + e.release;
    assert s2 == y + "." + e.arch;
    assert |e.arch| == 4 || |e.arch| == 6;
    if |s1| == |s2| {
      var i := |s2| - |e.arch| - 1;
      assert s2[i] == '.';
      assert s1[i] == u[6 - |e.arch|];
    }
  }

  /** Whether a stored record is a delta from `from`: epochs per compare_epochs, version and release equal. */
  predicate FromOld(pd: PackageDelta, from: Package) {
    && CompareEpochs(from.epoch, pd.oldEpoch)
    && pd.oldVersion == Some(from.version)
    && pd.oldRelease == Some(from.release)
  }

  /**
   * low_delta_find_delta: the record stored under the new package's key, if
   * it is a delta from `oldPkg`. A record missing oldversion or oldrelease never
   * matches (the source would pass NULL to strcmp).
   */
  function FindDelta(deltas: map<string, PackageDelta>, newPkg: Package, oldPkg: Package): (r: Option<PackageDelta>)
    ensures r.Some? <==> KeyFromPkg(newPkg) in deltas && FromOld(deltas[KeyFromPkg(newPkg)], oldPkg)
    ensures r.Some? ==> r.value == deltas[KeyFromPkg(newPkg)]
  {
    var key := KeyFromPkg(newPkg);
    if key in deltas && FromOld(deltas[key], oldPkg) then Some(deltas[key]) else None
  }

  /** One delta of a prestodelta document, as its writer meant it. */
  datatype Entry = Entry(
    name: string, arch: string, epoch: string, version: string, release: string,
    oldEpoch: Option<string>, oldVersion: string, oldRelease: string,
    filename: string, sequence: string, size: nat, checksumType: string, checksum: string)

  /** The element `<tag>text</tag>`. */
  function TextElement(tag: string, attrs: seq<Attr>, text: string): seq<Event> {
    [Start(tag, attrs), Text(text), End(tag)]
  }

  /** The attributes of the `delta` tag; oldepoch may be missing. */
  function OldAttrs(e: Entry): seq<Attr> {
    (if e.oldEpoch.Some? then [Attr("oldepoch", e.oldEpoch.value)] else [])
      + [Attr("oldversion", e.oldVersion), Attr("oldrelease", e.oldRelease)]
  }

  /** The callbacks for one `newpackage` element holding one `delta`. */
  function Render(e: Entry): seq<Event> {
    [Start("newpackage", [Attr("name", e.name), Attr("arch", e.arch), Attr("epoch", e.epoch),
                          Attr("version", e.version), Attr("release", e.release)]),
     Start("delta", OldAttrs(e))]
    + TextElement("filename", [], e.filename)
    + TextElement("sequence", [], e.sequence)
    + TextElement("size", [], Decimal(e.size))
    + TextElement("checksum", [Attr("type", e.checksumType)], e.checksum)
    + [End("delta"), End("newpackage")]
  }

  /** The record the parser should build for `e`. */
  function Expected(e: Entry): PackageDelta {
    PackageDelta(Some(e.name), Some(e.arch), Some(e.epoch), Some(e.version), Some(e.release),
                 e.oldEpoch, Some(e.oldVersion), Some(e.oldRelease),
                 Some(Strip(e.filename)), Some(e.size), Some(Util.DigestTypeFromString(e.checksumType)),
                 Some(Strip(e.checksum)), Some(Strip(e.sequence)))
  }

  /** The key the record for `e` is stored under. */
  function EntryKey(e: Entry): string {
    e.name + "-" + e.epoch + ":" + e.version + "-" + e.release + "." + e.arch
  }

  /** The newpackage tag of `e` fills the new_* fields of a fresh record and nothing else. */
  lemma {:induction false} NewPackageOfEntry(e: Entry)
    ensures NewPackageAttrs(Unset, [Attr("name", e.name), Attr("arch", e.arch), Attr("epoch", e.epoch),
                                    Attr("version", e.version), Attr("release", e.release)])
            == Unset.(name := Some(e.name), arch := Some(e.arch), newEpoch := Some(e.epoch),
                      newVersion := Some(e.version), newRelease := Some(e.release))
  {
    var attrs := [Attr("name", e.name), Attr("arch", e.arch), Attr("epoch", e.epoch),
                  Attr("version", e.version), Attr("release", e.release)];
    var p1 := Unset.(name := Some(e.name));
    var p2 := p1.(arch := Some(e.arch));
    var p3 := p2.(newEpoch := Some(e.epoch));
    var p4 := p3.(newVersion := Some(e.version));
    var p5 := p4.(newRelease := Some(e.release));
    assert NewPackageAttrs(Unset, attrs) == NewPackageAttrs(p1, attrs[1..]);
    assert NewPackageAttrs(p1, attrs[1..]) == NewPackageAttrs(p2, attrs[2..]);
    assert NewPackageAttrs(p2, attrs[2..]) == NewPackageAttrs(p3, attrs[3..]);
    assert NewPackageAttrs(p3, attrs[3..]) == NewPackageAttrs(p4, attrs[4..]);
    assert NewPackageAttrs(p4, attrs[4..]) == NewPackageAttrs(p5, attrs[5..]);
  }

  /** The delta tag of `e` fills the old_* fields and nothing else. */
  lemma {:induction false} OldOfEntry(pd: PackageDelta, e: Entry)
    ensures DeltaAttrs(pd, OldAttrs(e))
            == pd.(oldEpoch := Override(pd.oldEpoch, e.oldEpoch), oldVersion := Some(e.oldVersion), oldRelease := Some(e.oldRelease))
  {
    var tail := [Attr("oldversion", e.oldVersion), Attr("oldrelease", e.oldRelease)];
    var q := pd.(oldEpoch := Override(pd.oldEpoch, e.oldEpoch));
    var q1 := q.(oldVersion := Some(e.oldVersion));
    var q2 := q1.(oldRelease := Some(e.oldRelease));
    if e.oldEpoch.Some? {
      assert OldAttrs(e) == [Attr("oldepoch", e.oldEpoch.value)] + tail;
      assert DeltaAttrs(pd, OldAttrs(e)) == DeltaAttrs(q, tail);
    } else {
      assert OldAttrs(e) == tail;
    }
    assert DeltaAttrs(q, tail) == DeltaAttrs(q1, tail[1..]);
    assert tail[1..] == [Attr("oldrelease", e.oldRelease)];
    assert DeltaAttrs(q1, tail[1..]) == DeltaAttrs(q2, []);
  }

  lemma {:induction false} RunSingle(p: Parse, ev: Event, exactSize: bool)
    requires p.Parsing? ==> Valid(p.ctx)
    ensures Run(p, [ev], exactSize) == Step(p, ev, exactSize)
  {
    assert [ev][1..] == [];
  }

  /**
   * The three callbacks of a text element whose start tag is handled: the
   * text is appended to what the start tag left, then the end tag is handled.
   */
  lemma {:induction false} TextElementRun(ctx: Context, tag: string, attrs: seq<Attr>, text: string, c: Context, exactSize: bool)
    requires Valid(ctx) && StartElement(ctx, tag, attrs) == Parsing(c)
    ensures Run(Parsing(ctx), TextElement(tag, attrs, text), exactSize) == EndElement(AppendText(c, text), tag, exactSize)
  {
    var evs := TextElement(tag, attrs, text);
    assert evs[1..] == [Text(text), End(tag)] && evs[1..][1..] == [End(tag)];
    assert Run(Parsing(ctx), evs, exactSize) == Run(Parsing(c), evs[1..], exactSize);
    var d := AppendText(c, text);
    assert Run(Parsing(c), evs[1..], exactSize) == Run(Parsing(d), [End(tag)], exactSize);
    RunSingle(Parsing(d), End(tag), exactSize);
  }

  /** What a text element leaves in the context: the record `pd` in the current slot, back in the delta state, no text. */
  predicate Stored(ctx: Context, r: Parse, pd: PackageDelta)
    requires ctx.current.Some? && ctx.current.value < |ctx.heap|
  {
    && r.Parsing?
    && r.ctx.state == InDelta && r.ctx.strLen == 0
    && r.ctx.current == ctx.current && r.ctx.deltas == ctx.deltas
    && r.ctx.heap == ctx.heap[ctx.current.value := pd]
  }

  /** A filename or sequence element stores its text, stripped, in the current record. */
  lemma {:induction false} StripElement(ctx: Context, tag: string, text: string, exactSize: bool)
    requires Valid(ctx) && ctx.current.Some? && ctx.strLen == 0
    requires tag == "filename" || tag == "sequence"
    ensures var pd := ctx.heap[ctx.current.value];
            Stored(ctx, Run(Parsing(ctx), TextElement(tag, [], text), exactSize),
                   if tag == "filename" then pd.(filename := Some(Strip(text))) else pd.(sequence := Some(Strip(text))))
    ensures Run(Parsing(ctx), TextElement(tag, [], text), exactSize).Parsing?
            && Run(Parsing(ctx), TextElement(tag, [], text), exactSize).ctx.buf
               == AppendText(ctx.(state := if tag == "filename" then InFilename else InSequence), text).buf
  {
    TagOfNames("");
    var pd := ctx.heap[ctx.current.value];
    if tag == "filename" {
      var c := ctx.(state := InFilename);
      var d := AppendText(c, text);
      var r := UpdateCurrent(d.(strLen := 0, state := InDelta), pd.(filename := Some(Strip(text))));
      assert Run(Parsing(ctx), TextElement(tag, [], text), exactSize) == Parsing(r) by {
        assert StartElement(ctx, "filename", []) == Parsing(c);
        TextElementRun(ctx, "filename", [], text, c, exactSize);
        assert CurrentText(d) == text && d.heap[d.current.value] == pd;
        assert EndElement(d, "filename", exactSize) == Parsing(r);
      }
      assert r.heap == ctx.heap[ctx.current.value := pd.(filename := Some(Strip(text)))];
    } else {
      var c := ctx.(state := InSequence);
      var d := AppendText(c, text);
      var r := UpdateCurrent(d.(strLen := 0, state := InDelta), pd.(sequence := Some(Strip(text))));
      assert Run(Parsing(ctx), TextElement(tag, [], text), exactSize) == Parsing(r) by {
        assert StartElement(ctx, "sequence", []) == Parsing(c);
        TextElementRun(ctx, "sequence", [], text, c, exactSize);
        assert CurrentText(d) == text && d.heap[d.current.value] == pd;
        assert EndElement(d, "sequence", exactSize) == Parsing(r);
      }
      assert r.heap == ctx.heap[ctx.current.value := pd.(sequence := Some(Strip(text)))];
    }
  }

  /**
   * A size element stores the number strtoul reads from the size text, and
   * leaves in the buffer what appending the text to it left.
   */
  lemma {:induction false} SizeElementRead(ctx: Context, text: string, exactSize: bool)
    requires Valid(ctx) && ctx.current.Some?
    ensures var d := AppendText(ctx.(state := InSize), text);
            && Stored(ctx, Run(Parsing(ctx), TextElement("size", [], text), exactSize),
                      ctx.heap[ctx.current.value].(size := Some(StrToUL(SizeText(d, exactSize)))))
            && Run(Parsing(ctx), TextElement("size", [], text), exactSize).ctx.buf == d.buf
  {
    TagOfNames("");
    var c := ctx.(state := InSize);
    var d := AppendText(c, text);
    var pd' := ctx.heap[ctx.current.value].(size := Some(StrToUL(SizeText(d, exactSize))));
    var r := UpdateCurrent(d.(strLen := 0, state := InDelta), pd');
    assert Run(Parsing(ctx), TextElement("size", [], text), exactSize) == Parsing(r) by {
      assert StartElement(ctx, "size", []) == Parsing(c);
      TextElementRun(ctx, "size", [], text, c, exactSize);
      assert d.heap[d.current.value] == ctx.heap[ctx.current.value];
      assert EndElement(d, "size", exactSize) == Parsing(r);
    }
    assert r.heap == ctx.heap[ctx.current.value := pd'];
  }

  /** A size element written in decimal stores that number, when the size text is read exactly. */
  lemma {:induction false} SizeElement(ctx: Context, n: nat)
    requires Valid(ctx) && ctx.current.Some? && ctx.strLen == 0 && n <= ULONG_MAX
    ensures Stored(ctx, Run(Parsing(ctx), TextElement("size", [], Decimal(n)), true),
                   ctx.heap[ctx.current.value].(size := Some(n)))
  {
    SizeElementRead(ctx, Decimal(n), true);
    assert CurrentText(AppendText(ctx.(state := InSize), Decimal(n))) == Decimal(n);
    StrToULDecimal(n);
  }

  /** A checksum start tag with one type attribute sets the current record's digest type. */
  lemma {:induction false} ChecksumStart(ctx: Context, kind: string)
    requires Valid(ctx) && ctx.current.Some?
    ensures StartElement(ctx, "checksum", [Attr("type", kind)])
            == Parsing(UpdateCurrent(ctx.(state := InChecksum),
                                     ctx.heap[ctx.current.value].(digestType := Some(Util.DigestTypeFromString(kind)))))
  {
    TagOfNames("");
    var attrs := [Attr("type", kind)];
    var pd := ctx.heap[ctx.current.value].(digestType := Some(Util.DigestTypeFromString(kind)));
    assert ChecksumAttrs(ctx.heap[ctx.current.value], attrs) == ChecksumAttrs(pd, attrs[1..]);
  }

  /** A checksum end tag stores the current text, stripped, as the digest. */
  lemma {:induction false} ChecksumEnd(ctx: Context, exactSize: bool)
    requires Valid(ctx) && ctx.current.Some?
    ensures EndElement(ctx, "checksum", exactSize)
            == Parsing(UpdateCurrent(ctx.(strLen := 0, state := InDelta),
                                     ctx.heap[ctx.current.value].(digest := Some(Strip(CurrentText(ctx))))))
  {
    TagOfNames("");
  }

  /** A checksum element with one type attribute stores the digest type and the stripped digest. */
  lemma {:induction false} ChecksumElement(ctx: Context, kind: string, text: string, exactSize: bool)
    requires Valid(ctx) && ctx.current.Some? && ctx.strLen == 0
    ensures Stored(ctx, Run(Parsing(ctx), TextElement("checksum", [Attr("type", kind)], text), exactSize),
                   ctx.heap[ctx.current.value].(digestType := Some(Util.DigestTypeFromString(kind)), digest := Some(Strip(text))))
  {
    var pd := ctx.heap[ctx.current.value].(digestType := Some(Util.DigestTypeFromString(kind)));
    var c := UpdateCurrent(ctx.(state := InChecksum), pd);
    var d := AppendText(c, text);
    var r := UpdateCurrent(d.(strLen := 0, state := InDelta), pd.(digest := Some(Strip(text))));
    assert Run(Parsing(ctx), TextElement("checksum", [Attr("type", kind)], text), exactSize) == Parsing(r) by {
      ChecksumStart(ctx, kind);
      TextElementRun(ctx, "checksum", [Attr("type", kind)], text, c, exactSize);
      assert CurrentText(d) == text && d.heap[d.current.value] == pd;
      ChecksumEnd(d, exactSize);
    }
    assert r.heap == ctx.heap[ctx.current.value := pd.(digest := Some(Strip(text)))];
  }

  /** The newpackage and delta start tags of `e`: a new record with the entry's new and old fields. */
  lemma {:induction false} OpenEntry(ctx: Context, e: Entry, exactSize: bool)
    requires Valid(ctx)
    ensures var r := Run(Parsing(ctx), [Start("newpackage", [Attr("name", e.name), Attr("arch", e.arch), Attr("epoch", e.epoch),
                                                              Attr("version", e.version), Attr("release", e.release)]),
                                        Start("delta", OldAttrs(e))], exactSize);
            && r.Parsing?
            && r.ctx == ctx.(state := InDelta, current := Some(|ctx.heap|),
                             heap := ctx.heap + [Expected(e).(filename := None, size := None, digestType := None, digest := None, sequence := None)])
  {
    TagOfNames("");
    var n := |ctx.heap|;
    var attrs := [Attr("name", e.name), Attr("arch", e.arch), Attr("epoch", e.epoch),
                  Attr("version", e.version), Attr("release", e.release)];
    var open := [Start("newpackage", attrs), Start("delta", OldAttrs(e))];
    NewPackageOfEntry(e);
    var pd1 := NewPackageAttrs(Unset, attrs);
    var c1 := ctx.(state := InPackage, current := Some(n), heap := ctx.heap + [pd1]);
    OldOfEntry(pd1, e);
    var c2 := c1.(state := InDelta, heap := c1.heap[n := DeltaAttrs(pd1, OldAttrs(e))]);
    assert StartElement(c1, "delta", OldAttrs(e)) == Parsing(c2);
    assert open[1..] == [Start("delta", OldAttrs(e))];
    assert Run(Parsing(ctx), open, exactSize) == Run(Parsing(c1), open[1..], exactSize);
    assert Run(Parsing(c1), open[1..], exactSize) == Run(Parsing(c2), [], exactSize);
    assert c1.heap[n := DeltaAttrs(pd1, OldAttrs(e))] == ctx.heap + [DeltaAttrs(pd1, OldAttrs(e))];
  }

  /** The delta and newpackage end tags: the current record is stored under its key. */
  lemma {:induction false} CloseEntry(ctx: Context, exactSize: bool)
    requires Valid(ctx) && ctx.current.Some?
    ensures var r := Run(Parsing(ctx), [End("delta"), End("newpackage")], exactSize);
            && r.Parsing?
            && r.ctx == ctx.(state := Begin, strLen := 0,
                             deltas := ctx.deltas[MakeKey(ctx.heap[ctx.current.value]) := ctx.current.value])
  {
    TagOfNames("");
    var c := ctx.(strLen := 0, state := InPackage);
    assert [End("delta"), End("newpackage")][1..] == [End("newpackage")];
    assert Run(Parsing(ctx), [End("delta"), End("newpackage")], exactSize) == Run(Parsing(c), [End("newpackage")], exactSize);
  }

  lemma UpdateLast<T>(s: seq<T>, a: T, b: T)
    ensures (s + [a])[|s| := b] == s + [b]
  {
  }

  /**
   * Parsing one rendered `newpackage` element allocates one record holding
   * exactly the entry's fields and stores it under the entry's key; the
   * records and keys before it are left alone.
   */
  lemma {:induction false} ParseEntry(ctx: Context, e: Entry)
    requires Valid(ctx) && ctx.strLen == 0 && e.size <= ULONG_MAX
    ensures var r := Run(Parsing(ctx), Render(e), true);
            && r.Parsing?
            && r.ctx.state == Begin && r.ctx.strLen == 0
            && r.ctx.current == Some(|ctx.heap|)
            && r.ctx.heap == ctx.heap + [Expected(e)]
            && r.ctx.deltas == ctx.deltas[EntryKey(e) := |ctx.heap|]
  {
    var n := |ctx.heap|;
    var open := [Start("newpackage", [Attr("name", e.name), Attr("arch", e.arch), Attr("epoch", e.epoch),
                                      Attr("version", e.version), Attr("release", e.release)]),
                 Start("delta", OldAttrs(e))];
    var f := TextElement("filename", [], e.filename);
    var q := TextElement("sequence", [], e.sequence);
    var z := TextElement("size", [], Decimal(e.size));
    var k := TextElement("checksum", [Attr("type", e.checksumType)], e.checksum);
    var close := [End("delta"), End("newpackage")];
    assert Render(e) == open + f + q + z + k + close;
    RunAppend(Parsing(ctx), open + f + q + z + k, close, true);
    RunAppend(Parsing(ctx), open + f + q + z, k, true);
    RunAppend(Parsing(ctx), open + f + q, z, true);
    RunAppend(Parsing(ctx), open + f, q, true);
    RunAppend(Parsing(ctx), open, f, true);

    var x := Expected(e);
    var pd2 := x.(filename := None, size := None, digestType := None, digest := None, sequence := None);
    var pd3 := pd2.(filename := x.filename);
    var pd4 := pd3.(sequence := x.sequence);
    var pd5 := pd4.(size := x.size);
    var pd6 := pd5.(digestType := x.digestType, digest := x.digest);
    assert pd6 == x;

    OpenEntry(ctx, e, true);
    var c2 := Run(Parsing(ctx), open, true).ctx;
    assert c2.heap == ctx.heap + [pd2];
    StripElement(c2, "filename", e.filename, true);
    var c3 := Run(Parsing(c2), f, true).ctx;
    UpdateLast(ctx.heap, pd2, pd3);
    StripElement(c3, "sequence", e.sequence, true);
    var c4 := Run(Parsing(c3), q, true).ctx;
    UpdateLast(ctx.heap, pd3, pd4);
    SizeElement(c4, e.size);
    var c5 := Run(Parsing(c4), z, true).ctx;
    UpdateLast(ctx.heap, pd4, pd5);
    ChecksumElement(c5, e.checksumType, e.checksum, true);
    var c6 := Run(Parsing(c5), k, true).ctx;
    UpdateLast(ctx.heap, pd5, pd6);
    assert c6.heap == ctx.heap + [x];
    CloseEntry(c6, true);
    assert MakeKey(Expected(e)) == EntryKey(e);
  }

  /**
   * Looking a package up in the table a parsed entry produced: under the
   * entry's key the entry's record is found exactly when the old package
   * matches its old epoch (an absent one reading as "0"), version and release;
   * under any other key the lookup answers as it did before the entry.
   */
  lemma {:induction false} FindParsed(ctx: Context, e: Entry, newPkg: Package, oldPkg: Package)
    requires Valid(ctx) && ctx.strLen == 0 && e.size <= ULONG_MAX
    ensures var r := Run(Parsing(ctx), Render(e), true);
            && r.Parsing?
            && (KeyFromPkg(newPkg) == EntryKey(e) ==>
                  FindDelta(Deltas(r.ctx), newPkg, oldPkg)
                  == if EpochOrZero(oldPkg.epoch) == EpochOrZero(e.oldEpoch)
                        && oldPkg.version == e.oldVersion && oldPkg.release == e.oldRelease
                     then Some(Expected(e)) else None)
            && (KeyFromPkg(newPkg) != EntryKey(e) ==>
                  FindDelta(Deltas(r.ctx), newPkg, oldPkg) == FindDelta(Deltas(ctx), newPkg, oldPkg))
  {
    var r := Run(Parsing(ctx), Render(e), true);
    assert r.Parsing? && r.ctx.heap == ctx.heap + [Expected(e)] && r.ctx.deltas == ctx.deltas[EntryKey(e) := |ctx.heap|] by {
      ParseEntry(ctx, e);
    }
    FindStored(ctx, r.ctx, e, newPkg, oldPkg);
  }

  /** The lookup in a table to which the record of `e` was added under its key. */
  lemma {:induction false} FindStored(ctx: Context, after: Context, e: Entry, newPkg: Package, oldPkg: Package)
    requires Valid(ctx) && Valid(after)
    requires after.heap == ctx.heap + [Expected(e)] && after.deltas == ctx.deltas[EntryKey(e) := |ctx.heap|]
    ensures KeyFromPkg(newPkg) == EntryKey(e) ==>
              FindDelta(Deltas(after), newPkg, oldPkg)
              == if EpochOrZero(oldPkg.epoch) == EpochOrZero(e.oldEpoch)
                    && oldPkg.version == e.oldVersion && oldPkg.release == e.oldRelease
                 then Some(Expected(e)) else None
    ensures KeyFromPkg(newPkg) != EntryKey(e) ==>
              FindDelta(Deltas(after), newPkg, oldPkg) == FindDelta(Deltas(ctx), newPkg, oldPkg)
  {
    var d := Deltas(after);
    var key := KeyFromPkg(newPkg);
    if key == EntryKey(e) {
      assert d[key] == Expected(e);
      CompareEpochsMeaning(oldPkg.epoch, e.oldEpoch);
    } else {
      assert key in d <==> key in Deltas(ctx);
      if key in d {
        assert ctx.deltas[key] < |ctx.heap|;
        assert d[key] == Deltas(ctx)[key];
      }
    }
  }

  /** In a table holding only the record of `e`, the written lookup finds nothing. */
  lemma {:induction false} WrittenLookupMisses(after: Context, e: Entry, newPkg: Package, oldPkg: Package, archPtr: int)
    requires Valid(after) && after.deltas.Keys == {EntryKey(e)}
    requires (archPtr < 0 || archPtr > 4) && Arch.IsMappedName(e.arch)
    ensures FindDeltaAsWritten(Deltas(after), newPkg, archPtr, oldPkg).None?
  {
    WrittenKeyNeverStored(newPkg, archPtr, e);
  }

  /**
   * The delta a parsed entry stores is never found by the written lookup,
   * whatever the package and its old version; FindParsed shows the
   * corrected lookup finding it for the package it was written for.
   */
  lemma {:induction false} FindParsedAsWritten(ctx: Context, e: Entry, newPkg: Package, oldPkg: Package, archPtr: int)
    requires Valid(ctx) && ctx.strLen == 0 && e.size <= ULONG_MAX && |ctx.deltas| == 0
    requires (archPtr < 0 || archPtr > 4) && Arch.IsMappedName(e.arch)
    ensures Run(Parsing(ctx), Render(e), true).Parsing?
    ensures FindDeltaAsWritten(Deltas(Run(Parsing(ctx), Render(e), true).ctx), newPkg, archPtr, oldPkg).None?
  {
    var r := Run(Parsing(ctx), Render(e), true);
    assert r.Parsing? && Valid(r.ctx) && r.ctx.deltas.Keys == {EntryKey(e)} by {
      ParseEntry(ctx, e);
    }
    WrittenLookupMisses(r.ctx, e, newPkg, oldPkg, archPtr);
  }

  /** A newpackage whose sequence text "12" is followed by the size text "5". */
  const StaleSizeDoc: seq<Event> :=
    [Start("newpackage", [])] + TextElement("sequence", [], "12") + TextElement("size", [], "5")

  lemma {:induction false} SmallDecimals()
    ensures Decimal(5) == "5" && Decimal(52) == "52"
  {
    assert Decimal(5) == ['5'];
    assert Decimal(52) == Decimal(5) + ['2'];
  }

  /** The sequence text "12" goes into a buffer that was never allocated. */
  lemma {:induction false} FirstText(ctx: Context)
    requires Valid(ctx) && ctx.buf == [] && ctx.strLen == 0
    ensures AppendText(ctx, "12").buf == "12"
  {
    var b := AppendText(ctx, "12").buf;
    assert b[..2] == "12" && b[2..] == [];
    assert b == b[..2] + b[2..];
  }

  /** The size text "5" overwrites only the first character of the stale "12". */
  lemma {:induction false} SecondText(ctx: Context)
    requires Valid(ctx) && ctx.buf == "12" && ctx.strLen == 0
    ensures AppendText(ctx, "5").buf == "52" && CurrentText(AppendText(ctx, "5")) == "5"
  {
    var b := AppendText(ctx, "5").buf;
    assert b[..1] == "5" && b[1..] == "12"[1..];
    assert b == b[..1] + b[1..];
  }

  /**
   * The size is read from the whole text buffer: after a two-character
   * sequence, the one-character size "5" is stored as 52 as written, and as
   * 5 when only the current text is read.
   */
  lemma {:induction false} SizeReadsStaleText(exactSize: bool)
    ensures var r := Run(Parsing(Initial), StaleSizeDoc, exactSize);
            r.Parsing? && |r.ctx.heap| == 1 && r.ctx.heap[0].size == Some(if exactSize then 5 else 52)
  {
    var z := TextElement("size", [], "5");
    var c3 := StaleSizePrefix(exactSize);
    var d := AppendText(c3.(state := InSize), "5");
    assert d.buf == "52" && CurrentText(d) == "5" by {
      SecondText(c3.(state := InSize));
    }
    var r4 := Run(Parsing(c3), z, exactSize);
    assert r4.Parsing? && |r4.ctx.heap| == 1 && r4.ctx.heap[0].size == Some(StrToUL(SizeText(d, exactSize))) by {
      SizeElementRead(c3, "5", exactSize);
    }
    StaleSizeValue(d, exactSize);
  }

  /** The document up to its size element leaves "12" in the text buffer and one record open. */
  lemma {:induction false} StaleSizePrefix(exactSize: bool) returns (c3: Context)
    ensures Valid(c3) && c3.buf == "12" && c3.strLen == 0 && c3.current == Some(0) && |c3.heap| == 1
    ensures Run(Parsing(Initial), StaleSizeDoc, exactSize) == Run(Parsing(c3), TextElement("size", [], "5"), exactSize)
  {
    var q := TextElement("sequence", [], "12");
    var c1 := Initial.(state := InPackage, current := Some(0), heap := [Unset]);
    StaleSizeSplit(exactSize);
    OpenStaleRecord(exactSize);
    var r3 := Run(Parsing(c1), q, exactSize);
    assert r3.Parsing? && r3.ctx.buf == "12" && r3.ctx.strLen == 0 && r3.ctx.current == Some(0) && |r3.ctx.heap| == 1 by {
      TagOfNames("");
      StripElement(c1, "sequence", "12", exactSize);
      FirstText(c1.(state := InSequence));
    }
    c3 := r3.ctx;
  }

  /** The document is its newpackage start, its sequence element and its size element, run one after another. */
  lemma {:induction false} StaleSizeSplit(exactSize: bool)
    ensures Run(Parsing(Initial), StaleSizeDoc, exactSize) ==
      Run(Run(Run(Parsing(Initial), [Start("newpackage", [])], exactSize), TextElement("sequence", [], "12"), exactSize), TextElement("size", [], "5"), exactSize)
  {
    var open := [Start("newpackage", [])];
    var q := TextElement("sequence", [], "12");
    var z := TextElement("size", [], "5");
    assert StaleSizeDoc == open + q + z;
    RunAppend(Parsing(Initial), open + q, z, exactSize);
    RunAppend(Parsing(Initial), open, q, exactSize);
  }

  /** The newpackage start opens one record with no fields set. */
  lemma {:induction false} OpenStaleRecord(exactSize: bool)
    ensures Run(Parsing(Initial), [Start("newpackage", [])], exactSize) ==
      Parsing(Initial.(state := InPackage, current := Some(0), heap := [Unset]))
  {
    TagOfNames("");
    RunSingle(Parsing(Initial), Start("newpackage", []), exactSize);
    assert NewPackageAttrs(Unset, []) == Unset;
  }

  /** The size text "5" after "12" reads as 5 from the current text and as 52 from the whole buffer. */
  lemma StaleSizeValue(d: Context, exactSize: bool)
    requires Valid(d) && d.buf == "52" && CurrentText(d) == "5"
    ensures StrToUL(SizeText(d, exactSize)) == if exactSize then 5 else 52
  {
    SmallDecimals();
    StrToULDecimal(5);
    StrToULDecimal(52);
  }
}

=== FILE: depsolver.dfy ===
/**
 * The package and repository builders of the dependency-solver test harness,
 * test/depsolver/main.c: its own EVR splitter, the package made from one
 * parsed YAML package entry, and the fake repository made from a list of
 * them. The YAML parser itself is not part of this model: a package entry is
 * the three strings it holds.
 */
module Depsolver {
  import opened CText
  import opened Package
  import FakeRepo
  import Util

  /** What parse_evr stores: a NULL epoch is None; a release it leaves unassigned is None. */
  datatype ParsedEvr = ParsedEvr(epoch: Option<string>, version: string, release: Option<string>)

  /**
   * parse_evr's outcome. When the last '-' lies before the first ':', the
   * length it hands g_strndup for the version is negative, and the
   * allocation of that many bytes plus one fails: the outcome is undefined.
   */
  datatype EvrOutcome = Parsed(evr: ParsedEvr) | NegativeLength

  /** The last '-' of `evr` lies before its first ':'. */
  predicate DashBeforeColon(evr: string) {
    match (IndexOf(evr, ':'), LastIndexOf(evr, '-'))
    case (Some(c), Some(d)) => d < c
    case _ => false
  }

  /**
   * parse_evr: the epoch is the text before the first ':' (NULL without
   * one); the version starts after that colon (or at the start) and ends at
   * the last '-' (or at the end); the release follows the last '-' and is
   * left unassigned when there is none.
   */
  function ParseEvr(evr: string): (r: EvrOutcome)
    ensures r.NegativeLength? <==> DashBeforeColon(evr)
    ensures r.Parsed? ==> (r.evr.epoch.None? <==> ':' !in evr)
    ensures r.Parsed? ==> (r.evr.release.None? <==> '-' !in evr)
  {
    var start := Util.VersionStart(evr);
    var epoch := match IndexOf(evr, ':') case Some(c) => Some(evr[..c]) case None => None;
    match LastIndexOf(evr, '-')
    case None => Parsed(ParsedEvr(epoch, evr[start..], None))
    case Some(d) =>
      if d < start then NegativeLength
      else Parsed(ParsedEvr(epoch, evr[start..d], Some(evr[d + 1..])))
  }

  lemma {:induction false} IndexOfNone(s: string, c: char)
    requires c !in s
    ensures IndexOf(s, c).None? && LastIndexOf(s, c).None?
  {
    match IndexOf(s, c)
    case None =>
    case Some(k) => assert false;
  }

  /**
   * parse_evr splits exactly as low_util_split_evr does; only the defaults
   * differ: where low_util_split_evr supplies "0", parse_evr leaves the
   * epoch NULL and the release unassigned.
   */
  lemma {:induction false} ParseEvrAgreesWithSplitEvr(evr: string)
    requires !DashBeforeColon(evr)
    ensures ParseEvr(evr).Parsed?
    ensures ParseEvr(evr).evr.version == Util.SplitEvr(evr).version
    ensures ParseEvr(evr).evr.epoch == (if ':' in evr then Some(Util.SplitEvr(evr).epoch) else None)
    ensures ParseEvr(evr).evr.release == (if '-' in evr then Some(Util.SplitEvr(evr).release) else None)
  {
    var s := Util.SplitEvr(evr);
    if ':' !in evr {
      IndexOfNone(evr, ':');
    }
    if '-' !in evr {
      IndexOfNone(evr, '-');
    }
  }

  /** `e:v-r` parses back into its parts when the epoch has no ':' and the release has no '-'. */
  lemma {:induction false} ParseEvrJoin(e: string, v: string, r: string)
    requires ':' !in e && '-' !in r
    ensures ParseEvr(e + ":" + v + "-" + r) == Parsed(ParsedEvr(Some(e), v, Some(r)))
  {
    var s := e + ":" + v + "-" + r;
    Util.SplitJoin(e, v, r);
    assert s[|e|] == ':' && s[|e| + 1 + |v|] == '-';
    assert ':' in s && '-' in s;
    assert !DashBeforeColon(s);
    ParseEvrAgreesWithSplitEvr(s);
  }

  /** Without ':' or '-', the whole string is the version, with no epoch and the release unassigned. */
  lemma {:induction false} ParseEvrBare(v: string)
    requires ':' !in v && '-' !in v
    ensures ParseEvr(v) == Parsed(ParsedEvr(None, v, None))
  {
    IndexOfNone(v, ':');
    IndexOfNone(v, '-');
  }

  /** The strings of one YAML package entry. */
  datatype PackageSpec = PackageSpec(name: string, arch: string, evr: string)

  /**
   * low_package_from_hash: name, arch, epoch, version and, when the EVR has a
   * '-', release come from the entry; everything else is whatever the fresh
   * allocation held, given here as `leftover`.
   */
  function PackageFromHash(spec: PackageSpec, leftover: Package): (r: Option<Package>)
    ensures r.None? <==> DashBeforeColon(spec.evr)
    ensures r.Some? ==> r.value.name == spec.name && r.value.arch == spec.arch
    ensures r.Some? ==> r.value.epoch == ParseEvr(spec.evr).evr.epoch
    ensures r.Some? ==> r.value.version == ParseEvr(spec.evr).evr.version
    ensures r.Some? ==> r.value.release == (if '-' in spec.evr then ParseEvr(spec.evr).evr.release.value else leftover.release)
    ensures r.Some? ==> r.value.provideDeps == leftover.provideDeps && r.value.requireDeps == leftover.requireDeps
    ensures r.Some? ==> r.value.conflictDeps == leftover.conflictDeps && r.value.obsoleteDeps == leftover.obsoleteDeps
    ensures r.Some? ==> r.value.files == leftover.files
  {
    match ParseEvr(spec.evr)
    case NegativeLength => None
    case Parsed(e) =>
      var release := match e.release case Some(rel) => rel case None => leftover.release;
      Some(leftover.(name := spec.name, arch := spec.arch, epoch := e.epoch, version := e.version, release := release))
  }

  /** One package per entry, in list order; None when some entry's EVR is undefined to parse. */
  function PackagesFromList(list: seq<PackageSpec>, leftover: Package): (r: Option<seq<Package>>)
    ensures r.Some? <==> forall k :: 0 <= k < |list| ==> !DashBeforeColon(list[k].evr)
    ensures r.Some? ==> |r.value| == |list|
    ensures r.Some? ==> forall k :: 0 <= k < |list| ==> Some(r.value[k]) == PackageFromHash(list[k], leftover)
    decreases |list|
  {
    if |list| == 0 then Some([])
    else
      var init := PackagesFromList(list[..|list| - 1], leftover);
      var last := PackageFromHash(list[|list| - 1], leftover);
      assert forall k :: 0 <= k < |list| - 1 ==> list[..|list| - 1][k] == list[k];
      if init.None? || last.None? then None else Some(init.value + [last.value])
  }

  /**
   * low_repo_from_list as written: the harness passes (name, id) where
   * low_fake_repo_initialize takes (id, name), and stores one slot per
   * package with no NULL slot after them.
   */
  function RepoFromListAsWritten(name: string, id: string, enabled: bool, list: seq<PackageSpec>, leftover: Package): (r: Option<FakeRepo.Repo>)
    ensures r.Some? <==> PackagesFromList(list, leftover).Some?
    ensures r.Some? ==> r.value.id == name && r.value.name == id && r.value.enabled == enabled
    ensures r.Some? ==> r.value.packages.Some? && |r.value.packages.value| == |list|
    ensures r.Some? ==> forall k :: 0 <= k < |list| ==> r.value.packages.value[k] == PackageFromHash(list[k], leftover)
  {
    match PackagesFromList(list, leftover)
    case None => None
    case Some(ps) =>
      var repo := FakeRepo.Initialize(name, id, enabled);
      Some(repo.(packages := Some(seq(|ps|, i requires 0 <= i < |ps| => Some(ps[i])))))
  }

  /** As written, no slot is NULL, so listing the repository reads past the end of its array. */
  lemma RepoFromListUnterminated(name: string, id: string, enabled: bool, list: seq<PackageSpec>, leftover: Package)
    requires RepoFromListAsWritten(name, id, enabled, list, leftover).Some?
    ensures FakeRepo.ListAll(RepoFromListAsWritten(name, id, enabled, list, leftover).value).ReadsPastEnd?
  {
    var slots := RepoFromListAsWritten(name, id, enabled, list, leftover).value.packages.value;
    assert forall k :: 0 <= k < |slots| ==> slots[k].Some?;
  }

  /** low_repo_from_list with its array NULL-terminated, as low-fake-repo.c expects. */
  function RepoFromList(name: string, id: string, enabled: bool, list: seq<PackageSpec>, leftover: Package): (r: Option<FakeRepo.Repo>)
    ensures r.Some? <==> PackagesFromList(list, leftover).Some?
    ensures r.Some? ==> r.value.id == name && r.value.name == id && r.value.enabled == enabled
  {
    match PackagesFromList(list, leftover)
    case None => None
    case Some(ps) => Some(FakeRepo.Initialize(name, id, enabled).(packages := Some(FakeRepo.SlotsOf(ps))))
  }

  /** With the NULL slot in place, listing the repository yields one package per entry, in list order. */
  lemma RepoFromListListsAll(name: string, id: string, enabled: bool, list: seq<PackageSpec>, leftover: Package)
    requires RepoFromList(name, id, enabled, list, leftover).Some?
    ensures FakeRepo.ListAll(RepoFromList(name, id, enabled, list, leftover).value) == FakeRepo.Yields(PackagesFromList(list, leftover).value)
  {
    var ps := PackagesFromList(list, leftover).value;
    FakeRepo.ContentsOfSlots(ps);
  }
}

=== FILE: fake_repo.dfy ===
/**
 * The in-memory repository of test/unit/low-fake-repo.c: a NULL-terminated
 * array of packages and a filtering iterator over it. It doubles as the
 * reference meaning of every repository search the transaction code makes.
 */
module FakeRepo {
  import opened CText
  import opened Package

  /** LowFakeRepo: the repository header and its package array (None while unset). */
  datatype Repo = Repo(id: string, name: string, enabled: bool, packages: Option<seq<Option<Package>>>)

  /** low_fake_repo_initialize */
  function Initialize(id: string, name: string, enabled: bool): (r: Repo)
    ensures r.id == id && r.name == name && r.enabled == enabled
    ensures r.packages.None?
  {
    Repo(id, name, enabled, None)
  }

  /** `keep` applied to `ps`, order preserved. */
  function Filter(ps: seq<Package>, keep: Package -> bool): (r: seq<Package>)
    ensures |r| <= |ps|
    ensures forall p :: p in r <==> p in ps && keep(p)
    decreases |ps|
  {
    if |ps| == 0 then []
    else if keep(ps[0]) then [ps[0]] + Filter(ps[1..], keep)
    else Filter(ps[1..], keep)
  }

  lemma {:induction false} FilterAppend(ps: seq<Package>, qs: seq<Package>, keep: Package -> bool)
    ensures Filter(ps + qs, keep) == Filter(ps, keep) + Filter(qs, keep)
    decreases |ps|
  {
    if |ps| > 0 {
      assert (ps + qs)[1..] == ps[1..] + qs;
      FilterAppend(ps[1..], qs, keep);
    } else {
      assert ps + qs == qs;
    }
  }

  /** A slot array is terminated when it holds a NULL slot. */
  predicate Terminated(slots: seq<Option<Package>>) {
    None in slots
  }

  /** The packages before the first NULL slot. */
  function Contents(slots: seq<Option<Package>>): (ps: seq<Package>)
    ensures |ps| <= |slots|
    ensures forall i :: 0 <= i < |ps| ==> slots[i] == Some(ps[i])
    ensures |ps| < |slots| ==> slots[|ps|].None?
    decreases |slots|
  {
    if |slots| == 0 || slots[0].None? then []
    else [slots[0].value] + Contents(slots[1..])
  }

  /**
   * The whole run of an iterator: the packages it yields, a read beyond the
   * array, or the crash of a search whose query cannot be copied.
   */
  datatype Iteration = Yields(pkgs: seq<Package>) | ReadsPastEnd | QueryCrash

  /**
   * Repeated low_fake_repo_fake_iter_next from position 0: each call takes the
   * next slot, stops at NULL, and skips packages the filter rejects. Without a
   * NULL slot the iterator reads beyond the array.
   */
  function IterateSlots(slots: seq<Option<Package>>, keep: Package -> bool): (r: Iteration)
    ensures r.Yields? <==> Terminated(slots)
    ensures r.ReadsPastEnd? <==> !Terminated(slots)
    ensures r.Yields? ==> r.pkgs == Filter(Contents(slots), keep)
    decreases |slots|
  {
    if |slots| == 0 then ReadsPastEnd
    else match slots[0]
      case None => Yields([])
      case Some(p) =>
        var rest := IterateSlots(slots[1..], keep);
        assert Terminated(slots[1..]) <==> Terminated(slots) by {
          assert slots == [slots[0]] + slots[1..];
        }
        if !rest.Yields? then ReadsPastEnd
        else if keep(p) then Yields([p] + rest.pkgs)
        else rest
  }

  /** The slots of a well-formed array holding exactly `ps`: one per package, then NULL. */
  function SlotsOf(ps: seq<Package>): (slots: seq<Option<Package>>)
    ensures |slots| == |ps| + 1
  {
    seq(|ps|, i requires 0 <= i < |ps| => Some(ps[i])) + [None]
  }

  lemma {:induction false} ContentsOfSlots(ps: seq<Package>)
    ensures Terminated(SlotsOf(ps))
    ensures Contents(SlotsOf(ps)) == ps
    decreases |ps|
  {
    var slots := SlotsOf(ps);
    assert slots[|ps|] == None;
    if |ps| > 0 {
      assert slots[1..] == SlotsOf(ps[1..]);
      ContentsOfSlots(ps[1..]);
    }
  }

  /** An iterator over a repository; a repository whose array was never set is dereferenced as NULL. */
  function Iterate(repo: Repo, keep: Package -> bool): (r: Iteration)
    ensures r.Yields? <==> WellFormed(repo)
    ensures !r.QueryCrash?
    ensures repo.packages.None? ==> r.ReadsPastEnd?
    ensures repo.packages.Some? ==> r == IterateSlots(repo.packages.value, keep)
  {
    match repo.packages
    case None => ReadsPastEnd
    case Some(slots) => IterateSlots(slots, keep)
  }

  /** The repository holds a NULL-terminated array; its packages are `Listed(repo)`. */
  predicate WellFormed(repo: Repo) {
    repo.packages.Some? && Terminated(repo.packages.value)
  }

  function Listed(repo: Repo): seq<Package>
    requires WellFormed(repo)
  {
    Contents(repo.packages.value)
  }

  /** low_fake_repo_list_all: every package, in array order. */
  function ListAll(repo: Repo): (r: Iteration)
    ensures r.Yields? <==> WellFormed(repo)
    ensures r.Yields? ==> r.pkgs == Listed(repo)
  {
    var r := Iterate(repo, (p: Package) => true);
    assert r.Yields? ==> r.pkgs == Listed(repo) by {
      if r.Yields? { FilterAll(Listed(repo)); }
    }
    r
  }

  lemma {:induction false} FilterAll(ps: seq<Package>)
    ensures Filter(ps, (p: Package) => true) == ps
    decreases |ps|
  {
    if |ps| > 0 {
      FilterAll(ps[1..]);
    }
  }

  /** low_fake_repo_list_by_name: the packages named exactly `name`, in array order. */
  function ListByName(repo: Repo, name: string): (r: Iteration)
    ensures r.Yields? <==> WellFormed(repo)
    ensures r.Yields? ==> r.pkgs == Filter(Listed(repo), (p: Package) => p.name == name)
    ensures r.Yields? ==> forall p :: p in r.pkgs <==> p in Listed(repo) && p.name == name
  {
    Iterate(repo, (p: Package) => p.name == name)
  }

  /**
   * low_fake_repo_search_provides: packages with a provide that satisfies `query`.
   * The query is first copied with low_package_dependency_new, which
   * crashes on a NULL evr before any package is looked at.
   */
  function SearchProvides(repo: Repo, query: Dependency, sat: Satisfies): (r: Iteration)
    ensures r.QueryCrash? <==> query.evr.None?
    ensures r.Yields? <==> query.evr.Some? && WellFormed(repo)
    ensures r.Yields? ==> r.pkgs == Filter(Listed(repo), (p: Package) => AnySatisfies(p.provideDeps, query, sat))
    ensures r.Yields? ==> forall p :: p in r.pkgs <==> p in Listed(repo) && AnySatisfies(p.provideDeps, query, sat)
  {
    match DependencyNewAsWritten(query.name, query.sense, query.evr)
    case NullEvrCrash => QueryCrash
    case Created(copy) => Iterate(repo, (p: Package) => AnySatisfies(p.provideDeps, copy, sat))
  }

  /**
   * low_fake_repo_search_requires: packages with a requirement that satisfies `query`.
   * The query is first copied with low_package_dependency_new, which
   * crashes on a NULL evr before any package is looked at.
   */
  function SearchRequires(repo: Repo, query: Dependency, sat: Satisfies): (r: Iteration)
    ensures r.QueryCrash? <==> query.evr.None?
    ensures r.Yields? <==> query.evr.Some? && WellFormed(repo)
    ensures r.Yields? ==> r.pkgs == Filter(Listed(repo), (p: Package) => AnySatisfies(p.requireDeps, query, sat))
    ensures r.Yields? ==> forall p :: p in r.pkgs <==> p in Listed(repo) && AnySatisfies(p.requireDeps, query, sat)
  {
    match DependencyNewAsWritten(query.name, query.sense, query.evr)
    case NullEvrCrash => QueryCrash
    case Created(copy) => Iterate(repo, (p: Package) => AnySatisfies(p.requireDeps, copy, sat))
  }

  /**
   * low_fake_repo_search_conflicts: packages with a conflict that satisfies `query`.
   * The query is first copied with low_package_dependency_new, which
   * crashes on a NULL evr before any package is looked at.
   */
  function SearchConflicts(repo: Repo, query: Dependency, sat: Satisfies): (r: Iteration)
    ensures r.QueryCrash? <==> query.evr.None?
    ensures r.Yields? <==> query.evr.Some? && WellFormed(repo)
    ensures r.Yields? ==> r.pkgs == Filter(Listed(repo), (p: Package) => AnySatisfies(p.conflictDeps, query, sat))
    ensures r.Yields? ==> forall p :: p in r.pkgs <==> p in Listed(repo) && AnySatisfies(p.conflictDeps, query, sat)
  {
    match DependencyNewAsWritten(query.name, query.sense, query.evr)
    case NullEvrCrash => QueryCrash
    case Created(copy) => Iterate(repo, (p: Package) => AnySatisfies(p.conflictDeps, copy, sat))
  }

  /**
   * low_fake_repo_search_obsoletes: packages with an obsolete that satisfies `query`.
   * The query is first copied with low_package_dependency_new, which
   * crashes on a NULL evr before any package is looked at.
   */
  function SearchObsoletes(repo: Repo, query: Dependency, sat: Satisfies): (r: Iteration)
    ensures r.QueryCrash? <==> query.evr.None?
    ensures r.Yields? <==> query.evr.Some? && WellFormed(repo)
    ensures r.Yields? ==> r.pkgs == Filter(Listed(repo), (p: Package) => AnySatisfies(p.obsoleteDeps, query, sat))
    ensures r.Yields? ==> forall p :: p in r.pkgs <==> p in Listed(repo) && AnySatisfies(p.obsoleteDeps, query, sat)
  {
    match DependencyNewAsWritten(query.name, query.sense, query.evr)
    case NullEvrCrash => QueryCrash
    case Created(copy) => Iterate(repo, (p: Package) => AnySatisfies(p.obsoleteDeps, copy, sat))
  }

  /** low_fake_repo_search_files: packages whose file list holds exactly `file`. */
  function SearchFiles(repo: Repo, file: string): (r: Iteration)
    ensures r.Yields? <==> WellFormed(repo)
    ensures r.Yields? ==> r.pkgs == Filter(Listed(repo), (p: Package) => file in p.files)
    ensures r.Yields? ==> forall p :: p in r.pkgs <==> p in Listed(repo) && file in p.files
  {
    Iterate(repo, (p: Package) => file in p.files)
  }

  /** low_fake_repo_search_details: the query is ignored and every package is listed. */
  function SearchDetails(repo: Repo, query: string): (r: Iteration)
    ensures r == ListAll(repo)
    ensures r.Yields? ==> r.pkgs == Listed(repo)
  {
    ListAll(repo)
  }
}

=== FILE: metalink_parser.dfy ===
/**
 * The metalink parser of src/low-metalink-parser.c: expat callbacks that
 * collect, from the `url` elements of a metalink document, one mirror per
 * character-data callback, with the preference weight of its element.
 *
 * The handlers take a flag `buffered`: false runs them as written (every
 * character-data callback inside an http/ftp `url` element appends a
 * mirror); true collects the element's text and appends one mirror when the
 * element ends.
 */
module MetalinkParser {
  import opened CText
  import opened Sax

  /** METALINK_STATE_URL and METALINK_STATE_OTHER. */
  datatype State = Url | Other

  /** LowMirror: a base url and the weight of its `url` element. */
  datatype Mirror = Mirror(url: string, weight: int)

  /**
   * struct metalink_context. `text` is the text collected so far inside the
   * current url element; the handlers as written never use it.
   */
  datatype Context = Context(state: State, mirrors: seq<Mirror>, weight: int, text: string)

  /** The weight a mirror gets when its url element has no preference attribute. */
  const DefaultWeight: int := 100

  /** The context low_metalink_parse sets up: no mirrors, OTHER, weight 100. */
  const Initial: Context := Context(Other, [], DefaultWeight, "")

  /** The part of a mirror url the handler drops: the file the mirror serves. */
  const RepomdSuffix: string := "repodata/repomd.xml"

  lemma SuffixLength()
    ensures |RepomdSuffix| == 19
  {
  }

  /**
   * strndup(s, len - 19): the text without its last 19 characters. For a
   * shorter text the length is negative and converts to a huge size_t;
   * strndup then copies up to the next NUL, and the model takes the whole
   * text of the callback.
   */
  function DropSuffix(s: string): (r: string)
    ensures |s| >= 19 ==> r + s[|s| - 19..] == s && |r| == |s| - 19
    ensures |s| < 19 ==> r == s
  {
    if |s| >= 19 then s[..|s| - 19] else s
  }

  /** How the attribute loop of a url start tag reads one attribute. */
  datatype AttrKind = MirrorType | OtherType | Preference | Ignored

  function KindOf(a: Attr): AttrKind {
    if a.name == "type" then (if a.value == "http" || a.value == "ftp" then MirrorType else OtherType)
    else if a.name == "preference" then Preference
    else Ignored
  }

  lemma KindOfMeaning(a: Attr)
    ensures KindOf(a) == MirrorType <==> a.name == "type" && (a.value == "http" || a.value == "ftp")
    ensures KindOf(a) == Preference <==> a.name == "preference"
  {
  }

  /** The handler recovers the base url of a mirror from the url of its repomd file. */
  lemma {:induction false} DropSuffixAppended(u: string)
    ensures DropSuffix(u + RepomdSuffix) == u
  {
    SuffixLength();
    var t := u + RepomdSuffix;
    assert t[..|t| - 19] == u;
  }

  /** A `type` attribute that makes a url element a mirror: http or ftp. */
  predicate EntersUrl(a: Attr) {
    KindOf(a) == MirrorType
  }

  /** The weight a preference value sets: atol, converted to `int`. */
  function Weight(value: string): (w: int)
    ensures -0x8000_0000 <= w < 0x8000_0000
  {
    ToInt32(AtoL(value))
  }

  /** One iteration of the attribute loop of a url start tag. */
  function UrlAttr(ctx: Context, a: Attr): Context {
    match KindOf(a)
    case MirrorType => ctx.(state := Url)
    case Preference => ctx.(weight := Weight(a.value))
    case _ => ctx
  }

  /** The attribute loop of a url start tag, as a fold from the last attribute back. */
  function UrlAttrs(ctx: Context, attrs: seq<Attr>): Context
    decreases |attrs|
  {
    if |attrs| == 0 then ctx else UrlAttr(UrlAttrs(ctx, attrs[..|attrs| - 1]), attrs[|attrs| - 1])
  }

  /**
   * The attribute loop enters URL iff some type attribute is http or ftp (or
   * the state already was URL), takes the weight of the last preference
   * attribute, and touches nothing else.
   */
  lemma {:induction false} UrlAttrsEffect(ctx: Context, attrs: seq<Attr>)
    ensures UrlAttrs(ctx, attrs).mirrors == ctx.mirrors && UrlAttrs(ctx, attrs).text == ctx.text
    ensures UrlAttrs(ctx, attrs).state == Url <==> ctx.state == Url || exists i :: 0 <= i < |attrs| && EntersUrl(attrs[i])
    ensures UrlAttrs(ctx, attrs).weight == match Last(attrs, "preference") case None => ctx.weight case Some(v) => Weight(v)
    decreases |attrs|
  {
    if |attrs| > 0 {
      var init := attrs[..|attrs| - 1];
      UrlAttrsEffect(ctx, init);
      assert forall i :: 0 <= i < |init| ==> init[i] == attrs[i];
      var a := attrs[|attrs| - 1];
      KindOfMeaning(a);
      if a.name == "preference" {
        assert Last(attrs, "preference") == Some(a.value);
      } else {
        assert Last(attrs, "preference") == Last(init, "preference");
      }
      assert (exists i :: 0 <= i < |attrs| && EntersUrl(attrs[i]))
             <==> (exists i :: 0 <= i < |init| && EntersUrl(init[i])) || EntersUrl(attrs[|attrs| - 1]);
    }
  }

  /**
   * low_metalink_start_element: every start tag resets the state to OTHER; a
   * url element enters URL iff one of its type attributes is http or ftp,
   * and its last preference attribute sets the weight.
   */
  function StartElement(ctx: Context, name: string, attrs: seq<Attr>): (r: Context)
    ensures r.mirrors == ctx.mirrors && r.text == ctx.text
    ensures r.state == Url <==> name == "url" && exists i :: 0 <= i < |attrs| && EntersUrl(attrs[i])
    ensures r.weight == if name == "url" && Last(attrs, "preference").Some? then Weight(Last(attrs, "preference").value) else ctx.weight
  {
    var c := ctx.(state := Other);
    if name == "url" then
      UrlAttrsEffect(c, attrs);
      UrlAttrs(c, attrs)
    else c
  }

  /**
   * low_metalink_end_element: every end tag resets the state to OTHER and
   * the weight to 100. Buffered, the end of an http/ftp url element appends
   * the one mirror its collected text names.
   */
  function EndElement(ctx: Context, buffered: bool): (r: Context)
    ensures r.state == Other && r.weight == DefaultWeight && r.text == ""
    ensures !buffered || ctx.state == Other ==> r.mirrors == ctx.mirrors
    ensures buffered && ctx.state == Url ==> r.mirrors == ctx.mirrors + [Mirror(DropSuffix(ctx.text), ctx.weight)]
  {
    var ms := if buffered && ctx.state == Url then ctx.mirrors + [Mirror(DropSuffix(ctx.text), ctx.weight)] else ctx.mirrors;
    Context(Other, ms, DefaultWeight, "")
  }

  /**
   * low_metalink_character_data: text in URL state appends a mirror made of
   * the text without the repomd suffix, with the current weight; text in
   * any other state is ignored. Buffered, the text is collected instead.
   */
  function CharacterData(ctx: Context, s: string, buffered: bool): (r: Context)
    ensures r.state == ctx.state && r.weight == ctx.weight
    ensures ctx.state == Other ==> r == ctx
    ensures ctx.state == Url && !buffered ==> r.mirrors == ctx.mirrors + [Mirror(DropSuffix(s), ctx.weight)]
    ensures ctx.state == Url && buffered ==> r.mirrors == ctx.mirrors && r.text == ctx.text + s
  {
    match ctx.state
    case Url => if buffered then ctx.(text := ctx.text + s) else ctx.(mirrors := ctx.mirrors + [Mirror(DropSuffix(s), ctx.weight)])
    case Other => ctx
  }

  function Step(ctx: Context, ev: Event, buffered: bool): Context {
    match ev
    case Start(name, attrs) => StartElement(ctx, name, attrs)
    case End(_) => EndElement(ctx, buffered)
    case Text(s) => CharacterData(ctx, s, buffered)
  }

  /** The callbacks expat makes for a whole document, in order. */
  function Run(ctx: Context, evs: seq<Event>, buffered: bool): Context
    decreases |evs|
  {
    if |evs| == 0 then ctx else Run(Step(ctx, evs[0], buffered), evs[1..], buffered)
  }

  lemma {:induction false} RunAppend(ctx: Context, a: seq<Event>, b: seq<Event>, buffered: bool)
    ensures Run(ctx, a + b, buffered) == Run(Run(ctx, a, buffered), b, buffered)
    decreases |a|
  {
    if |a| > 0 {
      assert (a + b)[1..] == a[1..] + b;
      RunAppend(Step(ctx, a[0], buffered), a[1..], b, buffered);
    } else {
      assert a + b == b;
    }
  }

  lemma {:induction false} RunCons(ctx: Context, ev: Event, rest: seq<Event>, buffered: bool)
    ensures Run(ctx, [ev] + rest, buffered) == Run(Step(ctx, ev, buffered), rest, buffered)
  {
    assert ([ev] + rest)[1..] == rest;
  }

  lemma {:induction false} RunSingle(ctx: Context, ev: Event, buffered: bool)
    ensures Run(ctx, [ev], buffered) == Step(ctx, ev, buffered)
  {
    assert [ev][1..] == [];
  }

  /** Four callbacks in a row, one after the other. */
  lemma {:induction false} RunFour(ctx: Context, a: Event, b: Event, c: Event, d: Event, buffered: bool)
    ensures Run(ctx, [a, b, c, d], buffered)
            == Step(Step(Step(Step(ctx, a, buffered), b, buffered), c, buffered), d, buffered)
  {
    var c1 := Step(ctx, a, buffered);
    var c2 := Step(c1, b, buffered);
    var c3 := Step(c2, c, buffered);
    assert [a, b, c, d][1..] == [b, c, d];
    assert Run(ctx, [a, b, c, d], buffered) == Run(c1, [b, c, d], buffered);
    assert [b, c, d][1..] == [c, d];
    assert Run(c1, [b, c, d], buffered) == Run(c2, [c, d], buffered);
    assert [c, d][1..] == [d];
    assert Run(c2, [c, d], buffered) == Run(c3, [d], buffered);
    RunSingle(c3, d, buffered);
  }

  /** Mirrors are only ever appended: a run keeps the mirrors it started with, in order, as a prefix. */
  lemma {:induction false} MirrorsGrow(ctx: Context, evs: seq<Event>, buffered: bool)
    ensures |ctx.mirrors| <= |Run(ctx, evs, buffered).mirrors|
    ensures Run(ctx, evs, buffered).mirrors[..|ctx.mirrors|] == ctx.mirrors
    decreases |evs|
  {
    if |evs| > 0 {
      var next := Step(ctx, evs[0], buffered);
      assert |ctx.mirrors| <= |next.mirrors| && next.mirrors[..|ctx.mirrors|] == ctx.mirrors;
      MirrorsGrow(next, evs[1..], buffered);
    }
  }

  /** A mirror entry of a metalink document: an http url element with a preference and its url text. */
  function RenderMirror(m: Mirror): seq<Event>
    requires m.weight >= 0
  {
    [Text("\n  "),
     Start("url", [Attr("type", "http"), Attr("preference", Decimal(m.weight))]),
     Text(m.url + RepomdSuffix),
     End("url")]
  }

  /** Weights a preference attribute can spell and atol/int bring back unchanged. */
  predicate Representable(m: Mirror) {
    0 <= m.weight < 0x8000_0000
  }

  function RenderAll(ms: seq<Mirror>): seq<Event>
    requires forall i :: 0 <= i < |ms| ==> Representable(ms[i])
    decreases |ms|
  {
    if |ms| == 0 then []
    else
      assert Representable(ms[|ms| - 1]);
      RenderAll(ms[..|ms| - 1]) + RenderMirror(ms[|ms| - 1])
  }

  /** The url start tag of a rendered mirror enters URL with the mirror's weight. */
  lemma {:induction false} MirrorStart(ctx: Context, m: Mirror)
    requires Representable(m)
    ensures var attrs := [Attr("type", "http"), Attr("preference", Decimal(m.weight))];
            StartElement(ctx, "url", attrs) == Context(Url, ctx.mirrors, m.weight, ctx.text)
  {
    var attrs := [Attr("type", "http"), Attr("preference", Decimal(m.weight))];
    KindOfMeaning(attrs[0]);
    KindOfMeaning(attrs[1]);
    assert EntersUrl(attrs[0]);
    assert Last(attrs, "preference") == Some(Decimal(m.weight)) by {
      assert attrs[|attrs| - 1].name == "preference";
    }
    assert Weight(Decimal(m.weight)) == m.weight by {
      AtoLDecimal(m.weight);
      ToInt32InRange(m.weight);
    }
  }

  /** One rendered mirror, parsed from OTHER with no pending text, appends exactly that mirror, either way. */
  lemma {:induction false} ParseMirror(ctx: Context, m: Mirror, buffered: bool)
    requires ctx.state == Other && ctx.text == "" && Representable(m)
    ensures Run(ctx, RenderMirror(m), buffered) == Context(Other, ctx.mirrors + [m], DefaultWeight, "")
  {
    var evs := RenderMirror(m);
    var c1 := Context(Url, ctx.mirrors, m.weight, "");
    var t := m.url + RepomdSuffix;
    var c2 := if buffered then c1.(text := t) else c1.(mirrors := ctx.mirrors + [m]);
    assert Step(ctx, evs[0], buffered) == ctx;
    assert Step(ctx, evs[1], buffered) == c1 by {
      MirrorStart(ctx, m);
    }
    assert Step(c1, evs[2], buffered) == c2 by {
      SuffixLength();
      assert t[..|t| - 19] == m.url;
      assert DropSuffix(t) == m.url;
    }
    assert Step(c2, evs[3], buffered) == Context(Other, ctx.mirrors + [m], DefaultWeight, "") by {
      if buffered {
        SuffixLength();
        assert t[..|t| - 19] == m.url;
      }
    }
    assert evs == [evs[0], evs[1], evs[2], evs[3]];
    RunFour(ctx, evs[0], evs[1], evs[2], evs[3], buffered);
  }

  /**
   * A metalink document listing mirrors as http url elements, one text
   * callback each, parses back to exactly those mirrors, in document order,
   * with their weights.
   */
  lemma {:induction false} ParseAll(ms: seq<Mirror>, buffered: bool)
    requires forall i :: 0 <= i < |ms| ==> Representable(ms[i])
    ensures Run(Initial, RenderAll(ms), buffered) == Context(Other, ms, DefaultWeight, "")
    decreases |ms|
  {
    if |ms| > 0 {
      var init := ms[..|ms| - 1];
      ParseAll(init, buffered);
      RunAppend(Initial, RenderAll(init), RenderMirror(ms[|ms| - 1]), buffered);
      ParseMirror(Context(Other, init, DefaultWeight, ""), ms[|ms| - 1], buffered);
      assert init + [ms[|ms| - 1]] == ms;
    }
  }

  /** An http url element with no preference attribute: its mirror gets the weight 100 the previous end tag left. */
  lemma {:induction false} NoPreferenceWeight(ctx: Context, url: string)
    requires ctx.state == Other && ctx.text == ""
    ensures var r := Run(EndElement(ctx, false), [Start("url", [Attr("type", "ftp")]), Text(url + RepomdSuffix)], false);
            r.mirrors == ctx.mirrors + [Mirror(url, DefaultWeight)]
  {
    var attrs := [Attr("type", "ftp")];
    var c0 := EndElement(ctx, false);
    KindOfMeaning(attrs[0]);
    assert EntersUrl(attrs[0]);
    assert Last(attrs, "preference") == None;
    var c1 := StartElement(c0, "url", attrs);
    assert c1 == Context(Url, ctx.mirrors, DefaultWeight, "");
    var t := url + RepomdSuffix;
    assert DropSuffix(t) == url by {
      SuffixLength();
      assert t[..|t| - 19] == url;
    }
    RunCons(c0, Start("url", attrs), [Text(t)], false);
    RunSingle(c1, Text(t), false);
  }

  /** A url element whose type is neither http nor ftp yields no mirror. */
  lemma {:induction false} OtherTypeIgnored(ctx: Context, kind: string, s: string, buffered: bool)
    requires kind != "http" && kind != "ftp"
    ensures var c := StartElement(ctx, "url", [Attr("type", kind)]);
            c.state == Other && CharacterData(c, s, buffered) == c && EndElement(c, buffered).mirrors == ctx.mirrors
  {
    var attrs := [Attr("type", kind)];
    KindOfMeaning(attrs[0]);
    assert !EntersUrl(attrs[0]);
  }

  /**
   * The url text of one mirror element as expat delivers it: the entity
   * reference `&amp;` is reported as a character-data callback of its own,
   * so the text arrives as the part before it, "&", and the part after it.
   */
  const SplitUrlDoc: seq<Event> := [
    Start("url", [Attr("type", "http")]),
    Text(SplitHead),
    Text("&"),
    Text(SplitTail),
    End("url")]

  /** The text before the entity reference. */
  const SplitHead: string := "http://exam" + "ple.com/fedora/?a=1"
  /** The text after the entity reference. */
  const SplitTail: string := "b=2/" + RepomdSuffix

  /** The split document drives the handlers through one url start, three texts and one end. */
  lemma {:induction false} SplitRun(buffered: bool)
    ensures Run(Initial, SplitUrlDoc, buffered)
            == EndElement(CharacterData(CharacterData(CharacterData(Context(Url, [], DefaultWeight, ""), SplitHead, buffered), "&", buffered), SplitTail, buffered), buffered)
  {
    var attrs := [Attr("type", "http")];
    var e := SplitUrlDoc;
    var c1 := Context(Url, [], DefaultWeight, "");
    assert Step(Initial, e[0], buffered) == c1 by {
      KindOfMeaning(attrs[0]);
      assert EntersUrl(attrs[0]);
      assert Last(attrs, "preference") == None;
    }
    assert e == [e[0]] + [e[1], e[2], e[3], e[4]];
    RunCons(Initial, e[0], [e[1], e[2], e[3], e[4]], buffered);
    RunFour(c1, e[1], e[2], e[3], e[4], buffered);
  }

  /**
   * As written, a url whose text contains `&amp;` yields three mirrors, one
   * per callback: the part before the entity cut by 19 characters, the "&"
   * itself (too short to cut), and the part after it cut by 19 characters;
   * none of them is the mirror's url.
   */
  lemma {:induction false} SplitTextThreeMirrors()
    ensures Run(Initial, SplitUrlDoc, false).mirrors
            == [Mirror("http://exam", DefaultWeight), Mirror("&", DefaultWeight), Mirror("b=2/", DefaultWeight)]
  {
    SplitRun(false);
    SuffixLength();
    assert |"ple.com/fedora/?a=1"| == 19;
    assert SplitHead[..|SplitHead| - 19] == "http://exam";
    assert SplitTail[..|SplitTail| - 19] == "b=2/";
  }

  /** Collecting the text up to the end tag yields the one mirror the element names. */
  lemma {:induction false} SplitTextOneMirror()
    ensures Run(Initial, SplitUrlDoc, true).mirrors == [Mirror(SplitHead + "&b=2/", DefaultWeight)]
  {
    SplitRun(true);
    assert "" + SplitHead + "&" + SplitTail == (SplitHead + "&b=2/") + RepomdSuffix;
    DropSuffixAppended(SplitHead + "&b=2/");
  }
}

=== FILE: mirror_list.dfy ===
/**
 * The mirror list of src/low-mirror-list.c: an empty list, and the list read
 * from a mirrorlist.txt file, one entry per newline-terminated line that
 * does not start with '#'.
 *
 * A file's contents are a `string` whose characters are its bytes (each
 * below 256). The reading loop stores each fgetc result in a `gchar` before
 * comparing it with EOF. Where `char` is signed, a 0xFF byte then compares
 * equal to EOF and ends the read; where it is unsigned, nothing ever
 * compares equal to EOF (`SeesEof`). The reading functions take a flag
 * `charEof`: true reads as written on a signed-char target, false reads
 * every byte up to the real end of file.
 */
module MirrorList {
  import opened CText

  /** LowMirrorList: the entries, in file order. */
  datatype MirrorList = MirrorList(mirrors: seq<string>)

  /** low_mirror_list_new */
  function New(): (r: MirrorList)
    ensures |r.mirrors| == 0
  {
    MirrorList([])
  }

  /** The byte that, stored in a signed char, equals EOF. */
  const EofByte: char := '\U{FF}'

  /** A line is a comment when its first byte is '#'; an empty line's first byte is the terminating NUL. */
  predicate Comment(line: string) {
    CharAt(line, 0) == '#'
  }

  /** EOF, the value fgetc returns at the end of the file. */
  const Eof: int := -1

  /** The value of `x` after `x = fgetc(file)` for a result `c` (EOF or a byte), with `char` signed or unsigned. */
  function Stored(c: int, signedChar: bool): int {
    if signedChar then (if c >= 128 then c - 256 else c)
    else (if c < 0 then c + 256 else c)
  }

  /** The loop's test `x != EOF` fails. */
  predicate SeesEof(c: int, signedChar: bool) {
    Stored(c, signedChar) == Eof
  }

  /**
   * With a signed `char` the loop stops at the real end of the file and at
   * every 0xFF byte; with an unsigned `char` it never stops, because EOF is
   * stored as 255.
   */
  lemma CharEofMeaning(c: int)
    requires c == Eof || 0 <= c < 256
    ensures SeesEof(c, true) <==> c == Eof || c == 0xFF
    ensures !SeesEof(c, false)
  {
  }

  /** On a signed-char target, Stop is the first byte at which the loop's test fails. */
  lemma StopIsFirstSignedEof(content: string)
    requires forall i :: 0 <= i < |content| ==> content[i] as int < 256
    ensures forall i :: 0 <= i < Stop(content, true) ==> !SeesEof(content[i] as int, true)
    ensures Stop(content, true) < |content| ==> SeesEof(content[Stop(content, true)] as int, true)
  {
  }

  /** How many bytes the loop reads before it sees EOF. */
  function Stop(content: string, charEof: bool): (n: nat)
    ensures n <= |content|
    ensures charEof ==> forall i :: 0 <= i < n ==> content[i] != EofByte
    ensures charEof && n < |content| ==> content[n] == EofByte
    ensures !charEof ==> n == |content|
  {
    if !charEof then |content|
    else match IndexOf(content, EofByte)
      case Some(k) => k
      case None => |content|
  }

  /**
   * The reading loop over the bytes it reads, with `url` the line read so
   * far: a newline ends the line, which becomes an entry unless it is a
   * comment; any other byte is appended to the line. The line in progress
   * when the bytes run out is dropped.
   */
  function Scan(s: string, url: string): seq<string>
    decreases |s|
  {
    if |s| == 0 then []
    else if s[0] == '\n' then (if Comment(url) then [] else [url]) + Scan(s[1..], "")
    else Scan(s[1..], url + [s[0]])
  }

  /** The newline-terminated lines of `s`, without their newlines; text after the last newline is not a line. */
  function CompleteLines(s: string): (ls: seq<string>)
    ensures forall k :: 0 <= k < |ls| ==> '\n' !in ls[k]
    decreases |s|
  {
    match IndexOf(s, '\n')
    case None => []
    case Some(i) =>
      assert '\n' !in s[..i] by {
        assert forall j :: 0 <= j < i ==> s[..i][j] == s[j];
      }
      [s[..i]] + CompleteLines(s[i + 1..])
  }

  /** The lines that are not comments, in order. */
  function Kept(ls: seq<string>): (r: seq<string>)
    ensures forall x :: x in r <==> x in ls && !Comment(x)
    decreases |ls|
  {
    if |ls| == 0 then []
    else (if Comment(ls[0]) then [] else [ls[0]]) + Kept(ls[1..])
  }

  /** The entries a mirrorlist text stands for: its complete lines that are not comments. */
  function Entries(s: string): seq<string> {
    Kept(CompleteLines(s))
  }

  lemma {:induction false} IndexAfter(url: string, s: string)
    requires '\n' !in url && |s| > 0 && s[0] == '\n'
    ensures IndexOf(url + s, '\n') == Some(|url|)
  {
    var t := url + s;
    assert t[|url|] == '\n';
    assert forall j :: 0 <= j < |url| ==> t[j] == url[j];
    match IndexOf(t, '\n')
    case None =>
    case Some(k) => assert k >= |url|;
  }

  lemma {:induction false} IndexNone(url: string)
    requires '\n' !in url
    ensures IndexOf(url, '\n').None?
  {
    match IndexOf(url, '\n')
    case None =>
    case Some(k) => assert false;
  }

  /** The loop's way of reading and the line-based meaning agree: what it yields is the kept complete lines. */
  lemma {:induction false} ScanEntries(s: string, url: string)
    requires '\n' !in url
    ensures Scan(s, url) == Entries(url + s)
    decreases |s|
  {
    if |s| == 0 {
      assert url + s == url;
      IndexNone(url);
    } else if s[0] == '\n' {
      var t := url + s;
      IndexAfter(url, s);
      assert t[..|url|] == url && t[|url| + 1..] == s[1..];
      ScanEntries(s[1..], "");
      assert "" + s[1..] == s[1..];
      assert CompleteLines(t) == [url] + CompleteLines(s[1..]);
      assert [url] + CompleteLines(s[1..]) == ([url] + CompleteLines(s[1..]))[..1] + CompleteLines(s[1..]);
      assert ([url] + CompleteLines(s[1..]))[1..] == CompleteLines(s[1..]);
    } else {
      assert '\n' !in url + [s[0]];
      ScanEntries(s[1..], url + [s[0]]);
      assert url + [s[0]] + s[1..] == url + s;
    }
  }

  /** The first line of a text of lines is its first complete line. */
  lemma {:induction false} CompleteLinesCons(ls: seq<string>, tail: string)
    requires |ls| > 0 && '\n' !in ls[0]
    ensures CompleteLines(Unlines(ls) + tail) == [ls[0]] + CompleteLines(Unlines(ls[1..]) + tail)
  {
    var rest := Unlines(ls[1..]) + tail;
    var nl := "\n" + rest;
    var t := Unlines(ls) + tail;
    assert t == ls[0] + nl by {
      assert Unlines(ls) == ls[0] + "\n" + Unlines(ls[1..]);
    }
    assert IndexOf(t, '\n') == Some(|ls[0]|) by {
      IndexAfter(ls[0], nl);
    }
    assert t[..|ls[0]|] == ls[0] && t[|ls[0]| + 1..] == rest;
  }

  /** A text made of newline-terminated lines, then a partial line, splits back into exactly those lines. */
  lemma {:induction false} LinesOfUnlines(ls: seq<string>, tail: string)
    requires forall k :: 0 <= k < |ls| ==> '\n' !in ls[k]
    requires '\n' !in tail
    ensures CompleteLines(Unlines(ls) + tail) == ls
    decreases |ls|
  {
    if |ls| == 0 {
      assert Unlines(ls) + tail == tail;
      IndexNone(tail);
    } else {
      CompleteLinesCons(ls, tail);
      LinesOfUnlines(ls[1..], tail);
      assert ls == [ls[0]] + ls[1..];
    }
  }

  /**
   * low_mirror_list_new_from_txt_file on a file holding `file` (None when it
   * cannot be opened, and then the result is NULL): the entries are the
   * lines read before EOF is seen, in order, without comments.
   */
  method NewFromTxtFile(file: Option<string>, charEof: bool) returns (r: Option<MirrorList>)
    ensures file.None? ==> r.None?
    ensures file.Some? ==> r == Some(MirrorList(Entries(file.value[..Stop(file.value, charEof)])))
  {
    if file.None? {
      return None;
    }
    var content := file.value;
    var stop := Stop(content, charEof);
    var mirrors: seq<string> := [];
    var url: string := "";
    var i := 0;
    while i < |content| && !(charEof && content[i] == EofByte)
      invariant 0 <= i <= stop
      invariant '\n' !in url
      invariant mirrors + Scan(content[i..stop], url) == Scan(content[..stop], "")
      decreases |content| - i
    {
      var x := content[i];
      assert content[i..stop][0] == x && content[i..stop][1..] == content[i + 1..stop];
      if x == '\n' {
        if !Comment(url) {
          mirrors := mirrors + [url];
        }
        url := "";
      } else {
        url := url + [x];
      }
      i := i + 1;
    }
    assert i == stop;
    assert Scan(content[i..stop], url) == [];
    assert mirrors == Entries(content[..stop]) by {
      ScanEntries(content[..stop], "");
      assert "" + content[..stop] == content[..stop];
    }
    return Some(MirrorList(mirrors));
  }

  /**
   * Read to the real end of file, a text of newline-terminated lines and a
   * partial last line yields exactly its lines that do not start with '#',
   * in order; the partial line is dropped and an empty line is kept.
   */
  lemma {:induction false} EntriesOfLines(ls: seq<string>, tail: string)
    requires forall k :: 0 <= k < |ls| ==> '\n' !in ls[k]
    requires '\n' !in tail
    ensures Entries(Unlines(ls) + tail) == Kept(ls)
  {
    LinesOfUnlines(ls, tail);
  }

  /** An empty line is an entry: its first byte is the NUL, not '#'. */
  lemma EmptyLineKept(ls: seq<string>)
    ensures Kept([""] + ls) == [""] + Kept(ls)
  {
    assert ([""] + ls)[1..] == ls;
  }

  /** A comment holding a Latin-1 byte 0xFF. */
  const LatinComment: string := "#\U{FF}"

  const SampleMirror: string := "http://mirror.example.com/fedora/"

  /** The comment line, then one mirror line. */
  const LatinCommentFile: string := Unlines([LatinComment, SampleMirror])

  /**
   * As written, the 0xFF byte in the comment ends the read, and the file
   * yields no mirror at all; read to its real end it yields the mirror.
   */
  lemma {:induction false} EofByteEndsRead()
    ensures Entries(LatinCommentFile[..Stop(LatinCommentFile, true)]) == []
    ensures Entries(LatinCommentFile[..Stop(LatinCommentFile, false)]) == [SampleMirror]
  {
    var f := LatinCommentFile;
    var a, m := LatinComment, SampleMirror;
    assert [a, m][1..] == [m];
    assert f == a + "\n" + Unlines([m]);
    assert f[1] == EofByte && f[0] != EofByte;
    assert Stop(f, true) == 1;
    assert f[..1] == "#";
    IndexNone("#");
    assert f + "" == f;
    EntriesOfLines([a, m], "");
    assert Comment(a) && !Comment(m);
    assert [m][1..] == [];
  }
}

=== FILE: new_file.dfy ===
/**
 * The source-file scaffolder tools/new-file.py: for a name it derives a
 * header path, a source path and an include guard, fills two templates, and
 * writes both files unless either already exists.
 *
 * The file system is a map from paths to contents together with the set of
 * directories that exist. open(path, 'w') raises IOError when the directory
 * the path names does not exist: outside the tree there is no "src", and a
 * name holding '/' puts both files in a directory under "src/low-". The
 * licence banner the script prints first is a parameter `banner`; every line
 * the script prints ends with a newline, so a file's contents are `Unlines`
 * of its lines.
 */
module NewFile {
  import opened CText

  /** FOOTER */
  const Footer: string := "/* vim: set ts=8 sw=8 noet: */"

  const Prefix: string := "src/low-"

  /** The header's path: "src/low-<name>.h". */
  function HeaderPath(name: string): (p: string)
    ensures |p| == |name| + 10 && p[..8] == Prefix && p[|p| - 2..] == ".h"
  {
    Prefix + name + ".h"
  }

  /** The source's path: "src/low-<name>.c". */
  function SourcePath(name: string): (p: string)
    ensures |p| == |name| + 10 && p[..8] == Prefix && p[|p| - 2..] == ".c"
  {
    Prefix + name + ".c"
  }

  /** The file name the source includes: "low-<name>.h". */
  function IncludeName(name: string): string {
    "low-" + name + ".h"
  }

  /** str.upper on a byte string in the C locale: only a-z change. */
  function UpperAscii(c: char): char {
    if 'a' <= c <= 'z' then (c as int - 32) as char else c
  }

  /** One character of the guard: '-' becomes '_', then it is upper-cased. */
  function GuardChar(c: char): char {
    UpperAscii(if c == '-' then '_' else c)
  }

  /** name.replace('-', '_').upper() */
  function GuardSymbol(name: string): (s: string)
    ensures |s| == |name|
    ensures forall i :: 0 <= i < |s| ==> s[i] == GuardChar(name[i])
    decreases |name|
  {
    if |name| == 0 then "" else [GuardChar(name[0])] + GuardSymbol(name[1..])
  }

  /** The include guard "_LOW_<NAME>_H_". */
  function Guard(name: string): string {
    "_LOW_" + GuardSymbol(name) + "_H_"
  }

  /** print_dot_h's lines. */
  function HeaderLines(name: string, banner: string): seq<string> {
    var g := Guard(name);
    [banner, "", "#ifndef " + g, "#define " + g, "", "", "", "#endif /* " + g + " */", "", Footer]
  }

  /** print_dot_c's lines. */
  function SourceLines(name: string, banner: string): seq<string> {
    [banner, "", "#include \"" + IncludeName(name) + "\"", "", "", "", Footer]
  }

  /** The directory open() creates a path's file in: the text before its last '/', or "." when there is none. */
  function Dir(p: string): string {
    match LastIndexOf(p, '/')
    case None => "."
    case Some(i) => p[..i]
  }

  /**
   * Both files go in the same directory. For a name without '/' it is "src";
   * a name with '/' names a directory below "src/low-".
   */
  lemma {:induction false} DirOfPaths(name: string)
    ensures Dir(HeaderPath(name)) == Dir(SourcePath(name))
    ensures (forall i :: 0 <= i < |name| ==> name[i] != '/') ==> Dir(HeaderPath(name)) == "src"
    ensures (exists i :: 0 <= i < |name| && name[i] == '/') ==>
      |Dir(HeaderPath(name))| >= 8 && Dir(HeaderPath(name))[..8] == Prefix
  {
    var h, c := HeaderPath(name), SourcePath(name);
    assert h[..|h| - 1] == c[..|c| - 1] == Prefix + name + ".";
    assert LastIndexOf(h, '/') == LastIndexOf(h[..|h| - 1], '/');
    assert LastIndexOf(c, '/') == LastIndexOf(c[..|c| - 1], '/');
    var k := LastIndexOf(h, '/');
    assert h[3] == '/';
    assert k.Some? && k.value >= 3;
    if forall i :: 0 <= i < |name| ==> name[i] != '/' {
      forall i | 3 < i < |h|
        ensures h[i] != '/'
      {
        if 8 <= i < 8 + |name| {
          assert h[i] == name[i - 8];
        }
      }
      assert k.value == 3;
    }
    if exists i :: 0 <= i < |name| && name[i] == '/' {
      var j :| 0 <= j < |name| && name[j] == '/';
      assert h[8 + j] == '/';
      assert k.value >= 8 + j;
      assert Dir(h)[..8] == h[..8];
    }
  }

  /**
   * What main reports: it refused, an open() raised IOError, or it wrote
   * these paths in this order.
   */
  datatype Outcome = AlreadyExists | WriteFails | Written(paths: seq<string>)

  /**
   * main: when either path exists nothing is written. Otherwise the header and
   * then the source are opened and written with their templates; when their
   * directory does not exist the first open() raises and nothing is written.
   * Every other path keeps its contents.
   */
  function Main(fs: map<string, string>, dirs: set<string>, name: string, banner: string): (r: (Outcome, map<string, string>))
    ensures HeaderPath(name) in fs || SourcePath(name) in fs ==> r == (AlreadyExists, fs)
    ensures HeaderPath(name) !in fs && SourcePath(name) !in fs && Dir(HeaderPath(name)) !in dirs ==>
      r == (WriteFails, fs)
    ensures HeaderPath(name) !in fs && SourcePath(name) !in fs && Dir(HeaderPath(name)) in dirs ==>
      && r.0 == Written([HeaderPath(name), SourcePath(name)])
      && r.1.Keys == fs.Keys + {HeaderPath(name), SourcePath(name)}
      && r.1[HeaderPath(name)] == Unlines(HeaderLines(name, banner))
      && r.1[SourcePath(name)] == Unlines(SourceLines(name, banner))
      && forall p :: p in fs ==> r.1[p] == fs[p]
  {
    var h, c := HeaderPath(name), SourcePath(name);
    if c in fs || h in fs then (AlreadyExists, fs)
    else if Dir(h) !in dirs then (WriteFails, fs)
    else
      var written := fs[h := Unlines(HeaderLines(name, banner))];
      DirOfPaths(name);
      if Dir(c) !in dirs then (WriteFails, written)
      else
        assert h[|h| - 1] == 'h' && c[|c| - 1] == 'c';
        (Written([h, c]), written[c := Unlines(SourceLines(name, banner))])
  }

  /** The two paths differ, and different names never share a path. */
  lemma {:induction false} PathsDistinct(a: string, b: string)
    ensures HeaderPath(a) != SourcePath(b)
    ensures HeaderPath(a) == HeaderPath(b) ==> a == b
    ensures SourcePath(a) == SourcePath(b) ==> a == b
  {
    var ha, sb := HeaderPath(a), SourcePath(b);
    if |ha| == |sb| {
      assert ha[|ha| - 1] != sb[|sb| - 1];
    }
    if HeaderPath(a) == HeaderPath(b) {
      assert a == HeaderPath(a)[8..|a| + 8];
    }
    if SourcePath(a) == SourcePath(b) {
      assert a == SourcePath(a)[8..|a| + 8];
    }
  }

  /** The source includes the header it is paired with: the header's path is "src/" and the include name. */
  lemma IncludeNamesHeader(name: string)
    ensures "src/" + IncludeName(name) == HeaderPath(name)
  {
    assert "src/" + ("low-" + name + ".h") == Prefix + name + ".h";
  }

  /**
   * Running the script a second time with the same name refuses and changes
   * nothing, unless the first run failed, in which case the second fails alike.
   */
  lemma SecondRunRefuses(fs: map<string, string>, dirs: set<string>, name: string, banner: string, banner2: string)
    ensures Main(fs, dirs, name, banner).0 != WriteFails ==>
      Main(Main(fs, dirs, name, banner).1, dirs, name, banner2) == (AlreadyExists, Main(fs, dirs, name, banner).1)
    ensures Main(fs, dirs, name, banner).0 == WriteFails ==>
      Main(Main(fs, dirs, name, banner).1, dirs, name, banner2) == (WriteFails, fs)
  {
  }

  /** Run outside the tree, where there is no "src", the script writes nothing. */
  lemma OutsideTreeFails(fs: map<string, string>, dirs: set<string>, name: string, banner: string)
    requires "src" !in dirs && HeaderPath(name) !in fs && SourcePath(name) !in fs
    requires forall i :: 0 <= i < |name| ==> name[i] != '/'
    ensures Main(fs, dirs, name, banner) == (WriteFails, fs)
  {
    DirOfPaths(name);
  }

  /** "a/b" names src/low-a/b.h, whose directory src/low-a is missing from a bare tree: nothing is written. */
  lemma SlashNameFails(banner: string)
    ensures Main(map[], {"src"}, "a/b", banner) == (WriteFails, map[])
  {
    DirOfPaths("a/b");
    assert "a/b"[1] == '/';
  }

  /** A character of a C identifier as the script's names use them. */
  predicate NameChar(c: char) {
    'a' <= c <= 'z' || 'A' <= c <= 'Z' || '0' <= c <= '9' || c == '-' || c == '_'
  }

  /** A character of an upper-case macro name. */
  predicate MacroChar(c: char) {
    'A' <= c <= 'Z' || '0' <= c <= '9' || c == '_'
  }

  /** For a name of letters, digits, '-' and '_', the guard is a valid upper-case macro name. */
  lemma {:induction false} GuardIsMacro(name: string)
    requires forall i :: 0 <= i < |name| ==> NameChar(name[i])
    ensures forall i :: 0 <= i < |Guard(name)| ==> MacroChar(Guard(name)[i])
  {
    var g := Guard(name);
    var s := GuardSymbol(name);
    forall i | 0 <= i < |g|
      ensures MacroChar(g[i])
    {
      if 5 <= i < 5 + |s| {
        assert g[i] == s[i - 5] == GuardChar(name[i - 5]);
      }
    }
  }

  /** A guard symbol is fixed by its characters: each is the name's character mapped by GuardChar. */
  lemma {:induction false} GuardSymbolIs(name: string, sym: string)
    requires |sym| == |name|
    requires forall i :: 0 <= i < |name| ==> sym[i] == GuardChar(name[i])
    ensures GuardSymbol(name) == sym
  {
    var g := GuardSymbol(name);
    assert forall i :: 0 <= i < |g| ==> g[i] == sym[i];
  }

  /** "cache" gives the guard "_LOW_CACHE_H_". */
  lemma GuardCache()
    ensures Guard("cache") == "_LOW_" + "CACHE" + "_H_"
  {
    var n := "cache";
    assert GuardChar(n[0]) == 'C' && GuardChar(n[1]) == 'A' && GuardChar(n[2]) == 'C';
    assert GuardChar(n[3]) == 'H' && GuardChar(n[4]) == 'E';
    GuardSymbolIs(n, "CACHE");
  }

  /** "http-client" gives "_LOW_HTTP_CLIENT_H_": the dash becomes an underscore. */
  lemma GuardHttpClient()
    ensures Guard("http-client") == "_LOW_" + "HTTP_CLIENT" + "_H_"
  {
    var n := "http-client";
    assert GuardChar(n[0]) == 'H' && GuardChar(n[1]) == 'T' && GuardChar(n[2]) == 'T' && GuardChar(n[3]) == 'P';
    assert GuardChar(n[4]) == '_';
    assert GuardChar(n[5]) == 'C' && GuardChar(n[6]) == 'L' && GuardChar(n[7]) == 'I';
    assert GuardChar(n[8]) == 'E' && GuardChar(n[9]) == 'N' && GuardChar(n[10]) == 'T';
    GuardSymbolIs(n, "HTTP_CLIENT");
  }

  /** The guard is tested, defined and named in the closing comment of the header. */
  lemma GuardLines(name: string, banner: string)
    ensures HeaderLines(name, banner)[2] == "#ifndef " + Guard(name)
    ensures HeaderLines(name, banner)[3] == "#define " + Guard(name)
    ensures HeaderLines(name, banner)[7] == "#endif /* " + Guard(name) + " */"
    ensures HeaderLines(name, banner)[9] == SourceLines(name, banner)[6] == Footer
  {
  }
}

=== FILE: package.dfy ===
/**
 * Package and dependency records. The fields are those of src/low-package.h;
 * the dependency lists and the file list are what the rest of the code reads
 * through low_package_get_provides/requires/conflicts/obsoletes/files, whose
 * bodies are not part of this model.
 */
module Package {
  import opened CText

  /** LowPackageDependencySense; only DEPENDENCY_SENSE_NONE is named in the code modelled. */
  datatype Sense = SenseNone | SenseOther(code: nat)

  /** A dependency; `evr` is None for a NULL evr. */
  datatype Dependency = Dependency(name: string, sense: Sense, evr: Option<string>)

  /** A package; `epoch` is None for a NULL epoch. */
  datatype Package = Package(
    name: string,
    epoch: Option<string>,
    version: string,
    release: string,
    arch: string,
    provideDeps: seq<Dependency>,
    requireDeps: seq<Dependency>,
    conflictDeps: seq<Dependency>,
    obsoleteDeps: seq<Dependency>,
    files: seq<string>)

  /**
   * low_package_dependency_satisfies is not part of this model: every search
   * takes it as a parameter `sat(query, candidate)`.
   */
  type Satisfies = (Dependency, Dependency) -> bool

  /** Some dependency of `deps` satisfies `query`. */
  predicate AnySatisfies(deps: seq<Dependency>, query: Dependency, sat: Satisfies) {
    exists i :: 0 <= i < |deps| && sat(query, deps[i])
  }

  /** The outcome of src/low-package.c's low_package_dependency_new as written. */
  datatype Creation = Created(dep: Dependency) | NullEvrCrash

  /**
   * low_package_dependency_new as written: it strdup()s the evr, and
   * strdup(NULL) dereferences a null pointer.
   */
  function DependencyNewAsWritten(name: string, sense: Sense, evr: Option<string>): (r: Creation)
    ensures r.NullEvrCrash? <==> evr.None?
    ensures r.Created? ==> r.dep.name == name && r.dep.sense == sense && r.dep.evr == evr
  {
    match evr
    case None => NullEvrCrash
    case Some(e) => Created(Dependency(name, sense, Some(e)))
  }

  /** The constructor as evidently intended: a NULL evr stays NULL. */
  function DependencyNew(name: string, sense: Sense, evr: Option<string>): Dependency {
    Dependency(name, sense, evr)
  }

  /**
   * The intended constructor never fails, and agrees with the written one on
   * every input the written one survives.
   */
  lemma DependencyNewAgrees(name: string, sense: Sense, evr: Option<string>)
    ensures evr.Some? ==> DependencyNewAsWritten(name, sense, evr) == Created(DependencyNew(name, sense, evr))
    ensures DependencyNew(name, sense, evr).evr == evr
  {
  }

  /**
   * low_transaction_check_removal builds one dependency per file of the
   * removed package with a NULL evr: as written, each such call crashes.
   */
  lemma FileDependencyCrashes(file: string)
    ensures DependencyNewAsWritten(file, SenseNone, None) == NullEvrCrash
    ensures DependencyNew(file, SenseNone, None) == Dependency(file, SenseNone, None)
  {
  }
}

=== FILE: parse_options.dfy ===
/**
 * The leading-option scanner of src/low-parse-options.c.
 *
 * An option table is a sequence of entries; the OPTION_END entry that ends
 * the table in C is the end of the sequence. The boolean an OPTION_BOOL
 * entry points at is a flag number, and the booleans themselves are a map
 * from flag numbers to values. An argument is a `string` without its
 * terminating NUL; `CharAt` reads that NUL past the end.
 */
module ParseOptions {
  import opened CText

  /** OPTION_BOOL, or any other type, which stores nothing. */
  datatype OptionType = OptionBool | OptionOther

  /** LowOption: its type, long and short names, and the flag its value points at. */
  datatype LowOption = LowOption(kind: OptionType, longName: string, shortName: char, flag: nat)

  type Flags = map<nat, bool>

  /** INVALID_OPTION */
  const InvalidOption: int := -1

  /** low_store_option: an OPTION_BOOL sets its own flag to true and nothing else; other types change nothing. */
  function StoreOption(o: LowOption, flags: Flags): (r: Flags)
    ensures r.Keys == if o.kind == OptionBool then flags.Keys + {o.flag} else flags.Keys
    ensures o.kind == OptionBool ==> r[o.flag]
    ensures forall f :: f in flags && (o.kind != OptionBool || f != o.flag) ==> r[f] == flags[f]
  {
    match o.kind
    case OptionBool => flags[o.flag := true]
    case OptionOther => flags
  }

  /** The first entry of the table whose long name is `name`. */
  function FindLong(options: seq<LowOption>, name: string): (r: Option<nat>)
    ensures r.Some? ==> r.value < |options| && options[r.value].longName == name
    ensures r.Some? ==> forall j :: 0 <= j < r.value ==> options[j].longName != name
    ensures r.None? ==> forall j :: 0 <= j < |options| ==> options[j].longName != name
    decreases |options|
  {
    if |options| == 0 then None
    else if options[0].longName == name then Some(0)
    else match FindLong(options[1..], name)
      case None => None
      case Some(k) => Some(k + 1)
  }

  /** The first entry of the table whose short name is `c`. */
  function FindShort(options: seq<LowOption>, c: char): (r: Option<nat>)
    ensures r.Some? ==> r.value < |options| && options[r.value].shortName == c
    ensures r.Some? ==> forall j :: 0 <= j < r.value ==> options[j].shortName != c
    ensures r.None? ==> forall j :: 0 <= j < |options| ==> options[j].shortName != c
    decreases |options|
  {
    if |options| == 0 then None
    else if options[0].shortName == c then Some(0)
    else match FindShort(options[1..], c)
      case None => None
      case Some(k) => Some(k + 1)
  }

  /** An argument whose second character is '-' is a long option. */
  predicate IsLong(arg: string) {
    CharAt(arg, 1) == '-'
  }

  /** The entry an option argument selects: by the text after "--", or by the second character alone. */
  function Selected(arg: string, options: seq<LowOption>): (r: Option<nat>)
    ensures r.Some? ==> r.value < |options|
  {
    if IsLong(arg) then FindLong(options, arg[2..]) else FindShort(options, CharAt(arg, 1))
  }

  /** What one option argument does to the flags: the selected entry's store, or nothing. */
  function Apply(arg: string, options: seq<LowOption>, flags: Flags): Flags {
    match Selected(arg, options)
    case Some(k) => StoreOption(options[k], flags)
    case None => flags
  }

  /** low_parse_long_opt and low_parse_short_opt: 0 and the stored flags on a match, else INVALID_OPTION and the flags unchanged. */
  function ParseOpt(arg: string, options: seq<LowOption>, flags: Flags): (r: (int, Flags))
    requires IsLong(arg) ==> |arg| >= 2
    ensures r.0 == 0 || r.0 == InvalidOption
    ensures r.0 == 0 <==> Selected(arg, options).Some?
    ensures r.1 == Apply(arg, options, flags)
  {
    var found := if IsLong(arg) then FindLong(options, arg[2..]) else FindShort(options, CharAt(arg, 1));
    match found
    case Some(k) => (0, StoreOption(options[k], flags))
    case None => (InvalidOption, flags)
  }

  /** An option argument the table recognises. */
  predicate Recognised(arg: string, options: seq<LowOption>) {
    Selected(arg, options).Some?
  }

  /** The index of the first argument that does not start with '-', or the argument count. */
  function Leading(argv: seq<string>): (n: nat)
    ensures n <= |argv|
    ensures forall k :: 0 <= k < n ==> CharAt(argv[k], 0) == '-'
    ensures n < |argv| ==> CharAt(argv[n], 0) != '-'
    decreases |argv|
  {
    if |argv| == 0 || CharAt(argv[0], 0) != '-' then 0 else 1 + Leading(argv[1..])
  }

  /** The flags after each argument of `args` in turn. */
  function ApplyAll(args: seq<string>, options: seq<LowOption>, flags: Flags): Flags
    decreases |args|
  {
    if |args| == 0 then flags
    else Apply(args[|args| - 1], options, ApplyAll(args[..|args| - 1], options, flags))
  }

  /** The outcome of low_parse_options: the index it returns, or the index of the argument it loops on forever. */
  datatype Outcome = Finished(index: nat, flags: Flags) | Diverges(index: nat)

  /**
   * low_parse_options. After an unrecognised option the body adds -1 and the
   * loop adds 1, so the same argument is examined again with the same
   * flags, forever; the model reports that as Diverges at that index.
   */
  method Parse(argv: seq<string>, options: seq<LowOption>, flags: Flags) returns (r: Outcome)
    ensures r.Finished? <==> forall k :: 0 <= k < Leading(argv) ==> Recognised(argv[k], options)
    ensures r.Finished? ==> r.index == Leading(argv) && r.flags == ApplyAll(argv[..Leading(argv)], options, flags)
    ensures r.Diverges? ==> r.index < Leading(argv) && !Recognised(argv[r.index], options)
    ensures r.Diverges? ==> forall k :: 0 <= k < r.index ==> Recognised(argv[k], options)
  {
    var n := Leading(argv);
    var i := 0;
    var current := flags;
    while i < |argv|
      invariant 0 <= i <= n
      invariant forall k :: 0 <= k < i ==> Recognised(argv[k], options)
      invariant current == ApplyAll(argv[..i], options, flags)
      decreases |argv| - i
    {
      var arg := argv[i];
      if CharAt(arg, 0) != '-' {
        break;
      }
      var step := ParseOpt(arg, options, current);
      var consumed := step.0;
      var next := i + consumed + 1;
      if next == i {
        return Diverges(i);
      }
      assert Recognised(arg, options);
      current := step.1;
      assert current == ApplyAll(argv[..i + 1], options, flags) by {
        ApplyAllNext(argv, options, flags, i);
      }
      i := next;
    }
    assert i == n;
    return Finished(i, current);
  }

  /** Applying one more argument of `argv` to the flags after the ones before it. */
  lemma ApplyAllNext(argv: seq<string>, options: seq<LowOption>, flags: Flags, i: nat)
    requires i < |argv|
    ensures ApplyAll(argv[..i + 1], options, flags) == Apply(argv[i], options, ApplyAll(argv[..i], options, flags))
  {
    assert argv[..i + 1][..i] == argv[..i];
  }

  /** The argument sets flag `f`: it selects an OPTION_BOOL entry whose flag is `f`. */
  predicate Sets(arg: string, options: seq<LowOption>, f: nat) {
    match Selected(arg, options)
    case Some(k) => options[k].kind == OptionBool && options[k].flag == f
    case None => false
  }

  /** Some argument of `args` sets flag `f`. */
  predicate AnySets(args: seq<string>, options: seq<LowOption>, f: nat)
    decreases |args|
  {
    |args| > 0 && (Sets(args[|args| - 1], options, f) || AnySets(args[..|args| - 1], options, f))
  }

  /** An argument of `args` that sets flag `f`. */
  lemma {:induction false} AnySetsWitness(args: seq<string>, options: seq<LowOption>, f: nat) returns (k: nat)
    requires AnySets(args, options, f)
    ensures k < |args| && Sets(args[k], options, f)
    decreases |args|
  {
    if Sets(args[|args| - 1], options, f) {
      k := |args| - 1;
    } else {
      var init := args[..|args| - 1];
      k := AnySetsWitness(init, options, f);
      assert init[k] == args[k];
    }
  }

  /** Any argument that sets flag `f` makes AnySets hold. */
  lemma {:induction false} AnySetsAt(args: seq<string>, options: seq<LowOption>, f: nat, k: nat)
    requires k < |args| && Sets(args[k], options, f)
    ensures AnySets(args, options, f)
    decreases |args|
  {
    if k < |args| - 1 {
      var init := args[..|args| - 1];
      assert init[k] == args[k];
      AnySetsAt(init, options, f, k);
    }
  }

  lemma AnySetsMeaning(args: seq<string>, options: seq<LowOption>, f: nat)
    ensures AnySets(args, options, f) <==> exists k :: 0 <= k < |args| && Sets(args[k], options, f)
  {
    if AnySets(args, options, f) {
      var k := AnySetsWitness(args, options, f);
    }
    forall k | 0 <= k < |args| && Sets(args[k], options, f)
      ensures AnySets(args, options, f)
    {
      AnySetsAt(args, options, f, k);
    }
  }

  lemma {:induction false} FlagsAfterRun(args: seq<string>, options: seq<LowOption>, flags: Flags, f: nat)
    ensures f in ApplyAll(args, options, flags) <==> f in flags || AnySets(args, options, f)
    ensures f in ApplyAll(args, options, flags) ==>
      ApplyAll(args, options, flags)[f] == (AnySets(args, options, f) || flags[f])
    decreases |args|
  {
    if |args| > 0 {
      FlagsAfterRun(args[..|args| - 1], options, flags, f);
    }
  }

  /**
   * The flags after a run of options: a flag is true exactly when some
   * argument selected an OPTION_BOOL entry for it or it was true before;
   * no flag is ever cleared and no other flag appears.
   */
  lemma {:induction false} FlagsAfter(args: seq<string>, options: seq<LowOption>, flags: Flags, f: nat)
    ensures f in ApplyAll(args, options, flags) <==> f in flags || exists k :: 0 <= k < |args| && Sets(args[k], options, f)
    ensures f in ApplyAll(args, options, flags) ==>
      ApplyAll(args, options, flags)[f] == ((exists k :: 0 <= k < |args| && Sets(args[k], options, f)) || flags[f])
  {
    FlagsAfterRun(args, options, flags, f);
    AnySetsMeaning(args, options, f);
  }

  /** "--xyz" selects the first entry whose long name is exactly "xyz". */
  lemma LongOptionExact(name: string, options: seq<LowOption>)
    ensures Selected("--" + name, options) == FindLong(options, name)
  {
    assert ("--" + name)[2..] == name;
  }

  /** A short option is decided by its second character alone: "-xyz" selects what "-x" selects. */
  lemma ShortOptionSecondChar(arg: string, options: seq<LowOption>)
    requires |arg| >= 2 && arg[0] == '-' && arg[1] != '-'
    ensures Selected(arg, options) == Selected(arg[..2], options)
  {
  }
}

=== FILE: repomd_parser.dfy ===
/**
 * The repomd.xml parser of src/low-repomd-parser.c: expat callbacks that
 * record, for the primary_db, filelists_db and prestodelta data elements,
 * the location of the file and its timestamp.
 *
 * Two of the three switch statements in the handlers have cases without a
 * `break`, so control falls into the next case. The handlers here take a
 * flag `fallThrough`: true runs them as written, false as if every case
 * ended with a `break`.
 */
module RepomdParser {
  import opened CText
  import opened Sax

  /** The REPODATA_STATE_* values. */
  datatype State = Begin | Primary | Filelists | Delta | PrimaryTimestamp | FilelistsTimestamp | DeltaTimestamp

  /** LowRepomd: three locations (NULL until set) and three timestamps (0 until set). */
  datatype Repomd = Repomd(
    primaryDb: Option<string>,
    filelistsDb: Option<string>,
    deltaXml: Option<string>,
    primaryDbTime: nat,
    filelistsDbTime: nat,
    deltaXmlTime: nat)

  /** The record low_repomd_parse allocates and zeroes before parsing. */
  const Zeroed: Repomd := Repomd(None, None, None, 0, 0, 0)

  /** struct repodata_context. */
  datatype Context = Context(state: State, repomd: Repomd)

  const Initial: Context := Context(Begin, Zeroed)

  /** The parse starts in BEGIN with every location absent and every time 0. */
  lemma InitialEmpty()
    ensures Initial.state == Begin
    ensures Initial.repomd.primaryDb.None? && Initial.repomd.filelistsDb.None? && Initial.repomd.deltaXml.None?
    ensures Initial.repomd.primaryDbTime == 0 && Initial.repomd.filelistsDbTime == 0 && Initial.repomd.deltaXmlTime == 0
  {
  }

  /** The elements the start and end handlers tell apart by name. */
  datatype Tag = DataTag | LocationTag | TimestampTag | OtherTag

  function TagOf(name: string): Tag {
    if name == "data" then DataTag
    else if name == "location" then LocationTag
    else if name == "timestamp" then TimestampTag
    else OtherTag
  }

  lemma TagOfNames(name: string)
    ensures TagOf("data") == DataTag && TagOf("location") == LocationTag && TagOf("timestamp") == TimestampTag
    ensures TagOf(name) == OtherTag <==> name !in {"data", "location", "timestamp"}
  {
  }

  /** The state a `type` attribute value of a data element selects, if it is one the parser knows. */
  function TypeState(value: string): Option<State> {
    if value == "primary_db" then Some(Primary)
    else if value == "filelists_db" then Some(Filelists)
    else if value == "prestodelta" then Some(Delta)
    else None
  }

  /** One attribute of a data element: a known type switches the state, anything else is ignored. */
  function DataAttr(state: State, a: Attr): State {
    if a.name == "type" && TypeState(a.value).Some? then TypeState(a.value).value else state
  }

  /** The attribute loop of a data start tag, written as a fold from the last attribute back. */
  function DataAttrs(state: State, attrs: seq<Attr>): State
    decreases |attrs|
  {
    if |attrs| == 0 then state else DataAttr(DataAttrs(state, attrs[..|attrs| - 1]), attrs[|attrs| - 1])
  }

  /** A `type` attribute whose value the parser knows. */
  predicate KnownType(a: Attr) {
    a.name == "type" && TypeState(a.value).Some?
  }

  /**
   * A data start tag selects the state of its last known type attribute;
   * with no known type attribute the state is left as it was.
   */
  lemma {:induction false} DataAttrsLast(state: State, attrs: seq<Attr>, i: int)
    requires -1 <= i < |attrs|
    requires i >= 0 ==> KnownType(attrs[i])
    requires forall j :: i < j < |attrs| ==> !KnownType(attrs[j])
    ensures DataAttrs(state, attrs) == if i >= 0 then TypeState(attrs[i].value).value else state
    decreases |attrs|
  {
    if |attrs| > 0 && i < |attrs| - 1 {
      var init := attrs[..|attrs| - 1];
      assert forall j :: i < j < |init| ==> init[j] == attrs[j];
      DataAttrsLast(state, init, i);
    }
  }

  /**
   * The location handler's switch on the state for one href value. As
   * written, FILELISTS falls into DELTA, so the filelists location is also
   * stored as the delta location.
   */
  function Href(state: State, rm: Repomd, href: string, fallThrough: bool): Repomd {
    match state
    case Primary => rm.(primaryDb := Some(href))
    case Filelists =>
      if fallThrough then rm.(filelistsDb := Some(href), deltaXml := Some(href))
      else rm.(filelistsDb := Some(href))
    case Delta => rm.(deltaXml := Some(href))
    case _ => rm
  }

  /** The attribute loop of a location start tag: every href attribute goes through the switch. */
  function Locations(state: State, rm: Repomd, attrs: seq<Attr>, fallThrough: bool): Repomd
    decreases |attrs|
  {
    if |attrs| == 0 then rm
    else
      var before := Locations(state, rm, attrs[..|attrs| - 1], fallThrough);
      var a := attrs[|attrs| - 1];
      if a.name == "href" then Href(state, before, a.value, fallThrough) else before
  }

  /** The effect of a location tag is that of its last href attribute alone. */
  lemma {:induction false} LocationsLast(state: State, rm: Repomd, attrs: seq<Attr>, fallThrough: bool)
    ensures Locations(state, rm, attrs, fallThrough)
            == match Last(attrs, "href")
               case None => rm
               case Some(v) => Href(state, rm, v, fallThrough)
    decreases |attrs|
  {
    if |attrs| > 0 {
      var init := attrs[..|attrs| - 1];
      LocationsLast(state, rm, init, fallThrough);
      if attrs[|attrs| - 1].name == "href" {
        HrefOverwrites(state, Locations(state, rm, init, fallThrough), rm, attrs[|attrs| - 1].value, fallThrough);
      }
    }
  }

  /** A second href overwrites whatever a first one set. */
  lemma HrefOverwrites(state: State, rm1: Repomd, rm: Repomd, v: string, fallThrough: bool)
    requires rm1 == rm || exists u :: rm1 == Href(state, rm, u, fallThrough)
    ensures Href(state, rm1, v, fallThrough) == Href(state, rm, v, fallThrough)
  {
  }

  /**
   * The timestamp handler's switch. As written, FILELISTS falls into DELTA,
   * so a filelists timestamp ends in DELTA_TIMESTAMP.
   */
  function TimestampState(state: State, fallThrough: bool): State {
    match state
    case Primary => PrimaryTimestamp
    case Filelists => if fallThrough then DeltaTimestamp else FilelistsTimestamp
    case Delta => DeltaTimestamp
    case _ => state
  }

  /** low_repomd_start_element */
  function StartElement(ctx: Context, name: string, attrs: seq<Attr>, fallThrough: bool): (r: Context)
    ensures TagOf(name) != DataTag ==> r.repomd == ctx.repomd || TagOf(name) == LocationTag
    ensures TagOf(name) != LocationTag ==> r.repomd == ctx.repomd
    ensures TagOf(name) == LocationTag || TagOf(name) == OtherTag ==> r.state == ctx.state
  {
    match TagOf(name)
    case DataTag => ctx.(state := DataAttrs(ctx.state, attrs))
    case LocationTag => ctx.(repomd := Locations(ctx.state, ctx.repomd, attrs, fallThrough))
    case TimestampTag => ctx.(state := TimestampState(ctx.state, fallThrough))
    case OtherTag => ctx
  }

  /** low_repomd_end_element: only the end of a data element changes anything. */
  function EndElement(ctx: Context, name: string): (r: Context)
    ensures r.repomd == ctx.repomd
    ensures r.state == if TagOf(name) == DataTag then Begin else ctx.state
  {
    if TagOf(name) == DataTag then ctx.(state := Begin) else ctx
  }

  /**
   * low_repomd_character_data: in a timestamp state the text is read with
   * strtoul and the state returns to its data state. As written,
   * FILELISTS_TIMESTAMP falls into DELTA_TIMESTAMP.
   */
  function CharacterData(ctx: Context, s: string, fallThrough: bool): Context {
    StoreTime(ctx, StrToUL(s), fallThrough)
  }

  /** The switch of the character handler, for the value strtoul read. */
  function StoreTime(ctx: Context, t: nat, fallThrough: bool): Context {
    match ctx.state
    case PrimaryTimestamp => Context(Primary, ctx.repomd.(primaryDbTime := t))
    case FilelistsTimestamp =>
      if fallThrough then Context(Delta, ctx.repomd.(filelistsDbTime := t, deltaXmlTime := t))
      else Context(Filelists, ctx.repomd.(filelistsDbTime := t))
    case DeltaTimestamp => Context(Delta, ctx.repomd.(deltaXmlTime := t))
    case _ => ctx
  }

  function Step(ctx: Context, ev: Event, fallThrough: bool): Context {
    match ev
    case Start(name, attrs) => StartElement(ctx, name, attrs, fallThrough)
    case End(name) => EndElement(ctx, name)
    case Text(s) => CharacterData(ctx, s, fallThrough)
  }

  /** The callbacks expat makes for a whole document, in order. */
  function Run(ctx: Context, evs: seq<Event>, fallThrough: bool): Context
    decreases |evs|
  {
    if |evs| == 0 then ctx else Run(Step(ctx, evs[0], fallThrough), evs[1..], fallThrough)
  }

  lemma {:induction false} RunAppend(ctx: Context, a: seq<Event>, b: seq<Event>, fallThrough: bool)
    ensures Run(ctx, a + b, fallThrough) == Run(Run(ctx, a, fallThrough), b, fallThrough)
    decreases |a|
  {
    if |a| > 0 {
      assert (a + b)[1..] == a[1..] + b;
      RunAppend(Step(ctx, a[0], fallThrough), a[1..], b, fallThrough);
    } else {
      assert a + b == b;
    }
  }

  /**
   * A location tag changes only the three locations, never a time, and
   * outside the primary, filelists and delta states it changes nothing.
   */
  lemma {:induction false} LocationsKeep(state: State, rm: Repomd, attrs: seq<Attr>, fallThrough: bool)
    ensures Locations(state, rm, attrs, fallThrough).(primaryDb := rm.primaryDb, filelistsDb := rm.filelistsDb, deltaXml := rm.deltaXml) == rm
    ensures state !in {Primary, Filelists, Delta} ==> Locations(state, rm, attrs, fallThrough) == rm
  {
    LocationsLast(state, rm, attrs, fallThrough);
    if Last(attrs, "href").Some? {
      HrefEffects(state, rm, Last(attrs, "href").value, fallThrough);
    }
  }

  /**
   * Outside any data element nothing but a data start tag has an effect:
   * locations, timestamps, text and end tags leave the context as it was.
   */
  lemma {:induction false} BeginInert(ctx: Context, ev: Event, fallThrough: bool)
    requires ctx.state == Begin
    requires !(ev.Start? && TagOf(ev.name) == DataTag)
    ensures Step(ctx, ev, fallThrough) == ctx
  {
    if ev.Start? {
      LocationsKeep(ctx.state, ctx.repomd, ev.attrs, fallThrough);
    }
  }

  /** Only the end of a data element changes the state by an end tag, and it always returns to BEGIN. */
  lemma EndResets(ctx: Context, name: string)
    ensures EndElement(ctx, name).state == Begin <==> TagOf(name) == DataTag || ctx.state == Begin
    ensures TagOf(name) != DataTag ==> EndElement(ctx, name) == ctx
  {
  }

  /**
   * The states a location tag writes from, for one href value: PRIMARY sets
   * only the primary location, DELTA only the delta location, FILELISTS the
   * filelists location and (as written) the delta location too; any other
   * state sets nothing.
   */
  lemma HrefEffects(state: State, rm: Repomd, v: string, fallThrough: bool)
    ensures var r := Href(state, rm, v, fallThrough);
            && (r.primaryDb != rm.primaryDb ==> state == Primary)
            && (r.filelistsDb != rm.filelistsDb ==> state == Filelists)
            && (r.deltaXml != rm.deltaXml ==> state == Delta || (state == Filelists && fallThrough))
            && (state == Primary ==> r.primaryDb == Some(v))
            && (state == Filelists ==> r.filelistsDb == Some(v) && (fallThrough ==> r.deltaXml == Some(v)))
            && (state == Delta ==> r.deltaXml == Some(v))
            && (state !in {Primary, Filelists, Delta} ==> r == rm)
            && r.(primaryDb := rm.primaryDb, filelistsDb := rm.filelistsDb, deltaXml := rm.deltaXml) == rm
  {
  }

  /**
   * A timestamp's text is stored in the time of the data element it is in,
   * with the state back in that data state; as written a filelists
   * timestamp is stored as the delta time instead.
   */
  lemma {:induction false} TimestampText(ctx: Context, s: string, fallThrough: bool)
    requires ctx.state in {Primary, Filelists, Delta}
    ensures var r := CharacterData(ctx.(state := TimestampState(ctx.state, fallThrough)), s, fallThrough);
            && (ctx.state == Primary ==> r == Context(Primary, ctx.repomd.(primaryDbTime := StrToUL(s))))
            && (ctx.state == Filelists && fallThrough ==> r == Context(Delta, ctx.repomd.(deltaXmlTime := StrToUL(s))))
            && (ctx.state == Filelists && !fallThrough ==> r == Context(Filelists, ctx.repomd.(filelistsDbTime := StrToUL(s))))
            && (ctx.state == Delta ==> r == Context(Delta, ctx.repomd.(deltaXmlTime := StrToUL(s))))
  {
    var t := StrToUL(s);
    if ctx.state == Primary {
      assert CharacterData(ctx.(state := PrimaryTimestamp), s, fallThrough) == Context(Primary, ctx.repomd.(primaryDbTime := t));
    } else if ctx.state == Filelists {
      assert fallThrough ==> TimestampState(ctx.state, fallThrough) == DeltaTimestamp;
      assert !fallThrough ==> TimestampState(ctx.state, fallThrough) == FilelistsTimestamp;
    }
  }

  /** Text outside a timestamp state leaves the context as it was. */
  lemma TextOutsideTimestamp(ctx: Context, s: string, fallThrough: bool)
    requires ctx.state !in {PrimaryTimestamp, FilelistsTimestamp, DeltaTimestamp}
    ensures CharacterData(ctx, s, fallThrough) == ctx
  {
  }

  /** A state the parser can be in as written: FILELISTS_TIMESTAMP is never entered and the filelists time stays 0. */
  ghost predicate AsWrittenReachable(ctx: Context) {
    ctx.state != FilelistsTimestamp && ctx.repomd.filelistsDbTime == 0
  }

  /** As written, filelists_db_time is never written, whatever the document. */
  lemma {:induction false} FilelistsTimeNeverSet(ctx: Context, evs: seq<Event>)
    requires AsWrittenReachable(ctx)
    ensures AsWrittenReachable(Run(ctx, evs, true))
    ensures Run(ctx, evs, true).repomd.filelistsDbTime == 0
    decreases |evs|
  {
    if |evs| > 0 {
      var next := Step(ctx, evs[0], true);
      assert AsWrittenReachable(next) by {
        match evs[0]
        case Start(name, attrs) =>
          if TagOf(name) == DataTag {
            DataAttrsNeverTimestamp(ctx.state, attrs);
          } else if TagOf(name) == LocationTag {
            LocationsKeep(ctx.state, ctx.repomd, attrs, true);
          }
        case End(name) =>
        case Text(s) =>
      }
      FilelistsTimeNeverSet(next, evs[1..]);
    }
  }

  /** A data tag never selects a timestamp state unless the state already was one. */
  lemma {:induction false} DataAttrsNeverTimestamp(state: State, attrs: seq<Attr>)
    ensures DataAttrs(state, attrs) == state || DataAttrs(state, attrs) in {Primary, Filelists, Delta}
    decreases |attrs|
  {
    if |attrs| > 0 {
      DataAttrsNeverTimestamp(state, attrs[..|attrs| - 1]);
    }
  }

  lemma {:induction false} RunCons(ctx: Context, ev: Event, rest: seq<Event>, fallThrough: bool)
    ensures Run(ctx, [ev] + rest, fallThrough) == Run(Step(ctx, ev, fallThrough), rest, fallThrough)
  {
    assert ([ev] + rest)[1..] == rest;
  }

  lemma {:induction false} RunSingle(ctx: Context, ev: Event, fallThrough: bool)
    ensures Run(ctx, [ev], fallThrough) == Step(ctx, ev, fallThrough)
  {
    assert [ev][1..] == [];
  }

  /** One data element of a repomd.xml document: its type, its location and its timestamp. */
  datatype Data = Data(kind: string, href: string, timestamp: nat)

  /** The checksum child of a data element, which the handlers ignore. */
  const ChecksumEvents: seq<Event> := [Start("checksum", [Attr("type", "sha256")]), Text("0"), End("checksum")]

  function LocationEvents(href: string): seq<Event> {
    [Start("location", [Attr("href", href)]), End("location")]
  }

  function TimestampEvents(t: nat): seq<Event> {
    [Start("timestamp", []), Text(Decimal(t)), End("timestamp")]
  }

  /** The callbacks for one data element. */
  function RenderData(d: Data): seq<Event> {
    [Start("data", [Attr("type", d.kind)])] + ChecksumEvents + LocationEvents(d.href) + TimestampEvents(d.timestamp) + [End("data")]
  }

  function RenderAll(ds: seq<Data>): seq<Event>
    decreases |ds|
  {
    if |ds| == 0 then [] else RenderAll(ds[..|ds| - 1]) + RenderData(ds[|ds| - 1])
  }

  /** What one data element is meant to record: its location and time, in the fields of its own type. */
  function Record(rm: Repomd, d: Data): Repomd {
    match TypeState(d.kind)
    case Some(Primary) => rm.(primaryDb := Some(d.href), primaryDbTime := d.timestamp)
    case Some(Filelists) => rm.(filelistsDb := Some(d.href), filelistsDbTime := d.timestamp)
    case Some(Delta) => rm.(deltaXml := Some(d.href), deltaXmlTime := d.timestamp)
    case _ => rm
  }

  /** What one data element records as written: a filelists element lands in the delta fields as well. */
  function RecordAsWritten(rm: Repomd, d: Data): Repomd {
    match TypeState(d.kind)
    case Some(Filelists) => rm.(filelistsDb := Some(d.href), deltaXml := Some(d.href), deltaXmlTime := d.timestamp)
    case _ => Record(rm, d)
  }

  function Recorded(rm: Repomd, d: Data, fallThrough: bool): Repomd {
    if fallThrough then RecordAsWritten(rm, d) else Record(rm, d)
  }

  /** The records of a whole document, each data element in turn. */
  function RecordAll(rm: Repomd, ds: seq<Data>, fallThrough: bool): Repomd
    decreases |ds|
  {
    if |ds| == 0 then rm else Recorded(RecordAll(rm, ds[..|ds| - 1], fallThrough), ds[|ds| - 1], fallThrough)
  }

  lemma {:induction false} TypeStateKnown(v: string)
    ensures TypeState(v).Some? ==> TypeState(v).value in {Primary, Filelists, Delta}
  {
  }

  /** The state a data element's start tag selects from BEGIN. */
  function DataState(d: Data): State {
    if TypeState(d.kind).Some? then TypeState(d.kind).value else Begin
  }

  /** The data start tag of `d` selects the state of its type, from BEGIN. */
  lemma {:induction false} DataStart(rm: Repomd, d: Data, fallThrough: bool)
    ensures StartElement(Context(Begin, rm), "data", [Attr("type", d.kind)], fallThrough) == Context(DataState(d), rm)
  {
    TagOfNames("");
    var attrs := [Attr("type", d.kind)];
    assert attrs[..0] == [];
    assert DataAttrs(Begin, attrs) == DataAttr(DataAttrs(Begin, []), attrs[0]);
  }

  /** The checksum child changes nothing outside a timestamp state. */
  lemma {:induction false} ChecksumRun(ctx: Context, fallThrough: bool)
    requires ctx.state in {Begin, Primary, Filelists, Delta}
    ensures Run(ctx, ChecksumEvents, fallThrough) == ctx
  {
    var e := ChecksumEvents;
    assert Step(ctx, e[0], fallThrough) == ctx by {
      TagOfNames("checksum");
    }
    assert Step(ctx, e[2], fallThrough) == ctx by {
      TagOfNames("checksum");
    }
    assert e == [e[0]] + ([e[1]] + [e[2]]);
    RunCons(ctx, e[0], [e[1]] + [e[2]], fallThrough);
    RunCons(ctx, e[1], [e[2]], fallThrough);
    RunSingle(ctx, e[2], fallThrough);
  }

  /** A location child sets the locations its href selects for the state. */
  lemma {:induction false} LocationRun(ctx: Context, href: string, fallThrough: bool)
    ensures Run(ctx, LocationEvents(href), fallThrough) == ctx.(repomd := Href(ctx.state, ctx.repomd, href, fallThrough))
  {
    var attrs := [Attr("href", href)];
    var c := ctx.(repomd := Href(ctx.state, ctx.repomd, href, fallThrough));
    assert Step(ctx, Start("location", attrs), fallThrough) == c by {
      TagOfNames("");
      LocationsLast(ctx.state, ctx.repomd, attrs, fallThrough);
      assert Last(attrs, "href") == Some(href);
    }
    assert Step(c, End("location"), fallThrough) == c by {
      TagOfNames("location");
    }
    RunCons(ctx, Start("location", attrs), [End("location")], fallThrough);
    RunSingle(c, End("location"), fallThrough);
  }

  /** A timestamp child stores its value where the timestamp switch and the text switch put it. */
  lemma {:induction false} TimestampRun(ctx: Context, t: nat, fallThrough: bool)
    requires ctx.state in {Begin, Primary, Filelists, Delta}
    ensures Run(ctx, TimestampEvents(t), fallThrough)
            == CharacterData(ctx.(state := TimestampState(ctx.state, fallThrough)), Decimal(t), fallThrough)
  {
    var c1 := ctx.(state := TimestampState(ctx.state, fallThrough));
    var c2 := CharacterData(c1, Decimal(t), fallThrough);
    assert Step(ctx, Start("timestamp", []), fallThrough) == c1 by {
      TagOfNames("");
    }
    assert Step(c2, End("timestamp"), fallThrough) == c2 by {
      TagOfNames("timestamp");
    }
    var e := TimestampEvents(t);
    assert e == [e[0]] + ([e[1]] + [e[2]]);
    RunCons(ctx, e[0], [e[1]] + [e[2]], fallThrough);
    RunCons(c1, e[1], [e[2]], fallThrough);
    RunSingle(c2, e[2], fallThrough);
  }

  /** The location and timestamp of a data element, stored from the state its start tag selected. */
  lemma {:induction false} TimestampStored(ctx: Context, d: Data, fallThrough: bool)
    requires ctx.state == DataState(d)
    requires d.timestamp <= ULONG_MAX
    ensures var c2 := ctx.(repomd := Href(ctx.state, ctx.repomd, d.href, fallThrough));
            StoreTime(c2.(state := TimestampState(ctx.state, fallThrough)), d.timestamp, fallThrough).repomd
            == Recorded(ctx.repomd, d, fallThrough)
  {
    var rm := ctx.repomd;
    var ts := d.timestamp;
    var t := TypeState(d.kind);
    if t == Some(Primary) {
      assert Recorded(rm, d, fallThrough) == rm.(primaryDb := Some(d.href), primaryDbTime := ts);
    } else if t == Some(Filelists) {
      if fallThrough {
        assert Recorded(rm, d, fallThrough) == rm.(filelistsDb := Some(d.href), deltaXml := Some(d.href), deltaXmlTime := ts);
      } else {
        assert Recorded(rm, d, fallThrough) == rm.(filelistsDb := Some(d.href), filelistsDbTime := ts);
      }
    } else if t == Some(Delta) {
      assert Recorded(rm, d, fallThrough) == rm.(deltaXml := Some(d.href), deltaXmlTime := ts);
    } else {
      TypeStateKnown(d.kind);
      assert ctx.state == Begin;
      assert Recorded(rm, d, fallThrough) == rm;
    }
  }

  /** The children of a data element, from the state its start tag selected, record the element. */
  lemma {:induction false} DataBody(ctx: Context, d: Data, fallThrough: bool)
    requires ctx.state == DataState(d)
    requires d.timestamp <= ULONG_MAX
    ensures Run(ctx, ChecksumEvents + LocationEvents(d.href) + TimestampEvents(d.timestamp) + [End("data")], fallThrough)
            == Context(Begin, Recorded(ctx.repomd, d, fallThrough))
  {
    TypeStateKnown(d.kind);
    var a := ChecksumEvents;
    var b := LocationEvents(d.href);
    var c := TimestampEvents(d.timestamp);
    var c2 := ctx.(repomd := Href(ctx.state, ctx.repomd, d.href, fallThrough));
    var c3 := CharacterData(c2.(state := TimestampState(ctx.state, fallThrough)), Decimal(d.timestamp), fallThrough);
    assert Run(ctx, a + b, fallThrough) == c2 by {
      ChecksumRun(ctx, fallThrough);
      LocationRun(ctx, d.href, fallThrough);
      RunAppend(ctx, a, b, fallThrough);
    }
    assert Run(ctx, a + b + c, fallThrough) == c3 by {
      TimestampRun(c2, d.timestamp, fallThrough);
      RunAppend(ctx, a + b, c, fallThrough);
    }
    assert c3.repomd == Recorded(ctx.repomd, d, fallThrough) by {
      StrToULDecimal(d.timestamp);
      assert c3 == StoreTime(c2.(state := TimestampState(ctx.state, fallThrough)), d.timestamp, fallThrough);
      TimestampStored(ctx, d, fallThrough);
    }
    assert Step(c3, End("data"), fallThrough) == Context(Begin, c3.repomd) by {
      TagOfNames("");
    }
    RunAppend(ctx, a + b + c, [End("data")], fallThrough);
    RunSingle(c3, End("data"), fallThrough);
  }

  /** Parsing one data element from BEGIN records it and returns to BEGIN. */
  lemma {:induction false} ParseData(rm: Repomd, d: Data, fallThrough: bool)
    requires d.timestamp <= ULONG_MAX
    ensures Run(Context(Begin, rm), RenderData(d), fallThrough) == Context(Begin, Recorded(rm, d, fallThrough))
  {
    var start := Start("data", [Attr("type", d.kind)]);
    var body := ChecksumEvents + LocationEvents(d.href) + TimestampEvents(d.timestamp) + [End("data")];
    assert RenderData(d) == [start] + body;
    DataStart(rm, d, fallThrough);
    RunCons(Context(Begin, rm), start, body, fallThrough);
    DataBody(Context(DataState(d), rm), d, fallThrough);
  }

  /**
   * A document of data elements parses to the records of its elements, each
   * applied in document order.
   */
  lemma {:induction false} ParseAll(ds: seq<Data>, fallThrough: bool)
    requires forall i :: 0 <= i < |ds| ==> ds[i].timestamp <= ULONG_MAX
    ensures Run(Initial, RenderAll(ds), fallThrough) == Context(Begin, RecordAll(Zeroed, ds, fallThrough))
    decreases |ds|
  {
    if |ds| > 0 {
      var init := ds[..|ds| - 1];
      ParseAll(init, fallThrough);
      RunAppend(Initial, RenderAll(init), RenderData(ds[|ds| - 1]), fallThrough);
      ParseData(RecordAll(Zeroed, init, fallThrough), ds[|ds| - 1], fallThrough);
    }
  }

  /**
   * With a `break` in every case, each location and time lands in the
   * fields of its own type: a document with one element of each type
   * yields exactly those three locations and times.
   */
  lemma {:induction false} ParseEachType(p: Data, f: Data, dl: Data)
    requires p.kind == "primary_db" && f.kind == "filelists_db" && dl.kind == "prestodelta"
    requires p.timestamp <= ULONG_MAX && f.timestamp <= ULONG_MAX && dl.timestamp <= ULONG_MAX
    ensures Run(Initial, RenderAll([p, f, dl]), false).repomd
            == Repomd(Some(p.href), Some(f.href), Some(dl.href), p.timestamp, f.timestamp, dl.timestamp)
  {
    var ds := [p, f, dl];
    ParseAll(ds, false);
    assert ds[..2] == [p, f] && ds[..2][..1] == [p] && ds[..2][..1][..0] == [];
    assert TypeState(p.kind) == Some(Primary) && TypeState(f.kind) == Some(Filelists) && TypeState(dl.kind) == Some(Delta);
    var r1 := Zeroed.(primaryDb := Some(p.href), primaryDbTime := p.timestamp);
    var r2 := r1.(filelistsDb := Some(f.href), filelistsDbTime := f.timestamp);
    assert RecordAll(Zeroed, [p], false) == r1;
    assert RecordAll(Zeroed, [p, f], false) == r2;
  }

  /** A repository with primary and filelists data but no prestodelta. */
  const NoDeltaDoc: seq<Data> := [Data("primary_db", "repodata/primary.sqlite.bz2", 10), Data("filelists_db", "repodata/filelists.sqlite.bz2", 20)]

  /**
   * As written, a repository without prestodelta data still reports a delta
   * file: the filelists database, with the filelists timestamp as its time,
   * while the filelists time stays 0. With a `break` in every case there is
   * no delta file and the filelists time is 20.
   */
  lemma {:induction false} FilelistsFallThrough()
    ensures var r := Run(Initial, RenderAll(NoDeltaDoc), true).repomd;
            r.deltaXml == Some("repodata/filelists.sqlite.bz2") && r.deltaXmlTime == 20 && r.filelistsDbTime == 0
    ensures var r := Run(Initial, RenderAll(NoDeltaDoc), false).repomd;
            r.deltaXml == None && r.filelistsDbTime == 20 && r.filelistsDb == Some("repodata/filelists.sqlite.bz2")
  {
    ParseAll(NoDeltaDoc, true);
    ParseAll(NoDeltaDoc, false);
    var ds := NoDeltaDoc;
    assert ds[..1][..0] == [];
  }
}

=== FILE: repoxml_parser.dfy ===
/**
 * The primary.xml/filelists.xml importer of src/low-repoxml-parser.c: two
 * expat parsers sharing one context, taking turns. The primary parser runs
 * until a package closes, then the filelists parser runs until its package
 * closes, and so on; the handlers turn the documents into a log of importer
 * calls (low_sqlite_importer_begin_package, add_dependency, add_details,
 * add_file, finish_package).
 *
 * The text handler copies each piece of text to `ctx->p` and moves `p` past
 * it; a start element only points `p` back at the start of its buffer. So a
 * buffer keeps its old contents until text arrives, and an element with no
 * text (`<url/>`) leaves the previous package's value in place. The handlers
 * take a flag `clear`: false behaves as written, true also empties the
 * buffer when its element starts.
 */
module RepoxmlParser {
  import opened CText
  import opened Sax

  /** The character buffers of the context; `File` is `buffer`, `Pkgid` holds the checksum text. */
  datatype Slot = Name | Arch | Summary | Description | Url | License | Pkgid | File

  datatype Buffers = Buffers(
    name: string, arch: string, summary: string, description: string,
    url: string, license: string, pkgid: string, file: string)

  function Get(b: Buffers, s: Slot): string {
    match s
    case Name => b.name
    case Arch => b.arch
    case Summary => b.summary
    case Description => b.description
    case Url => b.url
    case License => b.license
    case Pkgid => b.pkgid
    case File => b.file
  }

  /** `b` with slot `s` holding `v`; every other slot keeps its contents. */
  function Set(b: Buffers, s: Slot, v: string): (r: Buffers)
    ensures Get(r, s) == v
    ensures forall t :: t != s ==> Get(r, t) == Get(b, t)
  {
    match s
    case Name => b.(name := v)
    case Arch => b.(arch := v)
    case Summary => b.(summary := v)
    case Description => b.(description := v)
    case Url => b.(url := v)
    case License => b.(license := v)
    case Pkgid => b.(pkgid := v)
    case File => b.(file := v)
  }

  /** LowSqliteImporterDepType */
  datatype DepType = Provides | Requires | Conflicts | Obsoletes

  /**
   * The REPOXML_STATE_* values: BEGIN; the eight text states, each tied to
   * its buffer (PACKAGE_NAME, PACKAGE_ARCH, SUMMARY, DESCRIPTION, URL,
   * LICENSE, CHECKSUM, FILE); the four dependency states.
   */
  datatype State = Begin | InText(slot: Slot) | InDeps(dep: DepType)

  /** Which parser is current. */
  datatype Doc = Primary | Filelists

  /** One importer call, with the strings it is handed; an absent attribute is None. */
  datatype Call =
    | BeginPackage(name: string, arch: string, epoch: Option<string>, version: string, release: string)
    | AddDependency(depName: string, relation: string, depType: Option<DepType>, pre: bool,
                    depEpoch: Option<string>, depVersion: Option<string>, depRelease: Option<string>)
    | AddDetails(summary: string, description: string, url: string, license: string)
    | AddFile(path: string)
    | FinishPackage

  /**
   * The context: the state, the buffers, whether `p` still points at the
   * start of the current text buffer, the dependency type (None until a
   * dependency element sets it: the stack field starts indeterminate), the
   * current parser, and the importer calls made so far.
   */
  datatype Context = Context(state: State, bufs: Buffers, atStart: bool, depType: Option<DepType>, doc: Doc, log: seq<Call>)

  /** The context low_repoxml_parse sets up; the buffers hold whatever the stack held. */
  function Initial(leftover: Buffers): (c: Context)
    ensures c.state == Begin && c.doc == Primary && c.log == [] && c.depType.None?
  {
    Context(Begin, leftover, false, None, Primary, [])
  }

  /** The element names the handlers compare against. */
  datatype Tag =
    | NameTag | ArchTag | VersionTag | SummaryTag | DescriptionTag | UrlTag | ChecksumTag | LicenseTag
    | RequiresTag | ProvidesTag | ObsoletesTag | ConflictsTag | EntryTag | PackageTag | FileTag | OtherTag

  function TagOf(name: string): Tag {
    if name == "name" then NameTag
    else if name == "arch" then ArchTag
    else if name == "version" then VersionTag
    else if name == "summary" then SummaryTag
    else if name == "description" then DescriptionTag
    else if name == "url" then UrlTag
    else if name == "checksum" then ChecksumTag
    else if name == "rpm:license" then LicenseTag
    else if name == "rpm:requires" then RequiresTag
    else if name == "rpm:provides" then ProvidesTag
    else if name == "rpm:obsoletes" then ObsoletesTag
    else if name == "rpm:conflicts" then ConflictsTag
    else if name == "rpm:entry" then EntryTag
    else if name == "package" then PackageTag
    else if name == "file" then FileTag
    else OtherTag
  }

  /** The buffer a primary text element restarts. */
  function TextSlot(t: Tag): Option<Slot> {
    match t
    case NameTag => Some(Name)
    case ArchTag => Some(Arch)
    case SummaryTag => Some(Summary)
    case DescriptionTag => Some(Description)
    case UrlTag => Some(Url)
    case ChecksumTag => Some(Pkgid)
    case LicenseTag => Some(License)
    case _ => None
  }

  /** The dependency type a primary dependency-list element selects. */
  function DepTag(t: Tag): Option<DepType> {
    match t
    case RequiresTag => Some(Requires)
    case ProvidesTag => Some(Provides)
    case ObsoletesTag => Some(Obsoletes)
    case ConflictsTag => Some(Conflicts)
    case _ => None
  }

  /** The attribute names the attribute loops compare against. */
  datatype AttrKind = NameAttr | EpochAttr | VerAttr | RelAttr | FlagsAttr | PreAttr | PkgidAttr | OtherAttr

  function KindOf(name: string): AttrKind {
    if name == "name" then NameAttr
    else if name == "epoch" then EpochAttr
    else if name == "ver" then VerAttr
    else if name == "rel" then RelAttr
    else if name == "flags" then FlagsAttr
    else if name == "pre" then PreAttr
    else if name == "pkgid" then PkgidAttr
    else OtherAttr
  }

  /** What an attribute loop has picked up: each matching attribute overwrites its field, `pre` only turns on. */
  datatype Fields = Fields(
    name: Option<string>, epoch: Option<string>, ver: Option<string>, rel: Option<string>,
    flags: Option<string>, pre: bool, pkgid: Option<string>)

  const NoFields: Fields := Fields(None, None, None, None, None, false, None)

  /** One turn of an attribute loop. */
  function Pick(f: Fields, a: Attr): Fields {
    match KindOf(a.name)
    case NameAttr => f.(name := Some(a.value))
    case EpochAttr => f.(epoch := Some(a.value))
    case VerAttr => f.(ver := Some(a.value))
    case RelAttr => f.(rel := Some(a.value))
    case FlagsAttr => f.(flags := Some(a.value))
    case PreAttr => f.(pre := true)
    case PkgidAttr => f.(pkgid := Some(a.value))
    case OtherAttr => f
  }

  /** The attribute loop, front to back. */
  function PickAll(f: Fields, attrs: seq<Attr>): Fields
    decreases |attrs|
  {
    if |attrs| == 0 then f else PickAll(Pick(f, attrs[0]), attrs[1..])
  }

  /** A start element pointing `p` at the start of a buffer. */
  function Restart(ctx: Context, s: Slot, clear: bool): (r: Context)
    ensures r.state == InText(s) && r.atStart
    ensures r.log == ctx.log && r.doc == ctx.doc && r.depType == ctx.depType
    ensures Get(r.bufs, s) == if clear then "" else Get(ctx.bufs, s)
    ensures forall t :: t != s ==> Get(r.bufs, t) == Get(ctx.bufs, t)
  {
    ctx.(state := InText(s), atStart := true, bufs := if clear then Set(ctx.bufs, s, "") else ctx.bufs)
  }

  /** The `version` branch: begin_package when both ver and rel were given. */
  function VersionStart(ctx: Context, f: Fields): Context {
    if f.ver.None? || f.rel.None? then ctx
    else ctx.(log := ctx.log + [BeginPackage(ctx.bufs.name, ctx.bufs.arch, f.epoch, f.ver.value, f.rel.value)])
  }

  /** The `rpm:entry` branch: add_dependency when a name was given; the relation defaults to "". */
  function EntryStart(ctx: Context, f: Fields): Context {
    if f.name.None? then ctx
    else
      var relation := if f.flags.Some? then f.flags.value else "";
      ctx.(log := ctx.log + [AddDependency(f.name.value, relation, ctx.depType, f.pre, f.epoch, f.ver, f.rel)])
  }

  /** repoxml_primary_start_element; the `metadata` branch only records a progress total and is left out. */
  function PrimaryStart(ctx: Context, name: string, attrs: seq<Attr>, clear: bool): (r: Context)
    ensures r.doc == ctx.doc
    ensures TextSlot(TagOf(name)).Some? ==> r == Restart(ctx, TextSlot(TagOf(name)).value, clear)
    ensures DepTag(TagOf(name)).Some? ==>
      r == ctx.(state := InDeps(DepTag(TagOf(name)).value), depType := DepTag(TagOf(name)))
    ensures TagOf(name) == VersionTag ==> r.state == ctx.state && r.bufs == ctx.bufs
    ensures TagOf(name) == VersionTag ==>
      var f := PickAll(NoFields, attrs);
      r.log == ctx.log + (if f.ver.Some? && f.rel.Some? then [BeginPackage(ctx.bufs.name, ctx.bufs.arch, f.epoch, f.ver.value, f.rel.value)] else [])
    ensures TagOf(name) == EntryTag ==> r.state == ctx.state && r.bufs == ctx.bufs
    ensures TagOf(name) == EntryTag ==>
      var f := PickAll(NoFields, attrs);
      r.log == ctx.log + (if ctx.state == Begin || f.name.None? then []
                          else [AddDependency(f.name.value, if f.flags.Some? then f.flags.value else "", ctx.depType, f.pre, f.epoch, f.ver, f.rel)])
    ensures TagOf(name) in {PackageTag, FileTag, OtherTag} ==> r == ctx
  {
    var t := TagOf(name);
    if TextSlot(t).Some? then Restart(ctx, TextSlot(t).value, clear)
    else if DepTag(t).Some? then ctx.(state := InDeps(DepTag(t).value), depType := DepTag(t))
    else if t == VersionTag then VersionStart(ctx, PickAll(NoFields, attrs))
    else if t == EntryTag && ctx.state != Begin then EntryStart(ctx, PickAll(NoFields, attrs))
    else ctx
  }

  /** A state tied to a text buffer. */
  predicate TextState(s: State) {
    s.InText?
  }

  /**
   * repoxml_primary_end_element: a text state returns to BEGIN, a dependency
   * state persists; closing a package hands the details to the importer and
   * switches to the filelists parser.
   */
  function PrimaryEnd(ctx: Context, name: string): (r: Context)
    ensures r.state == if TextState(ctx.state) then Begin else ctx.state
    ensures r.bufs == ctx.bufs && r.depType == ctx.depType && r.atStart == ctx.atStart
    ensures TagOf(name) == PackageTag ==>
      r.doc == Filelists && r.log == ctx.log + [AddDetails(ctx.bufs.summary, ctx.bufs.description, ctx.bufs.url, ctx.bufs.license)]
    ensures TagOf(name) != PackageTag ==> r.doc == ctx.doc && r.log == ctx.log
  {
    var c := if TextState(ctx.state) then ctx.(state := Begin) else ctx;
    if TagOf(name) == PackageTag then
      c.(doc := Filelists, log := c.log + [AddDetails(c.bufs.summary, c.bufs.description, c.bufs.url, c.bufs.license)])
    else c
  }

  /**
   * repoxml_character_data: in a text state the text is appended at `p`,
   * so the buffer holds the text since its element started; elsewhere the
   * text is dropped.
   */
  function CharacterData(ctx: Context, s: string): (r: Context)
    ensures !TextState(ctx.state) ==> r == ctx
    ensures TextState(ctx.state) ==>
      && r.state == ctx.state && !r.atStart
      && r.log == ctx.log && r.doc == ctx.doc && r.depType == ctx.depType
      && Get(r.bufs, ctx.state.slot) == (if ctx.atStart then "" else Get(ctx.bufs, ctx.state.slot)) + s
      && forall t :: t != ctx.state.slot ==> Get(r.bufs, t) == Get(ctx.bufs, t)
  {
    match ctx.state
    case InText(slot) =>
      var before := if ctx.atStart then "" else Get(ctx.bufs, slot);
      ctx.(bufs := Set(ctx.bufs, slot, before + s), atStart := false)
    case _ => ctx
  }

  /**
   * repoxml_filelists_start_element: `file` restarts the file buffer; a
   * `package` without a pkgid attribute hands NULL to strcmp, which is
   * undefined (None); with one, a mismatch is only reported on stderr.
   */
  function FilelistsStart(ctx: Context, name: string, attrs: seq<Attr>, clear: bool): (r: Option<Context>)
    ensures r.None? <==> TagOf(name) == PackageTag && PickAll(NoFields, attrs).pkgid.None?
    ensures TagOf(name) == FileTag ==> r == Some(Restart(ctx, File, clear))
    ensures TagOf(name) != FileTag && r.Some? ==> r.value == ctx
  {
    match TagOf(name)
    case PackageTag => if PickAll(NoFields, attrs).pkgid.None? then None else Some(ctx)
    case FileTag => Some(Restart(ctx, File, clear))
    case _ => Some(ctx)
  }

  /**
   * repoxml_filelists_end_element: every end returns to BEGIN; closing a
   * file hands its text to the importer; closing a package finishes it and
   * switches back to the primary parser.
   */
  function FilelistsEnd(ctx: Context, name: string): (r: Context)
    ensures r.state == Begin
    ensures r.bufs == ctx.bufs && r.depType == ctx.depType && r.atStart == ctx.atStart
    ensures TagOf(name) == PackageTag ==> r.doc == Primary && r.log == ctx.log + [FinishPackage]
    ensures TagOf(name) == FileTag ==> r.doc == ctx.doc && r.log == ctx.log + [AddFile(ctx.bufs.file)]
    ensures TagOf(name) !in {PackageTag, FileTag} ==> r.doc == ctx.doc && r.log == ctx.log
  {
    var c := ctx.(state := Begin);
    match TagOf(name)
    case PackageTag => c.(doc := Primary, log := c.log + [FinishPackage])
    case FileTag => c.(log := c.log + [AddFile(c.bufs.file)])
    case _ => c
  }

  /** One callback, to the current parser's handlers; None once the behaviour is undefined. */
  function Step(ctx: Context, ev: Event, clear: bool): Option<Context> {
    match ctx.doc
    case Primary =>
      (match ev
       case Start(n, attrs) => Some(PrimaryStart(ctx, n, attrs, clear))
       case End(n) => Some(PrimaryEnd(ctx, n))
       case Text(s) => Some(CharacterData(ctx, s)))
    case Filelists =>
      (match ev
       case Start(n, attrs) => FilelistsStart(ctx, n, attrs, clear)
       case End(n) => Some(FilelistsEnd(ctx, n))
       case Text(s) => Some(CharacterData(ctx, s)))
  }

  /** The outcome of low_repoxml_parse: the final context, or the log made before undefined behaviour. */
  datatype Outcome = Done(ctx: Context) | Undefined(log: seq<Call>)

  /**
   * The read loop of low_repoxml_parse over the two documents' callbacks:
   * each callback comes from the current parser's document, and the loop
   * ends when the current parser's document is exhausted.
   */
  function Parse(ctx: Context, primary: seq<Event>, filelists: seq<Event>, clear: bool): Outcome
    decreases |primary| + |filelists|
  {
    match ctx.doc
    case Primary =>
      if |primary| == 0 then Done(ctx)
      else (match Step(ctx, primary[0], clear)
            case None => Undefined(ctx.log)
            case Some(c) => Parse(c, primary[1..], filelists, clear))
    case Filelists =>
      if |filelists| == 0 then Done(ctx)
      else (match Step(ctx, filelists[0], clear)
            case None => Undefined(ctx.log)
            case Some(c) => Parse(c, primary, filelists[1..], clear))
  }

  lemma TagOfNames()
    ensures TagOf("name") == NameTag && TagOf("arch") == ArchTag && TagOf("version") == VersionTag
    ensures TagOf("summary") == SummaryTag && TagOf("description") == DescriptionTag && TagOf("url") == UrlTag
    ensures TagOf("checksum") == ChecksumTag && TagOf("rpm:license") == LicenseTag
  {
  }

  lemma TagOfListNames()
    ensures TagOf("rpm:requires") == RequiresTag && TagOf("rpm:provides") == ProvidesTag
    ensures TagOf("rpm:obsoletes") == ObsoletesTag && TagOf("rpm:conflicts") == ConflictsTag
  {
  }

  lemma TagOfPackageNames()
    ensures TagOf("rpm:entry") == EntryTag && TagOf("package") == PackageTag && TagOf("file") == FileTag
  {
  }

  lemma OtherNames()
    ensures TagOf("metadata") == OtherTag && TagOf("filelists") == OtherTag && TagOf("format") == OtherTag
  {
  }

  lemma KindOfNames()
    ensures KindOf("name") == NameAttr && KindOf("epoch") == EpochAttr && KindOf("ver") == VerAttr
    ensures KindOf("rel") == RelAttr && KindOf("flags") == FlagsAttr && KindOf("pre") == PreAttr
    ensures KindOf("pkgid") == PkgidAttr
  {
  }

  /** The callbacks `evs` made while parser `d` stays current; None if a callback is undefined or another parser takes over first. */
  function RunIn(ctx: Context, evs: seq<Event>, d: Doc, clear: bool): Option<Context>
    decreases |evs|
  {
    if |evs| == 0 then Some(ctx)
    else if ctx.doc != d then None
    else match Step(ctx, evs[0], clear)
      case None => None
      case Some(c) => RunIn(c, evs[1..], d, clear)
  }

  lemma {:induction false} RunInAppend(ctx: Context, a: seq<Event>, b: seq<Event>, d: Doc, clear: bool)
    ensures RunIn(ctx, a + b, d, clear) ==
      match RunIn(ctx, a, d, clear) case None => None case Some(c) => RunIn(c, b, d, clear)
    decreases |a|
  {
    if |a| > 0 {
      assert (a + b)[0] == a[0] && (a + b)[1..] == a[1..] + b;
      if ctx.doc == d && Step(ctx, a[0], clear).Some? {
        RunInAppend(Step(ctx, a[0], clear).value, a[1..], b, d, clear);
      }
    } else {
      assert a + b == b;
    }
  }

  /** While the primary parser stays current, the read loop makes exactly the callbacks of its document. */
  lemma {:induction false} ParsePrimaryRun(ctx: Context, evs: seq<Event>, rest: seq<Event>, filelists: seq<Event>, clear: bool)
    requires ctx.doc == Primary
    requires RunIn(ctx, evs, Primary, clear).Some?
    ensures Parse(ctx, evs + rest, filelists, clear) == Parse(RunIn(ctx, evs, Primary, clear).value, rest, filelists, clear)
    decreases |evs|
  {
    if |evs| > 0 {
      var c := Step(ctx, evs[0], clear).value;
      assert (evs + rest)[0] == evs[0] && (evs + rest)[1..] == evs[1..] + rest;
      if |evs| > 1 {
        assert c.doc == Primary;
        ParsePrimaryRun(c, evs[1..], rest, filelists, clear);
      } else {
        assert evs[1..] + rest == rest;
      }
    } else {
      assert evs + rest == rest;
    }
  }

  /** The same for the filelists parser. */
  lemma {:induction false} ParseFilelistsRun(ctx: Context, primary: seq<Event>, evs: seq<Event>, rest: seq<Event>, clear: bool)
    requires ctx.doc == Filelists
    requires RunIn(ctx, evs, Filelists, clear).Some?
    ensures Parse(ctx, primary, evs + rest, clear) == Parse(RunIn(ctx, evs, Filelists, clear).value, primary, rest, clear)
    decreases |evs|
  {
    if |evs| > 0 {
      var c := Step(ctx, evs[0], clear).value;
      assert (evs + rest)[0] == evs[0] && (evs + rest)[1..] == evs[1..] + rest;
      if |evs| > 1 {
        assert c.doc == Filelists;
        ParseFilelistsRun(c, primary, evs[1..], rest, clear);
      } else {
        assert evs[1..] + rest == rest;
      }
    } else {
      assert evs + rest == rest;
    }
  }

  lemma Assoc<T>(a: seq<T>, b: seq<T>, c: seq<T>)
    ensures a + b + c == a + (b + c)
  {
  }

  lemma EmptyPrefix<T>(a: seq<T>)
    ensures [] + a == a
  {
  }

  lemma Assoc6<T>(a: seq<T>, b: seq<T>, c: seq<T>, d: seq<T>, e: seq<T>, f: seq<T>)
    ensures a + b + c + d + e + f == a + (b + c + d + e + f)
  {
  }

  /** The callbacks of a url element with no text, then the end of its package. */
  const EmptyUrlTail: seq<Event> := [Start("url", []), End("url"), End("package")]

  /**
   * As written, a package whose url element is empty hands the importer the
   * url left in the buffer, the previous package's; when the element start
   * empties the buffer, the importer gets "".
   */
  lemma {:induction false} EmptyUrlKeepsPrevious(ctx: Context)
    requires ctx.doc == Primary
    ensures RunIn(ctx, EmptyUrlTail, Primary, false).Some?
    ensures RunIn(ctx, EmptyUrlTail, Primary, false).value.log ==
      ctx.log + [AddDetails(ctx.bufs.summary, ctx.bufs.description, ctx.bufs.url, ctx.bufs.license)]
    ensures RunIn(ctx, EmptyUrlTail, Primary, true).Some?
    ensures RunIn(ctx, EmptyUrlTail, Primary, true).value.log ==
      ctx.log + [AddDetails(ctx.bufs.summary, ctx.bufs.description, "", ctx.bufs.license)]
  {
    TagOfNames();
    TagOfListNames();
    TagOfPackageNames();
    var evs := EmptyUrlTail;
    assert evs[1..][1..][1..] == [];
    var a := PrimaryStart(ctx, "url", [], false);
    var b := PrimaryEnd(a, "url");
    assert RunIn(ctx, evs, Primary, false) == RunIn(a, evs[1..], Primary, false);
    assert RunIn(a, evs[1..], Primary, false) == RunIn(b, evs[1..][1..], Primary, false);
    assert RunIn(b, evs[1..][1..], Primary, false) == Some(PrimaryEnd(b, "package"));
    var a' := PrimaryStart(ctx, "url", [], true);
    var b' := PrimaryEnd(a', "url");
    assert RunIn(ctx, evs, Primary, true) == RunIn(a', evs[1..], Primary, true);
    assert RunIn(a', evs[1..], Primary, true) == RunIn(b', evs[1..][1..], Primary, true);
    assert RunIn(b', evs[1..][1..], Primary, true) == Some(PrimaryEnd(b', "package"));
    assert b'.bufs.url == Get(b'.bufs, Url) == "";
  }

  /** `b` with one slot written twice holds the second value. */
  lemma SetTwice(b: Buffers, s: Slot, v: string, w: string)
    ensures Set(Set(b, s, v), s, w) == Set(b, s, w)
  {
  }

  lemma {:induction false} RunInThen(ctx: Context, a: seq<Event>, b: seq<Event>, d: Doc, clear: bool, c1: Context, c2: Context)
    requires RunIn(ctx, a, d, clear) == Some(c1) && RunIn(c1, b, d, clear) == Some(c2)
    ensures RunIn(ctx, a + b, d, clear) == Some(c2)
  {
    RunInAppend(ctx, a, b, d, clear);
  }

  lemma {:induction false} RunInCons(ctx: Context, e: Event, rest: seq<Event>, d: Doc, clear: bool)
    requires ctx.doc == d && Step(ctx, e, clear).Some?
    ensures RunIn(ctx, [e] + rest, d, clear) == RunIn(Step(ctx, e, clear).value, rest, d, clear)
  {
    assert ([e] + rest)[0] == e && ([e] + rest)[1..] == rest;
  }

  // ---------------------------------------------------------------------
  // Documents made from package records, and the calls they produce.
  // ---------------------------------------------------------------------

  /** One rpm:entry: its name and its optional attributes. */
  datatype Dep = Dep(name: string, flags: Option<string>, epoch: Option<string>, ver: Option<string>, rel: Option<string>, pre: bool)

  /** One package as the two documents describe it. */
  datatype Pkg = Pkg(
    name: string, arch: string, epoch: Option<string>, version: string, release: string,
    pkgid: string, summary: string, description: string, url: string, license: string,
    provideDeps: seq<Dep>, requireDeps: seq<Dep>, conflictDeps: seq<Dep>, obsoleteDeps: seq<Dep>,
    files: seq<string>)

  function OptAttr(name: string, v: Option<string>): seq<Attr> {
    if v.Some? then [Attr(name, v.value)] else []
  }

  function EntryAttrs(d: Dep): seq<Attr> {
    [Attr("name", d.name)] + OptAttr("flags", d.flags) + OptAttr("epoch", d.epoch)
      + OptAttr("ver", d.ver) + OptAttr("rel", d.rel) + (if d.pre then [Attr("pre", "1")] else [])
  }

  function VersionAttrs(p: Pkg): seq<Attr> {
    OptAttr("epoch", p.epoch) + [Attr("ver", p.version), Attr("rel", p.release)]
  }

  lemma {:induction false} PickAppend(f: Fields, a: seq<Attr>, b: seq<Attr>)
    ensures PickAll(f, a + b) == PickAll(PickAll(f, a), b)
    decreases |a|
  {
    if |a| == 0 {
      assert a + b == b;
    } else {
      assert (a + b)[0] == a[0] && (a + b)[1..] == a[1..] + b;
      PickAppend(Pick(f, a[0]), a[1..], b);
    }
  }

  lemma PickOne(f: Fields, a: Attr)
    ensures PickAll(f, [a]) == Pick(f, a)
  {
    assert PickAll(f, [a]) == PickAll(Pick(f, a), []);
  }

  /** The attribute loop over a rendered rpm:entry picks up exactly its fields. */
  lemma {:induction false} EntryFields(d: Dep)
    ensures PickAll(NoFields, EntryAttrs(d)) == Fields(Some(d.name), d.epoch, d.ver, d.rel, d.flags, d.pre, None)
  {
    KindOfNames();
    var a0 := [Attr("name", d.name)];
    var a1 := a0 + OptAttr("flags", d.flags);
    var a2 := a1 + OptAttr("epoch", d.epoch);
    var a3 := a2 + OptAttr("ver", d.ver);
    var a4 := a3 + OptAttr("rel", d.rel);
    var pre := if d.pre then [Attr("pre", "1")] else [];
    PickOne(NoFields, Attr("name", d.name));
    var f0 := NoFields.(name := Some(d.name));
    assert PickAll(NoFields, a1) == f0.(flags := d.flags) by {
      PickAppend(NoFields, a0, OptAttr("flags", d.flags));
      if d.flags.Some? { PickOne(f0, Attr("flags", d.flags.value)); }
    }
    var f1 := f0.(flags := d.flags);
    assert PickAll(NoFields, a2) == f1.(epoch := d.epoch) by {
      PickAppend(NoFields, a1, OptAttr("epoch", d.epoch));
      if d.epoch.Some? { PickOne(f1, Attr("epoch", d.epoch.value)); }
    }
    var f2 := f1.(epoch := d.epoch);
    assert PickAll(NoFields, a3) == f2.(ver := d.ver) by {
      PickAppend(NoFields, a2, OptAttr("ver", d.ver));
      if d.ver.Some? { PickOne(f2, Attr("ver", d.ver.value)); }
    }
    var f3 := f2.(ver := d.ver);
    assert PickAll(NoFields, a4) == f3.(rel := d.rel) by {
      PickAppend(NoFields, a3, OptAttr("rel", d.rel));
      if d.rel.Some? { PickOne(f3, Attr("rel", d.rel.value)); }
    }
    var f4 := f3.(rel := d.rel);
    assert PickAll(NoFields, a4 + pre) == f4.(pre := d.pre) by {
      PickAppend(NoFields, a4, pre);
      if d.pre { PickOne(f4, Attr("pre", "1")); }
    }
  }

  /** The attribute loop over a rendered version element picks up its epoch, ver and rel. */
  lemma {:induction false} VersionFields(p: Pkg)
    ensures PickAll(NoFields, VersionAttrs(p)).epoch == p.epoch
    ensures PickAll(NoFields, VersionAttrs(p)).ver == Some(p.version)
    ensures PickAll(NoFields, VersionAttrs(p)).rel == Some(p.release)
  {
    KindOfNames();
    var e := OptAttr("epoch", p.epoch);
    PickAppend(NoFields, e, [Attr("ver", p.version), Attr("rel", p.release)]);
    var f := PickAll(NoFields, e);
    assert f.epoch == p.epoch by {
      if p.epoch.Some? { PickOne(NoFields, Attr("epoch", p.epoch.value)); }
    }
    PickAppend(f, [Attr("ver", p.version)], [Attr("rel", p.release)]);
    assert [Attr("ver", p.version)] + [Attr("rel", p.release)] == [Attr("ver", p.version), Attr("rel", p.release)];
    PickOne(f, Attr("ver", p.version));
    PickOne(Pick(f, Attr("ver", p.version)), Attr("rel", p.release));
  }

  /** The text callback of an element: none when the element is empty. */
  function TextEvents(s: string): seq<Event> {
    if |s| == 0 then [] else [Text(s)]
  }

  /** An element with no attributes holding the text `s`. */
  function Element(tag: string, s: string): seq<Event> {
    [Start(tag, [])] + (TextEvents(s) + [End(tag)])
  }

  lemma {:induction false} RunOne(ctx: Context, e: Event, d: Doc, clear: bool)
    requires ctx.doc == d && Step(ctx, e, clear).Some?
    ensures RunIn(ctx, [e], d, clear) == Step(ctx, e, clear)
  {
    assert [e][1..] == [];
  }

  /**
   * A primary text element hands its text to its buffer and returns to
   * BEGIN, when the text is not empty or the start empties the buffer.
   */
  lemma {:induction false} TextElementRun(ctx: Context, tag: string, s: string, clear: bool)
    requires ctx.doc == Primary && TextSlot(TagOf(tag)).Some?
    requires clear || |s| > 0
    ensures RunIn(ctx, Element(tag, s), Primary, clear).Some?
    ensures var r := RunIn(ctx, Element(tag, s), Primary, clear).value;
      && r.state == Begin && r.doc == Primary && r.log == ctx.log && r.depType == ctx.depType
      && r.bufs == Set(ctx.bufs, TextSlot(TagOf(tag)).value, s)
  {
    var slot := TextSlot(TagOf(tag)).value;
    var a := Restart(ctx, slot, clear);
    RunInCons(ctx, Start(tag, []), TextEvents(s) + [End(tag)], Primary, clear);
    if |s| > 0 {
      var b := CharacterData(a, s);
      assert b.bufs == Set(ctx.bufs, slot, s) by {
        assert "" + s == s;
        SetTwice(ctx.bufs, slot, "", s);
      }
      RunInCons(a, Text(s), [End(tag)], Primary, clear);
      RunOne(b, End(tag), Primary, clear);
    } else {
      assert TextEvents(s) + [End(tag)] == [End(tag)];
      RunOne(a, End(tag), Primary, clear);
    }
  }

  /** A filelists file element hands its text to add_file and returns to BEGIN. */
  lemma {:induction false} FileElementRun(ctx: Context, s: string, clear: bool)
    requires ctx.doc == Filelists
    requires clear || |s| > 0
    ensures RunIn(ctx, Element("file", s), Filelists, clear).Some?
    ensures var r := RunIn(ctx, Element("file", s), Filelists, clear).value;
      && r.state == Begin && r.doc == Filelists && r.log == ctx.log + [AddFile(s)] && r.depType == ctx.depType
  {
    TagOfPackageNames();
    var a := Restart(ctx, File, clear);
    RunInCons(ctx, Start("file", []), TextEvents(s) + [End("file")], Filelists, clear);
    if |s| > 0 {
      var b := CharacterData(a, s);
      assert b.bufs.file == s by {
        assert "" + s == s;
      }
      RunInCons(a, Text(s), [End("file")], Filelists, clear);
      RunOne(b, End("file"), Filelists, clear);
    } else {
      assert TextEvents(s) + [End("file")] == [End("file")];
      RunOne(a, End("file"), Filelists, clear);
    }
  }

  /** The rpm:entry elements of a dependency list. */
  function Entries(deps: seq<Dep>): seq<Event>
    decreases |deps|
  {
    if |deps| == 0 then [] else [Start("rpm:entry", EntryAttrs(deps[0])), End("rpm:entry")] + Entries(deps[1..])
  }

  /** A dependency-list element holding `deps`. */
  function DepList(tag: string, deps: seq<Dep>): seq<Event> {
    [Start(tag, [])] + (Entries(deps) + [End(tag)])
  }

  /** The add_dependency call one entry should make; a missing flags attribute is the relation "". */
  function DepCall(d: Dep, t: DepType): Call {
    AddDependency(d.name, if d.flags.Some? then d.flags.value else "", Some(t), d.pre, d.epoch, d.ver, d.rel)
  }

  function DepCalls(deps: seq<Dep>, t: DepType): seq<Call>
    decreases |deps|
  {
    if |deps| == 0 then [] else [DepCall(deps[0], t)] + DepCalls(deps[1..], t)
  }

  /** One rpm:entry inside a dependency list makes its add_dependency call. */
  lemma {:induction false} EntryRun(ctx: Context, d: Dep, t: DepType, clear: bool)
    requires ctx.doc == Primary && ctx.state == InDeps(t) && ctx.depType == Some(t)
    ensures RunIn(ctx, [Start("rpm:entry", EntryAttrs(d)), End("rpm:entry")], Primary, clear) ==
      Some(ctx.(log := ctx.log + [DepCall(d, t)]))
  {
    TagOfPackageNames();
    EntryFields(d);
    var a := ctx.(log := ctx.log + [DepCall(d, t)]);
    assert PrimaryStart(ctx, "rpm:entry", EntryAttrs(d), clear) == a;
    RunInCons(ctx, Start("rpm:entry", EntryAttrs(d)), [End("rpm:entry")], Primary, clear);
    RunOne(a, End("rpm:entry"), Primary, clear);
  }

  /** Inside a dependency list every entry makes one add_dependency call, in order, and nothing else changes. */
  lemma {:induction false} EntriesRun(ctx: Context, deps: seq<Dep>, t: DepType, clear: bool)
    requires ctx.doc == Primary && ctx.state == InDeps(t) && ctx.depType == Some(t)
    ensures RunIn(ctx, Entries(deps), Primary, clear) == Some(ctx.(log := ctx.log + DepCalls(deps, t)))
    decreases |deps|
  {
    if |deps| == 0 {
      assert ctx.log + [] == ctx.log;
    } else {
      var e := [Start("rpm:entry", EntryAttrs(deps[0])), End("rpm:entry")];
      var a := ctx.(log := ctx.log + [DepCall(deps[0], t)]);
      var b := a.(log := a.log + DepCalls(deps[1..], t));
      assert b == ctx.(log := ctx.log + DepCalls(deps, t)) by {
        assert DepCalls(deps, t) == [DepCall(deps[0], t)] + DepCalls(deps[1..], t);
        Assoc(ctx.log, [DepCall(deps[0], t)], DepCalls(deps[1..], t));
      }
      assert RunIn(ctx, e + Entries(deps[1..]), Primary, clear) == Some(b) by {
        EntryRun(ctx, deps[0], t, clear);
        EntriesRun(a, deps[1..], t, clear);
        RunInThen(ctx, e, Entries(deps[1..]), Primary, clear, a, b);
      }
    }
  }

  /** A dependency list selects its type, and makes one add_dependency call per entry. */
  lemma {:induction false} DepListRun(ctx: Context, tag: string, t: DepType, deps: seq<Dep>, clear: bool)
    requires ctx.doc == Primary && DepTag(TagOf(tag)) == Some(t)
    ensures RunIn(ctx, DepList(tag, deps), Primary, clear) ==
      Some(ctx.(state := InDeps(t), depType := Some(t), log := ctx.log + DepCalls(deps, t)))
  {
    var a := ctx.(state := InDeps(t), depType := Some(t));
    var b := a.(log := a.log + DepCalls(deps, t));
    RunInCons(ctx, Start(tag, []), Entries(deps) + [End(tag)], Primary, clear);
    EntriesRun(a, deps, t, clear);
    RunOne(b, End(tag), Primary, clear);
    RunInThen(a, Entries(deps), [End(tag)], Primary, clear, b, b);
  }

  /** A package's primary.xml callbacks up to its version element. */
  function HeadEvents(p: Pkg): seq<Event> {
    [Start("package", [])] + Element("name", p.name) + Element("arch", p.arch)
      + [Start("version", VersionAttrs(p)), End("version")]
  }

  /** Its checksum, summary, description and url elements, then the format element's licence. */
  function BodyEvents(p: Pkg): seq<Event> {
    Element("checksum", p.pkgid) + Element("summary", p.summary) + Element("description", p.description)
      + Element("url", p.url) + [Start("format", [])] + Element("rpm:license", p.license)
  }

  /** Its four dependency lists. */
  function DepEvents(p: Pkg): seq<Event> {
    DepList("rpm:provides", p.provideDeps) + DepList("rpm:requires", p.requireDeps)
      + DepList("rpm:conflicts", p.conflictDeps) + DepList("rpm:obsoletes", p.obsoleteDeps)
  }

  const TailEvents: seq<Event> := [End("format"), End("package")]

  /** A package's callbacks in primary.xml. */
  function PrimaryPackage(p: Pkg): seq<Event> {
    HeadEvents(p) + BodyEvents(p) + DepEvents(p) + TailEvents
  }

  /** The same package's callbacks in filelists.xml. */
  function FilelistsPackage(p: Pkg): seq<Event> {
    [Start("package", [Attr("pkgid", p.pkgid), Attr("name", p.name)])] + FileEvents(p.files) + [End("package")]
  }

  function FileEvents(files: seq<string>): seq<Event>
    decreases |files|
  {
    if |files| == 0 then [] else Element("file", files[0]) + FileEvents(files[1..])
  }

  function FileCalls(files: seq<string>): seq<Call>
    decreases |files|
  {
    if |files| == 0 then [] else [AddFile(files[0])] + FileCalls(files[1..])
  }

  /** The dependency calls of a package, in document order. */
  function PackageDepCalls(p: Pkg): seq<Call> {
    DepCalls(p.provideDeps, Provides) + DepCalls(p.requireDeps, Requires)
      + DepCalls(p.conflictDeps, Conflicts) + DepCalls(p.obsoleteDeps, Obsoletes)
  }

  /** The importer calls one package should make: begin, dependencies, details, files, finish. */
  function Calls(p: Pkg): seq<Call> {
    [BeginPackage(p.name, p.arch, p.epoch, p.version, p.release)] + PackageDepCalls(p)
      + [AddDetails(p.summary, p.description, p.url, p.license)] + FileCalls(p.files) + [FinishPackage]
  }

  /** Every text element of the package has text, and so does every file. */
  predicate Filled(p: Pkg) {
    && |p.name| > 0 && |p.arch| > 0 && |p.pkgid| > 0 && |p.summary| > 0
    && |p.description| > 0 && |p.url| > 0 && |p.license| > 0
    && forall k :: 0 <= k < |p.files| ==> |p.files[k]| > 0
  }

  /** The package start and its name element: the name is buffered, the state is BEGIN, nothing is logged. */
  lemma {:induction false} NameRun(ctx: Context, p: Pkg, clear: bool)
    requires ctx.doc == Primary
    requires clear || |p.name| > 0
    ensures RunIn(ctx, [Start("package", [])] + Element("name", p.name), Primary, clear).Some?
    ensures var r := RunIn(ctx, [Start("package", [])] + Element("name", p.name), Primary, clear).value;
      r.doc == Primary && r.log == ctx.log && r.depType == ctx.depType && r.bufs.name == p.name
  {
    TagOfNames();
    TagOfPackageNames();
    RunOne(ctx, Start("package", []), Primary, clear);
    TextElementRun(ctx, "name", p.name, clear);
    RunInThen(ctx, [Start("package", [])], Element("name", p.name), Primary, clear,
              ctx, RunIn(ctx, Element("name", p.name), Primary, clear).value);
  }

  /** The arch element: the arch is buffered, the name kept. */
  lemma {:induction false} ArchRun(ctx: Context, p: Pkg, clear: bool)
    requires ctx.doc == Primary
    requires clear || |p.arch| > 0
    ensures RunIn(ctx, Element("arch", p.arch), Primary, clear).Some?
    ensures var r := RunIn(ctx, Element("arch", p.arch), Primary, clear).value;
      && r.state == Begin && r.doc == Primary && r.log == ctx.log && r.depType == ctx.depType
      && r.bufs.name == ctx.bufs.name && r.bufs.arch == p.arch
  {
    TagOfNames();
    TextElementRun(ctx, "arch", p.arch, clear);
  }

  /** The version element begins the package with the buffered name and arch. */
  lemma {:induction false} VersionRun(ctx: Context, p: Pkg, clear: bool)
    requires ctx.doc == Primary && ctx.state == Begin && ctx.bufs.name == p.name && ctx.bufs.arch == p.arch
    ensures RunIn(ctx, [Start("version", VersionAttrs(p)), End("version")], Primary, clear) ==
      Some(ctx.(log := ctx.log + [BeginPackage(p.name, p.arch, p.epoch, p.version, p.release)]))
  {
    TagOfNames();
    var c := ctx.(log := ctx.log + [BeginPackage(p.name, p.arch, p.epoch, p.version, p.release)]);
    VersionFields(p);
    assert PrimaryStart(ctx, "version", VersionAttrs(p), clear) == c;
    RunInCons(ctx, Start("version", VersionAttrs(p)), [End("version")], Primary, clear);
    RunOne(c, End("version"), Primary, clear);
  }

  lemma {:induction false} HeadRun(ctx: Context, p: Pkg, clear: bool)
    requires ctx.doc == Primary
    requires clear || (|p.name| > 0 && |p.arch| > 0)
    ensures RunIn(ctx, HeadEvents(p), Primary, clear).Some?
    ensures var r := RunIn(ctx, HeadEvents(p), Primary, clear).value;
      && r.doc == Primary && r.depType == ctx.depType
      && r.log == ctx.log + [BeginPackage(p.name, p.arch, p.epoch, p.version, p.release)]
  {
    var sn := [Start("package", [])] + Element("name", p.name);
    var a := Element("arch", p.arch);
    var v := [Start("version", VersionAttrs(p)), End("version")];
    NameRun(ctx, p, clear);
    var c1 := RunIn(ctx, sn, Primary, clear).value;
    ArchRun(c1, p, clear);
    var c2 := RunIn(c1, a, Primary, clear).value;
    VersionRun(c2, p, clear);
    var c3 := c2.(log := c2.log + [BeginPackage(p.name, p.arch, p.epoch, p.version, p.release)]);
    RunInThen(ctx, sn, a, Primary, clear, c1, c2);
    RunInThen(ctx, sn + a, v, Primary, clear, c2, c3);
    assert HeadEvents(p) == sn + a + v;
  }

  /** Two text elements in a row buffer their texts, the second written last. */
  lemma {:induction false} TextPairRun(ctx: Context, t1: string, s1: string, t2: string, s2: string, clear: bool)
    requires ctx.doc == Primary && TextSlot(TagOf(t1)).Some? && TextSlot(TagOf(t2)).Some?
    requires clear || (|s1| > 0 && |s2| > 0)
    ensures RunIn(ctx, Element(t1, s1) + Element(t2, s2), Primary, clear).Some?
    ensures var r := RunIn(ctx, Element(t1, s1) + Element(t2, s2), Primary, clear).value;
      && r.doc == Primary && r.log == ctx.log && r.depType == ctx.depType
      && r.bufs == Set(Set(ctx.bufs, TextSlot(TagOf(t1)).value, s1), TextSlot(TagOf(t2)).value, s2)
  {
    TextElementRun(ctx, t1, s1, clear);
    var c1 := RunIn(ctx, Element(t1, s1), Primary, clear).value;
    TextElementRun(c1, t2, s2, clear);
    RunInThen(ctx, Element(t1, s1), Element(t2, s2), Primary, clear, c1, RunIn(c1, Element(t2, s2), Primary, clear).value);
  }

  /** The checksum and summary elements: the summary is buffered. */
  lemma {:induction false} SummaryRun(ctx: Context, p: Pkg, clear: bool)
    requires ctx.doc == Primary
    requires clear || (|p.pkgid| > 0 && |p.summary| > 0)
    ensures RunIn(ctx, Element("checksum", p.pkgid) + Element("summary", p.summary), Primary, clear).Some?
    ensures var r := RunIn(ctx, Element("checksum", p.pkgid) + Element("summary", p.summary), Primary, clear).value;
      r.doc == Primary && r.log == ctx.log && r.depType == ctx.depType && r.bufs.summary == p.summary
  {
    TagOfNames();
    TextPairRun(ctx, "checksum", p.pkgid, "summary", p.summary, clear);
  }

  /** The description and url elements: both are buffered, the summary kept. */
  lemma {:induction false} DescriptionRun(ctx: Context, p: Pkg, clear: bool)
    requires ctx.doc == Primary
    requires clear || (|p.description| > 0 && |p.url| > 0)
    ensures RunIn(ctx, Element("description", p.description) + Element("url", p.url), Primary, clear).Some?
    ensures var r := RunIn(ctx, Element("description", p.description) + Element("url", p.url), Primary, clear).value;
      && r.doc == Primary && r.log == ctx.log && r.depType == ctx.depType && r.bufs.summary == ctx.bufs.summary
      && r.bufs.description == p.description && r.bufs.url == p.url
  {
    TagOfNames();
    TextPairRun(ctx, "description", p.description, "url", p.url, clear);
  }

  /** The format element's start and the licence element: the licence is buffered, the other details kept. */
  lemma {:induction false} LicenseRun(ctx: Context, p: Pkg, clear: bool)
    requires ctx.doc == Primary
    requires clear || |p.license| > 0
    ensures RunIn(ctx, [Start("format", [])] + Element("rpm:license", p.license), Primary, clear).Some?
    ensures var r := RunIn(ctx, [Start("format", [])] + Element("rpm:license", p.license), Primary, clear).value;
      && r.doc == Primary && r.log == ctx.log && r.depType == ctx.depType
      && r.bufs.summary == ctx.bufs.summary && r.bufs.description == ctx.bufs.description
      && r.bufs.url == ctx.bufs.url && r.bufs.license == p.license
  {
    TagOfNames();
    OtherNames();
    RunOne(ctx, Start("format", []), Primary, clear);
    TextElementRun(ctx, "rpm:license", p.license, clear);
    RunInThen(ctx, [Start("format", [])], Element("rpm:license", p.license), Primary, clear,
              ctx, RunIn(ctx, Element("rpm:license", p.license), Primary, clear).value);
  }

  /** The checksum through licence elements buffer the details add_details is handed. */
  lemma {:induction false} BodyRun(ctx: Context, p: Pkg, clear: bool)
    requires ctx.doc == Primary
    requires clear || (|p.pkgid| > 0 && |p.summary| > 0 && |p.description| > 0 && |p.url| > 0 && |p.license| > 0)
    ensures RunIn(ctx, BodyEvents(p), Primary, clear).Some?
    ensures var r := RunIn(ctx, BodyEvents(p), Primary, clear).value;
      && r.doc == Primary && r.log == ctx.log && r.depType == ctx.depType
      && r.bufs.summary == p.summary && r.bufs.description == p.description
      && r.bufs.url == p.url && r.bufs.license == p.license
  {
    var e1 := Element("checksum", p.pkgid) + Element("summary", p.summary);
    var e2 := Element("description", p.description) + Element("url", p.url);
    var e3 := [Start("format", [])] + Element("rpm:license", p.license);
    assert BodyEvents(p) == e1 + e2 + e3 by {
      Assoc(Element("checksum", p.pkgid), Element("summary", p.summary), Element("description", p.description));
    }
    SummaryRun(ctx, p, clear);
    var c1 := RunIn(ctx, e1, Primary, clear).value;
    DescriptionRun(c1, p, clear);
    var c2 := RunIn(c1, e2, Primary, clear).value;
    LicenseRun(c2, p, clear);
    var c3 := RunIn(c2, e3, Primary, clear).value;
    RunInThen(ctx, e1, e2, Primary, clear, c1, c2);
    RunInThen(ctx, e1 + e2, e3, Primary, clear, c2, c3);
  }

  /** Two dependency lists in a row make their calls in order; the second selects the final type. */
  lemma {:induction false} DepPairRun(ctx: Context, tag1: string, t1: DepType, deps1: seq<Dep>,
                                      tag2: string, t2: DepType, deps2: seq<Dep>, clear: bool)
    requires ctx.doc == Primary && DepTag(TagOf(tag1)) == Some(t1) && DepTag(TagOf(tag2)) == Some(t2)
    ensures RunIn(ctx, DepList(tag1, deps1) + DepList(tag2, deps2), Primary, clear) ==
      Some(ctx.(state := InDeps(t2), depType := Some(t2), log := ctx.log + (DepCalls(deps1, t1) + DepCalls(deps2, t2))))
  {
    var c1 := ctx.(state := InDeps(t1), depType := Some(t1), log := ctx.log + DepCalls(deps1, t1));
    var c2 := c1.(state := InDeps(t2), depType := Some(t2), log := c1.log + DepCalls(deps2, t2));
    DepListRun(ctx, tag1, t1, deps1, clear);
    DepListRun(c1, tag2, t2, deps2, clear);
    RunInThen(ctx, DepList(tag1, deps1), DepList(tag2, deps2), Primary, clear, c1, c2);
    Assoc(ctx.log, DepCalls(deps1, t1), DepCalls(deps2, t2));
  }

  /** The provides and requires lists. */
  lemma {:induction false} ProvidesRequiresRun(ctx: Context, p: Pkg, clear: bool)
    requires ctx.doc == Primary
    ensures RunIn(ctx, DepList("rpm:provides", p.provideDeps) + DepList("rpm:requires", p.requireDeps), Primary, clear) ==
      Some(ctx.(state := InDeps(Requires), depType := Some(Requires),
                log := ctx.log + (DepCalls(p.provideDeps, Provides) + DepCalls(p.requireDeps, Requires))))
  {
    TagOfListNames();
    DepPairRun(ctx, "rpm:provides", Provides, p.provideDeps, "rpm:requires", Requires, p.requireDeps, clear);
  }

  /** The conflicts and obsoletes lists. */
  lemma {:induction false} ConflictsObsoletesRun(ctx: Context, p: Pkg, clear: bool)
    requires ctx.doc == Primary
    ensures RunIn(ctx, DepList("rpm:conflicts", p.conflictDeps) + DepList("rpm:obsoletes", p.obsoleteDeps), Primary, clear) ==
      Some(ctx.(state := InDeps(Obsoletes), depType := Some(Obsoletes),
                log := ctx.log + (DepCalls(p.conflictDeps, Conflicts) + DepCalls(p.obsoleteDeps, Obsoletes))))
  {
    TagOfListNames();
    DepPairRun(ctx, "rpm:conflicts", Conflicts, p.conflictDeps, "rpm:obsoletes", Obsoletes, p.obsoleteDeps, clear);
  }

  /** The four dependency lists make the dependency calls, in document order. */
  lemma {:induction false} DepsRun(ctx: Context, p: Pkg, clear: bool)
    requires ctx.doc == Primary
    ensures RunIn(ctx, DepEvents(p), Primary, clear) ==
      Some(ctx.(state := InDeps(Obsoletes), depType := Some(Obsoletes), log := ctx.log + PackageDepCalls(p)))
  {
    var l12 := DepList("rpm:provides", p.provideDeps) + DepList("rpm:requires", p.requireDeps);
    var l34 := DepList("rpm:conflicts", p.conflictDeps) + DepList("rpm:obsoletes", p.obsoleteDeps);
    var d12 := DepCalls(p.provideDeps, Provides) + DepCalls(p.requireDeps, Requires);
    var d34 := DepCalls(p.conflictDeps, Conflicts) + DepCalls(p.obsoleteDeps, Obsoletes);
    var c2 := ctx.(state := InDeps(Requires), depType := Some(Requires), log := ctx.log + d12);
    var c4 := ctx.(state := InDeps(Obsoletes), depType := Some(Obsoletes), log := ctx.log + PackageDepCalls(p));
    ProvidesRequiresRun(ctx, p, clear);
    assert RunIn(c2, l34, Primary, clear) == Some(c4) by {
      ConflictsObsoletesRun(c2, p, clear);
      Assoc(ctx.log, d12, d34);
      Assoc(d12, DepCalls(p.conflictDeps, Conflicts), DepCalls(p.obsoleteDeps, Obsoletes));
    }
    assert DepEvents(p) == l12 + l34 by {
      Assoc(l12, DepList("rpm:conflicts", p.conflictDeps), DepList("rpm:obsoletes", p.obsoleteDeps));
    }
    RunInThen(ctx, l12, l34, Primary, clear, c2, c4);
  }

  /** Closing the format and the package hands the buffered details to add_details and switches to filelists. */
  lemma {:induction false} TailRun(ctx: Context, clear: bool)
    requires ctx.doc == Primary
    ensures RunIn(ctx, TailEvents, Primary, clear).Some?
    ensures var r := RunIn(ctx, TailEvents, Primary, clear).value;
      && r.doc == Filelists
      && r.log == ctx.log + [AddDetails(ctx.bufs.summary, ctx.bufs.description, ctx.bufs.url, ctx.bufs.license)]
  {
    OtherNames();
    TagOfPackageNames();
    var a := PrimaryEnd(ctx, "format");
    RunInCons(ctx, End("format"), [End("package")], Primary, clear);
    RunOne(a, End("package"), Primary, clear);
  }

  /** A package's primary.xml callbacks make its begin, dependency and details calls, and hand over to filelists. */
  lemma {:induction false} PrimaryRun(ctx: Context, p: Pkg, clear: bool)
    requires ctx.doc == Primary
    requires clear || Filled(p)
    ensures RunIn(ctx, PrimaryPackage(p), Primary, clear).Some?
    ensures var r := RunIn(ctx, PrimaryPackage(p), Primary, clear).value;
      && r.doc == Filelists
      && r.log == ctx.log + [BeginPackage(p.name, p.arch, p.epoch, p.version, p.release)] + PackageDepCalls(p)
                  + [AddDetails(p.summary, p.description, p.url, p.license)]
  {
    var h, b, d := HeadEvents(p), BodyEvents(p), DepEvents(p);
    HeadRun(ctx, p, clear);
    var c1 := RunIn(ctx, h, Primary, clear).value;
    BodyRun(c1, p, clear);
    var c2 := RunIn(c1, b, Primary, clear).value;
    DepsRun(c2, p, clear);
    var c3 := RunIn(c2, d, Primary, clear).value;
    TailRun(c3, clear);
    var c4 := RunIn(c3, TailEvents, Primary, clear).value;
    RunInThen(ctx, h, b, Primary, clear, c1, c2);
    RunInThen(ctx, h + b, d, Primary, clear, c2, c3);
    RunInThen(ctx, h + b + d, TailEvents, Primary, clear, c3, c4);
  }

  /** The file elements make one add_file call each, in order. */
  lemma {:induction false} FilesRun(ctx: Context, files: seq<string>, clear: bool)
    requires ctx.doc == Filelists
    requires clear || forall k :: 0 <= k < |files| ==> |files[k]| > 0
    ensures RunIn(ctx, FileEvents(files), Filelists, clear).Some?
    ensures var r := RunIn(ctx, FileEvents(files), Filelists, clear).value;
      r.doc == Filelists && r.log == ctx.log + FileCalls(files)
    decreases |files|
  {
    if |files| == 0 {
      assert ctx.log + [] == ctx.log;
    } else {
      var e, rest := Element("file", files[0]), FileEvents(files[1..]);
      assert RunIn(ctx, e, Filelists, clear).Some? by {
        assert clear || |files[0]| > 0;
        FileElementRun(ctx, files[0], clear);
      }
      var c1 := RunIn(ctx, e, Filelists, clear).value;
      assert c1.doc == Filelists && c1.log == ctx.log + [AddFile(files[0])] by {
        assert clear || |files[0]| > 0;
        FileElementRun(ctx, files[0], clear);
      }
      assert RunIn(c1, rest, Filelists, clear).Some? && RunIn(c1, rest, Filelists, clear).value.doc == Filelists
             && RunIn(c1, rest, Filelists, clear).value.log == c1.log + FileCalls(files[1..]) by {
        assert clear || forall k :: 0 <= k < |files[1..]| ==> |files[1..][k]| > 0;
        FilesRun(c1, files[1..], clear);
      }
      var c2 := RunIn(c1, rest, Filelists, clear).value;
      assert RunIn(ctx, e + rest, Filelists, clear) == Some(c2) by {
        RunInThen(ctx, e, rest, Filelists, clear, c1, c2);
      }
      assert FileCalls(files) == [AddFile(files[0])] + FileCalls(files[1..]);
      Assoc(ctx.log, [AddFile(files[0])], FileCalls(files[1..]));
    }
  }

  /** A package's filelists.xml callbacks make its add_file calls and finish it, handing back to primary. */
  lemma {:induction false} FilelistsRun(ctx: Context, p: Pkg, clear: bool)
    requires ctx.doc == Filelists
    requires clear || Filled(p)
    ensures RunIn(ctx, FilelistsPackage(p), Filelists, clear).Some?
    ensures var r := RunIn(ctx, FilelistsPackage(p), Filelists, clear).value;
      r.doc == Primary && r.log == ctx.log + FileCalls(p.files) + [FinishPackage]
  {
    var s0 := [Start("package", [Attr("pkgid", p.pkgid), Attr("name", p.name)])];
    var f := FileEvents(p.files);
    assert RunIn(ctx, s0, Filelists, clear) == Some(ctx) by {
      TagOfPackageNames();
      KindOfNames();
      var a, b := Attr("pkgid", p.pkgid), Attr("name", p.name);
      assert [a, b][1..] == [b];
      PickOne(Pick(NoFields, a), b);
      assert PickAll(NoFields, [a, b]).pkgid == Some(p.pkgid);
      RunOne(ctx, s0[0], Filelists, clear);
    }
    FilesRun(ctx, p.files, clear);
    var c1 := RunIn(ctx, f, Filelists, clear).value;
    var c2 := FilelistsEnd(c1, "package");
    assert RunIn(c1, [End("package")], Filelists, clear) == Some(c2) by {
      TagOfPackageNames();
      RunOne(c1, End("package"), Filelists, clear);
    }
    RunInThen(ctx, s0, f, Filelists, clear, ctx, c1);
    RunInThen(ctx, s0 + f, [End("package")], Filelists, clear, c1, c2);
    TagOfPackageNames();
  }

  /** One package through both parsers: its primary callbacks, then its filelists callbacks after the optional document start. */
  lemma {:induction false} PackageRun(ctx: Context, p: Pkg, lead: seq<Event>, restP: seq<Event>, restF: seq<Event>, clear: bool)
    returns (c: Context)
    requires ctx.doc == Primary
    requires clear || Filled(p)
    requires lead == [] || lead == [Start("filelists", [])]
    ensures c.doc == Primary && c.log == ctx.log + Calls(p)
    ensures Parse(ctx, PrimaryPackage(p) + restP, lead + FilelistsPackage(p) + restF, clear) == Parse(c, restP, restF, clear)
  {
    var pp, fp := PrimaryPackage(p), FilelistsPackage(p);
    PrimaryRun(ctx, p, clear);
    var c1 := RunIn(ctx, pp, Primary, clear).value;
    ParsePrimaryRun(ctx, pp, restP, lead + fp + restF, clear);
    assert RunIn(c1, lead, Filelists, clear) == Some(c1) by {
      if lead != [] {
        OtherNames();
        RunOne(c1, Start("filelists", []), Filelists, clear);
      }
    }
    FilelistsRun(c1, p, clear);
    c := RunIn(c1, fp, Filelists, clear).value;
    RunInThen(c1, lead, fp, Filelists, clear, c1, c);
    ParseFilelistsRun(c1, restP, lead + fp, restF, clear);
    Assoc6(ctx.log, [BeginPackage(p.name, p.arch, p.epoch, p.version, p.release)], PackageDepCalls(p),
           [AddDetails(p.summary, p.description, p.url, p.license)], FileCalls(p.files), [FinishPackage]);
  }

  function AllPrimary(ps: seq<Pkg>): seq<Event>
    decreases |ps|
  {
    if |ps| == 0 then [] else PrimaryPackage(ps[0]) + AllPrimary(ps[1..])
  }

  function AllFilelists(ps: seq<Pkg>): seq<Event>
    decreases |ps|
  {
    if |ps| == 0 then [] else FilelistsPackage(ps[0]) + AllFilelists(ps[1..])
  }

  /** The importer calls a list of packages should make, package after package. */
  function AllCalls(ps: seq<Pkg>): seq<Call>
    decreases |ps|
  {
    if |ps| == 0 then [] else Calls(ps[0]) + AllCalls(ps[1..])
  }

  /** primary.xml for the packages `ps`. */
  function PrimaryDoc(ps: seq<Pkg>): seq<Event> {
    [Start("metadata", [])] + AllPrimary(ps) + [End("metadata")]
  }

  /** filelists.xml for the same packages. */
  function FilelistsDoc(ps: seq<Pkg>): seq<Event> {
    [Start("filelists", [])] + AllFilelists(ps) + [End("filelists")]
  }

  /** Every package has text in every text element. */
  predicate AllFilled(ps: seq<Pkg>) {
    forall k :: 0 <= k < |ps| ==> Filled(ps[k])
  }

  lemma AllFilledTail(ps: seq<Pkg>)
    requires |ps| > 0 && AllFilled(ps)
    ensures Filled(ps[0]) && AllFilled(ps[1..])
  {
    forall k | 0 <= k < |ps[1..]|
      ensures Filled(ps[1..][k])
    {
      assert ps[1..][k] == ps[k + 1];
    }
  }

  /** The two streams split after their first package. */
  lemma {:induction false} StreamsSplit(ps: seq<Pkg>, lead: seq<Event>)
    requires |ps| > 0
    ensures AllPrimary(ps) + [End("metadata")] == PrimaryPackage(ps[0]) + (AllPrimary(ps[1..]) + [End("metadata")])
    ensures lead + AllFilelists(ps) + [End("filelists")] ==
      lead + FilelistsPackage(ps[0]) + (AllFilelists(ps[1..]) + [End("filelists")])
    ensures [] + AllFilelists(ps[1..]) + [End("filelists")] == AllFilelists(ps[1..]) + [End("filelists")]
  {
    var rest := ps[1..];
    Assoc(PrimaryPackage(ps[0]), AllPrimary(rest), [End("metadata")]);
    Assoc(lead, FilelistsPackage(ps[0]), AllFilelists(rest));
    Assoc(lead + FilelistsPackage(ps[0]), AllFilelists(rest), [End("filelists")]);
    EmptyPrefix(AllFilelists(rest));
  }

  /** With no package left, the end of primary.xml finishes the parse and makes no call. */
  lemma {:induction false} ParseEnd(ctx: Context, fl: seq<Event>, clear: bool)
    requires ctx.doc == Primary
    ensures Parse(ctx, [End("metadata")], fl, clear) == Done(PrimaryEnd(ctx, "metadata"))
    ensures PrimaryEnd(ctx, "metadata").log == ctx.log
  {
    OtherNames();
    assert [End("metadata")][1..] == [];
  }

  lemma {:induction false} ParsePackages(ctx: Context, ps: seq<Pkg>, lead: seq<Event>, clear: bool)
    requires ctx.doc == Primary
    requires clear || AllFilled(ps)
    requires lead == [] || lead == [Start("filelists", [])]
    ensures Parse(ctx, AllPrimary(ps) + [End("metadata")], lead + AllFilelists(ps) + [End("filelists")], clear).Done?
    ensures Parse(ctx, AllPrimary(ps) + [End("metadata")], lead + AllFilelists(ps) + [End("filelists")], clear).ctx.log ==
      ctx.log + AllCalls(ps)
    decreases |ps|
  {
    if |ps| == 0 {
      assert AllPrimary(ps) + [End("metadata")] == [End("metadata")];
      ParseEnd(ctx, lead + AllFilelists(ps) + [End("filelists")], clear);
      assert ctx.log + AllCalls(ps) == ctx.log;
    } else {
      var p, rest := ps[0], ps[1..];
      var restP, restF := AllPrimary(rest) + [End("metadata")], AllFilelists(rest) + [End("filelists")];
      StreamsSplit(ps, lead);
      if !clear {
        AllFilledTail(ps);
      }
      var c := PackageRun(ctx, p, lead, restP, restF, clear);
      ParsePackages(c, rest, [], clear);
      Assoc(ctx.log, Calls(p), AllCalls(rest));
    }
  }

  /**
   * The importer round trip: parsing the primary.xml and filelists.xml of a
   * list of packages makes exactly each package's calls, package after
   * package: begin_package with its name, arch and EVR, add_dependency for
   * each entry of each list in order, add_details with its summary,
   * description, url and licence, add_file for each file, finish_package.
   * As written this holds when every text element has text; when each
   * element start empties its buffer it holds for every package.
   */
  lemma {:induction false} ParseAll(ps: seq<Pkg>, leftover: Buffers, clear: bool)
    requires clear || AllFilled(ps)
    ensures Parse(Initial(leftover), PrimaryDoc(ps), FilelistsDoc(ps), clear).Done?
    ensures Parse(Initial(leftover), PrimaryDoc(ps), FilelistsDoc(ps), clear).ctx.log == AllCalls(ps)
  {
    var init := Initial(leftover);
    var s0 := [Start("metadata", [])];
    var restP := AllPrimary(ps) + [End("metadata")];
    assert RunIn(init, s0, Primary, clear) == Some(init) by {
      OtherNames();
      RunOne(init, Start("metadata", []), Primary, clear);
    }
    assert PrimaryDoc(ps) == s0 + restP by {
      Assoc(s0, AllPrimary(ps), [End("metadata")]);
    }
    ParsePrimaryRun(init, s0, restP, FilelistsDoc(ps), clear);
    ParsePackages(init, ps, [Start("filelists", [])], clear);
    assert init.log + AllCalls(ps) == AllCalls(ps);
  }
}

=== FILE: sax.dfy ===
/**
 * The callbacks an expat parser makes, as a sequence of events. Each parser
 * of the repository is a context record and a step function over these
 * events; the read loop that feeds expat from a file descriptor is replaced
 * by the event sequence itself.
 */
module Sax {
  import opened CText

  /** One name/value pair of the `atts` array handed to a start handler. */
  datatype Attr = Attr(name: string, value: string)

  /**
   * A start-element callback with its attributes in document order, an
   * end-element callback, or one character-data callback (expat may split
   * the text of one element over several of them).
   */
  datatype Event = Start(name: string, attrs: seq<Attr>) | End(name: string) | Text(s: string)

  /** The position of the last attribute called `name`. */
  function LastIndex(attrs: seq<Attr>, name: string): (r: Option<nat>)
    ensures r.None? ==> forall i :: 0 <= i < |attrs| ==> attrs[i].name != name
    ensures r.Some? ==> r.value < |attrs| && attrs[r.value].name == name
    ensures r.Some? ==> forall j :: r.value < j < |attrs| ==> attrs[j].name != name
    decreases |attrs|
  {
    if |attrs| == 0 then None
    else if attrs[|attrs| - 1].name == name then Some(|attrs| - 1)
    else
      var init := attrs[..|attrs| - 1];
      assert forall i :: 0 <= i < |init| ==> init[i] == attrs[i];
      LastIndex(init, name)
  }

  /** The value of the last attribute called `name`, as a loop assigning each match in turn leaves it. */
  function Last(attrs: seq<Attr>, name: string): (r: Option<string>)
    ensures r.None? <==> forall i :: 0 <= i < |attrs| ==> attrs[i].name != name
    ensures r.Some? ==> exists i :: 0 <= i < |attrs| && attrs[i] == Attr(name, r.value)
                                    && forall j :: i < j < |attrs| ==> attrs[j].name != name
  {
    match LastIndex(attrs, name)
    case None => None
    case Some(i) =>
      assert attrs[i] == Attr(name, attrs[i].value);
      Some(attrs[i].value)
  }

  /** Seen from the front: the last match in the rest wins over the first attribute. */
  lemma {:induction false} LastCons(attrs: seq<Attr>, name: string)
    requires |attrs| > 0
    ensures Last(attrs, name) ==
              if Last(attrs[1..], name).Some? then Last(attrs[1..], name)
              else if attrs[0].name == name then Some(attrs[0].value)
              else None
    decreases |attrs|
  {
    var n := |attrs|;
    if n > 1 && attrs[n - 1].name != name {
      assert attrs[..n - 1][1..] == attrs[1..][..n - 2];
      LastCons(attrs[..n - 1], name);
    } else if n > 1 {
      assert attrs[1..][n - 2] == attrs[n - 1];
    }
  }

  /** `current`, unless an attribute supplied a new value. */
  function Override(current: Option<string>, supplied: Option<string>): Option<string> {
    if supplied.Some? then supplied else current
  }
}

=== FILE: transaction.dfy ===
/**
 * The resolution loop of src/low-transaction.c: the conflict pass and the
 * requirement pass over the install table, the removal pass over the remove
 * table, and low_transaction_resolve repeating them while packages are
 * added.
 */
module Transaction {
  import opened CText
  import opened Package
  import opened TransactionTables
  import opened TransactionRules

  /** A pass over the install table: its status and the install and unresolved tables after it. */
  datatype Pass = Pass(status: Status, install: Table, unresolved: Table)

  /**
   * The pair of calls both passes make to give up on a package: remove it
   * from the install table and add it to the unresolved table.
   */
  function Unresolve(install: Table, unresolved: Table, p: Package): (r: Pass)
    requires Valid(install) && Valid(unresolved)
    ensures Valid(r.install) && Valid(r.unresolved)
    ensures r.status == Unresolvable
    ensures r.install.members == install.members - {Key(p)}
    ensures r.unresolved.members.Keys == unresolved.members.Keys + {Key(p)}
  {
    Pass(Unresolvable, RemoveFromHash(install, p), AddToHash(unresolved, p).table)
  }

  /** None of `p`'s conflicts is installed or scheduled, and nothing installed conflicts with it. */
  ghost predicate Clean(env: Env, install: Table, p: Package) {
    && !ConflictsWithInstalled(env, p)
    && forall i :: 0 <= i < |p.conflictDeps| ==> !TableProvides(install, p.conflictDeps[i].name)
  }

  /**
   * The loop of low_transaction_check_all_conflicts over the snapshot `snap`
   * of the install table. For each package the installed-package checks run,
   * then the first conflict provided by a scheduled package moves that package
   * to unresolved; if either check fired, the package itself moves too and the
   * pass stops with UNRESOLVABLE.
   */
  function ConflictPass(env: Env, snap: seq<Member>, install: Table, unresolved: Table): (r: Pass)
    requires Valid(install) && Valid(unresolved)
    ensures Valid(r.install) && Valid(r.unresolved)
    ensures r.status != PackagesAdded
    ensures r.status == NoChange <==> forall m :: m in snap ==> Clean(env, install, m.pkg)
    ensures r.status == NoChange ==> r.install == install && r.unresolved == unresolved
    ensures r.install.members.Keys <= install.members.Keys
    ensures unresolved.members.Keys <= r.unresolved.members.Keys
    decreases |snap|
  {
    if |snap| == 0 then Pass(NoChange, install, unresolved)
    else
      var p := snap[0].pkg;
      var installed := CheckInstalledConflicts(env, p);
      var scheduled := InstallConflict(install, p.conflictDeps);
      if installed || scheduled.Some? then
        assert !Clean(env, install, p);
        var moved := match scheduled
          case Some(q) => Unresolve(install, unresolved, q)
          case None => Pass(Unresolvable, install, unresolved);
        Unresolve(moved.install, moved.unresolved, p)
      else
        assert Clean(env, install, p);
        assert forall m :: m in snap <==> m == snap[0] || m in snap[1..];
        ConflictPass(env, snap[1..], install, unresolved)
  }

  /** The index of the first package of `snap` that is not clean. */
  ghost function FirstUnclean(env: Env, install: Table, snap: seq<Member>): (i: nat)
    requires exists m :: m in snap && !Clean(env, install, m.pkg)
    ensures i < |snap| && !Clean(env, install, snap[i].pkg)
    ensures forall j :: 0 <= j < i ==> Clean(env, install, snap[j].pkg)
    decreases |snap|
  {
    if !Clean(env, install, snap[0].pkg) then 0
    else
      assert forall m :: m in snap ==> m == snap[0] || m in snap[1..];
      var i := FirstUnclean(env, install, snap[1..]);
      assert forall j :: 1 <= j < i + 1 ==> snap[j] == snap[1..][j - 1];
      i + 1
  }

  /**
   * When every package before the `i`-th is clean and the `i`-th is not, the
   * conflict pass fails and that package ends up unresolved.
   */
  lemma {:induction false} ConflictPassMovesFirst(env: Env, snap: seq<Member>, install: Table, unresolved: Table, i: nat)
    requires Valid(install) && Valid(unresolved)
    requires i < |snap| && !Clean(env, install, snap[i].pkg)
    requires forall j :: 0 <= j < i ==> Clean(env, install, snap[j].pkg)
    ensures var r := ConflictPass(env, snap, install, unresolved);
            r.status == Unresolvable && Key(snap[i].pkg) in r.unresolved.members && Key(snap[i].pkg) !in r.install.members
    decreases i
  {
    var p := snap[0].pkg;
    if i > 0 {
      assert Clean(env, install, p);
      assert forall j :: 0 <= j < i - 1 ==> snap[1..][j] == snap[j + 1];
      ConflictPassMovesFirst(env, snap[1..], install, unresolved, i - 1);
    } else {
      assert CheckInstalledConflicts(env, p) || InstallConflict(install, p.conflictDeps).Some?;
    }
  }

  /** Some package of `snap` has a requirement nothing meets. */
  ghost predicate SomeUnsatisfiable(env: Env, snap: seq<Member>) {
    exists m :: m in snap && HasUnsatisfiable(env, m.pkg)
  }

  /**
   * The first loop of low_transaction_check_all_requires, over the snapshot
   * `snap` of the install table: each package's requirements are checked
   * against the table as it grows; the first package with an unmet
   * requirement moves to unresolved and the pass stops with UNRESOLVABLE.
   */
  function InstallPass(env: Env, snap: seq<Member>, install: Table, unresolved: Table, status: Status): (r: Pass)
    requires Valid(install) && Valid(unresolved) && status != Unresolvable
    ensures Valid(r.install) && Valid(r.unresolved)
    ensures r.status == Unresolvable <==> SomeUnsatisfiable(env, snap)
    ensures r.status != Unresolvable ==> r.unresolved == unresolved && Extends(install, r.install)
    ensures r.status == NoChange ==> status == NoChange && r.install == install
    ensures r.install.members.Keys <= install.members.Keys + AvailKeys(env)
    ensures unresolved.members.Keys <= r.unresolved.members.Keys
    decreases |snap|
  {
    if |snap| == 0 then Pass(status, install, unresolved)
    else
      var p := snap[0].pkg;
      var c := CheckPackageRequires(env, install, p);
      assert forall m :: m in snap <==> m == snap[0] || m in snap[1..];
      if c.status == Unresolvable then
        Unresolve(c.table, unresolved, p)
      else
        var r := InstallPass(env, snap[1..], c.table, unresolved, if c.status == PackagesAdded then PackagesAdded else status);
        assert r.status != Unresolvable ==> Extends(install, r.install) by {
          if r.status != Unresolvable { ExtendsTransitive(install, c.table, r.install); }
        }
        r
  }

  /** The requirement pass schedules only available packages, and reports PACKAGES_ADDED exactly when it scheduled one. */
  lemma {:induction false} InstallPassAdds(env: Env, snap: seq<Member>, install: Table, unresolved: Table, status: Status)
    requires Valid(install) && Valid(unresolved) && status != Unresolvable
    ensures var r := InstallPass(env, snap, install, unresolved, status);
            r.status != Unresolvable ==>
              && r.install.members.Keys - install.members.Keys <= AvailKeys(env)
              && (r.status == PackagesAdded <==> status == PackagesAdded || r.install.members.Keys != install.members.Keys)
    decreases |snap|
  {
    if |snap| > 0 {
      var p := snap[0].pkg;
      var c := CheckPackageRequires(env, install, p);
      if c.status != Unresolvable {
        var next := if c.status == PackagesAdded then PackagesAdded else status;
        InstallPassAdds(env, snap[1..], c.table, unresolved, next);
        var r := InstallPass(env, snap[1..], c.table, unresolved, next);
        if r.status != Unresolvable {
          GapWithin(install.members.Keys, c.table.members.Keys, r.install.members.Keys, AvailKeys(env));
          GrowthReported(install.members.Keys, c.table.members.Keys, r.install.members.Keys,
                         c.status == PackagesAdded, r.install.members.Keys != c.table.members.Keys);
        }
      }
    }
  }

  /** The index of the first package of `snap` with a requirement nothing meets. */
  ghost function FirstUnsatisfiable(env: Env, snap: seq<Member>): (i: nat)
    requires SomeUnsatisfiable(env, snap)
    ensures i < |snap| && HasUnsatisfiable(env, snap[i].pkg)
    ensures forall j :: 0 <= j < i ==> !HasUnsatisfiable(env, snap[j].pkg)
    decreases |snap|
  {
    if HasUnsatisfiable(env, snap[0].pkg) then 0
    else
      assert forall m :: m in snap ==> m == snap[0] || m in snap[1..];
      var i := FirstUnsatisfiable(env, snap[1..]);
      assert forall j :: 1 <= j < i + 1 ==> snap[j] == snap[1..][j - 1];
      i + 1
  }

  /**
   * When no package before the `i`-th has an unmet requirement and the
   * `i`-th has one, the requirement pass fails and that package ends up
   * unresolved.
   */
  lemma {:induction false} InstallPassMovesFirst(env: Env, snap: seq<Member>, install: Table, unresolved: Table, status: Status, i: nat)
    requires Valid(install) && Valid(unresolved) && status != Unresolvable
    requires i < |snap| && HasUnsatisfiable(env, snap[i].pkg)
    requires forall j :: 0 <= j < i ==> !HasUnsatisfiable(env, snap[j].pkg)
    ensures var r := InstallPass(env, snap, install, unresolved, status);
            r.status == Unresolvable && Key(snap[i].pkg) in r.unresolved.members && Key(snap[i].pkg) !in r.install.members
    decreases i
  {
    if i == 0 {
      InstallPassStops(env, snap, install, unresolved, status);
    } else {
      var c := CheckPackageRequires(env, install, snap[0].pkg);
      var next := if c.status == PackagesAdded then PackagesAdded else status;
      var rest := snap[1..];
      var k := Key(snap[i].pkg);
      var r := InstallPass(env, rest, c.table, unresolved, next);
      assert r.status == Unresolvable && k in r.unresolved.members && k !in r.install.members by {
        forall j | 0 <= j < i - 1
          ensures !HasUnsatisfiable(env, rest[j].pkg)
        {
          assert rest[j] == snap[j + 1];
        }
        assert rest[i - 1] == snap[i];
        InstallPassMovesFirst(env, rest, c.table, unresolved, next, i - 1);
      }
      assert InstallPass(env, snap, install, unresolved, status) == r by {
        assert !HasUnsatisfiable(env, snap[0].pkg);
        InstallPassSkips(env, snap, install, unresolved, status);
      }
    }
  }

  /** A pass whose first package has an unsatisfiable requirement stops there and marks it unresolved. */
  lemma InstallPassStops(env: Env, snap: seq<Member>, install: Table, unresolved: Table, status: Status)
    requires Valid(install) && Valid(unresolved) && status != Unresolvable
    requires |snap| > 0 && HasUnsatisfiable(env, snap[0].pkg)
    ensures var r := InstallPass(env, snap, install, unresolved, status);
            r.status == Unresolvable && Key(snap[0].pkg) in r.unresolved.members && Key(snap[0].pkg) !in r.install.members
  {
  }

  /** A pass whose first package's requirements can all be met goes on with the rest. */
  lemma InstallPassSkips(env: Env, snap: seq<Member>, install: Table, unresolved: Table, status: Status)
    requires Valid(install) && Valid(unresolved) && status != Unresolvable
    requires |snap| > 0 && !HasUnsatisfiable(env, snap[0].pkg)
    ensures var c := CheckPackageRequires(env, install, snap[0].pkg);
            InstallPass(env, snap, install, unresolved, status)
              == InstallPass(env, snap[1..], c.table, unresolved, if c.status == PackagesAdded then PackagesAdded else status)
  {
  }

  /** A requirement pass that changes nothing found every requirement of every package covered. */
  lemma {:induction false} InstallPassCovers(env: Env, snap: seq<Member>, install: Table, unresolved: Table, status: Status)
    requires Valid(install) && Valid(unresolved) && status != Unresolvable
    ensures InstallPass(env, snap, install, unresolved, status).status == NoChange ==>
              forall m :: m in snap ==> RequirementsCovered(env, install, m.pkg)
    decreases |snap|
  {
    if |snap| > 0 {
      var p := snap[0].pkg;
      var c := CheckPackageRequires(env, install, p);
      if c.status == NoChange {
        InstallPassCovers(env, snap[1..], c.table, unresolved, status);
        assert forall m :: m in snap <==> m == snap[0] || m in snap[1..];
      }
    }
  }

  /** Every resolved member's dependents are themselves scheduled for removal. */
  ghost predicate RemovalClosed(env: Env, remove: Table) {
    forall k :: k in remove.members && remove.members[k].resolved ==> Dependents(env, remove.members[k].pkg) <= remove.members.Keys
  }

  ghost predicate AllResolved(t: Table) {
    forall k :: k in t.members ==> t.members[k].resolved
  }

  /**
   * One step of the removal pass: expand the removal of the member under `k`
   * (low_transaction_check_removal), then mark it resolved.
   */
  function Expand(env: Env, remove: Table, k: string): (c: Checked)
    requires Valid(remove) && k in remove.members
    ensures Valid(c.table) && Grows(remove, c.table)
    ensures c.table.members[k].resolved
    ensures c.status != Unresolvable
  {
    var c := CheckRemoval(env, remove, remove.members[k].pkg);
    var marked := MarkResolved(c.table, k);
    ExtendsGrows(remove, c.table);
    GrowsTransitive(remove, c.table, marked);
    Checked(c.status, marked)
  }

  /**
   * An expansion schedules exactly the member's installed dependents, and
   * reports PACKAGES_ADDED exactly when one of them was new.
   */
  lemma ExpandAdds(env: Env, remove: Table, k: string)
    requires Valid(remove) && k in remove.members
    ensures var c := Expand(env, remove, k);
            && c.table.members.Keys == remove.members.Keys + Dependents(env, remove.members[k].pkg)
            && c.table.members.Keys - remove.members.Keys <= RpmdbKeys(env)
            && (c.status == PackagesAdded <==> c.table.members.Keys != remove.members.Keys)
  {
    var c := CheckRemoval(env, remove, remove.members[k].pkg);
    assert Expand(env, remove, k) == Checked(c.status, MarkResolved(c.table, k));
  }

  /**
   * The second loop of low_transaction_check_all_requires, over the snapshot
   * `keys` of the remove table: each member not yet resolved has its removal
   * expanded and is then marked resolved; resolved members are skipped.
   */
  function RemovePass(env: Env, keys: seq<string>, remove: Table, status: Status): (r: Checked)
    requires Valid(remove) && status != Unresolvable
    requires forall k :: k in keys ==> k in remove.members
    ensures Valid(r.table) && Grows(remove, r.table)
    ensures r.status != Unresolvable
    ensures forall k :: k in keys ==> r.table.members[k].resolved
    decreases |keys|
  {
    if |keys| == 0 then Checked(status, remove)
    else
      assert forall k :: k in keys <==> k == keys[0] || k in keys[1..];
      if remove.members[keys[0]].resolved then RemovePass(env, keys[1..], remove, status)
      else
        var c := Expand(env, remove, keys[0]);
        var r := RemovePass(env, keys[1..], c.table, if c.status == PackagesAdded then PackagesAdded else status);
        GrowsTransitive(remove, c.table, r.table);
        assert r.table.members[keys[0]].resolved;
        r
  }

  /** The removal pass schedules only installed packages, and reports PACKAGES_ADDED exactly when it scheduled one. */
  lemma {:induction false} RemovePassAdds(env: Env, keys: seq<string>, remove: Table, status: Status)
    requires Valid(remove) && status != Unresolvable
    requires forall k :: k in keys ==> k in remove.members
    ensures var r := RemovePass(env, keys, remove, status);
            && r.table.members.Keys - remove.members.Keys <= RpmdbKeys(env)
            && (r.status == PackagesAdded <==> status == PackagesAdded || r.table.members.Keys != remove.members.Keys)
    decreases |keys|
  {
    if |keys| > 0 {
      assert forall k :: k in keys <==> k == keys[0] || k in keys[1..];
      if remove.members[keys[0]].resolved {
        RemovePassAdds(env, keys[1..], remove, status);
      } else {
        var c := Expand(env, remove, keys[0]);
        ExpandAdds(env, remove, keys[0]);
        var next := if c.status == PackagesAdded then PackagesAdded else status;
        RemovePassAdds(env, keys[1..], c.table, next);
        var r := RemovePass(env, keys[1..], c.table, next);
        GapWithin(remove.members.Keys, c.table.members.Keys, r.table.members.Keys, RpmdbKeys(env));
        GrowthReported(remove.members.Keys, c.table.members.Keys, r.table.members.Keys,
                       c.status == PackagesAdded, r.table.members.Keys != c.table.members.Keys);
      }
    }
  }

  /** Each member is expanded at most once: a pass over members already resolved changes nothing. */
  lemma {:induction false} RemovePassSkipsResolved(env: Env, keys: seq<string>, remove: Table, status: Status)
    requires Valid(remove) && status != Unresolvable
    requires forall k :: k in keys ==> k in remove.members && remove.members[k].resolved
    ensures RemovePass(env, keys, remove, status) == Checked(status, remove)
    decreases |keys|
  {
    if |keys| > 0 {
      assert forall k :: k in keys <==> k == keys[0] || k in keys[1..];
      RemovePassSkipsResolved(env, keys[1..], remove, status);
    }
  }

  /** The removal pass keeps every resolved member's dependents scheduled. */
  lemma {:induction false} RemovePassClosed(env: Env, keys: seq<string>, remove: Table, status: Status)
    requires Valid(remove) && status != Unresolvable
    requires forall k :: k in keys ==> k in remove.members
    requires RemovalClosed(env, remove)
    ensures RemovalClosed(env, RemovePass(env, keys, remove, status).table)
    decreases |keys|
  {
    if |keys| > 0 {
      assert forall k :: k in keys <==> k == keys[0] || k in keys[1..];
      if remove.members[keys[0]].resolved {
        RemovePassClosed(env, keys[1..], remove, status);
      } else {
        var c := Expand(env, remove, keys[0]);
        ExpansionClosed(env, remove, keys[0]);
        RemovePassClosed(env, keys[1..], c.table, if c.status == PackagesAdded then PackagesAdded else status);
      }
    }
  }

  /** Expanding one member's removal and marking it resolved keeps the table closed. */
  lemma ExpansionClosed(env: Env, remove: Table, k: string)
    requires Valid(remove) && k in remove.members && RemovalClosed(env, remove)
    ensures RemovalClosed(env, Expand(env, remove, k).table)
  {
    var p := remove.members[k].pkg;
    var c := CheckRemoval(env, remove, p);
    var marked := Expand(env, remove, k).table;
    assert marked == MarkResolved(c.table, k);
    forall j | j in marked.members && marked.members[j].resolved
      ensures Dependents(env, marked.members[j].pkg) <= marked.members.Keys
    {
      if j != k {
        assert j in remove.members;
        assert marked.members[j] == remove.members[j];
      }
    }
  }

  /** The outcome of one round: a status and the transaction after it. */
  datatype Round = Round(status: Status, trans: Trans)

  /** Every member of a valid table appears in its snapshot. */
  lemma SnapshotCovers(t: Table)
    requires Valid(t)
    ensures forall k :: k in t.members ==> t.members[k] in Values(t)
  {
    var vs := Values(t);
    forall k | k in t.members
      ensures t.members[k] in vs
    {
      var i :| 0 <= i < |t.order| && t.order[i] == k;
      assert vs[i] == t.members[k];
    }
  }

  /** Every entry of a snapshot is a member of the table. */
  lemma SnapshotWithin(t: Table)
    requires Valid(t)
    ensures forall m :: m in Values(t) ==> exists k :: k in t.members && t.members[k] == m
  {
    var vs := Values(t);
    forall m | m in vs
      ensures exists k :: k in t.members && t.members[k] == m
    {
      var i :| 0 <= i < |vs| && vs[i] == m;
      assert t.order[i] in t.members;
    }
  }

  /** low_transaction_check_all_conflicts */
  function CheckAllConflicts(env: Env, tr: Trans): (s: Round)
    requires ValidTrans(tr)
    ensures ValidTrans(s.trans)
    ensures s.status != PackagesAdded
    ensures s.trans.update == tr.update && s.trans.remove == tr.remove
    ensures s.status == NoChange <==> forall k :: k in tr.install.members ==> Clean(env, tr.install, tr.install.members[k].pkg)
    ensures s.status == NoChange ==> s.trans == tr
    ensures s.trans.install.members.Keys <= tr.install.members.Keys
    ensures tr.unresolved.members.Keys <= s.trans.unresolved.members.Keys
  {
    var pass := ConflictPass(env, Values(tr.install), tr.install, tr.unresolved);
    SnapshotCovers(tr.install);
    SnapshotWithin(tr.install);
    Round(pass.status, tr.(install := pass.install, unresolved := pass.unresolved))
  }

  /** A conflict round that fails moves a package of the install table that is not clean to unresolved. */
  lemma ConflictRoundMoves(env: Env, tr: Trans)
    requires ValidTrans(tr)
    ensures var s := CheckAllConflicts(env, tr);
            s.status == Unresolvable ==>
              exists k :: k in tr.install.members && !Clean(env, tr.install, tr.install.members[k].pkg)
                          && Key(tr.install.members[k].pkg) in s.trans.unresolved.members
                          && Key(tr.install.members[k].pkg) !in s.trans.install.members
  {
    var snap := Values(tr.install);
    var s := CheckAllConflicts(env, tr);
    if s.status == Unresolvable {
      SnapshotCovers(tr.install);
      var k0 :| k0 in tr.install.members && !Clean(env, tr.install, tr.install.members[k0].pkg);
      assert tr.install.members[k0] in snap;
      var i := FirstUnclean(env, tr.install, snap);
      ConflictPassMovesFirst(env, snap, tr.install, tr.unresolved, i);
      assert tr.install.order[i] in tr.install.members;
    }
  }

  /** low_transaction_check_all_requires: the requirement pass, then, unless it failed, the removal pass. */
  function CheckAllRequires(env: Env, tr: Trans): (s: Round)
    requires ValidTrans(tr)
    ensures ValidTrans(s.trans)
    ensures s.trans.update == tr.update
    ensures s.status == Unresolvable <==> exists k :: k in tr.install.members && HasUnsatisfiable(env, tr.install.members[k].pkg)
    ensures s.status == Unresolvable ==> s.trans.remove == tr.remove
    ensures s.status != Unresolvable ==>
              s.trans.unresolved == tr.unresolved && Extends(tr.install, s.trans.install) && Grows(tr.remove, s.trans.remove)
    ensures s.trans.install.members.Keys <= tr.install.members.Keys + AvailKeys(env)
    ensures tr.unresolved.members.Keys <= s.trans.unresolved.members.Keys
  {
    var ip := InstallPass(env, Values(tr.install), tr.install, tr.unresolved, NoChange);
    SnapshotCovers(tr.install);
    SnapshotWithin(tr.install);
    if ip.status == Unresolvable then
      Round(Unresolvable, tr.(install := ip.install, unresolved := ip.unresolved))
    else
      var rp := RemovePass(env, tr.remove.order, tr.remove, ip.status);
      Round(rp.status, tr.(install := ip.install, remove := rp.table))
  }

  /** A requirement round that fails moves a package with an unmet requirement to unresolved. */
  lemma RequiresRoundMoves(env: Env, tr: Trans)
    requires ValidTrans(tr)
    ensures var s := CheckAllRequires(env, tr);
            s.status == Unresolvable ==>
              exists k :: k in tr.install.members && HasUnsatisfiable(env, tr.install.members[k].pkg)
                          && Key(tr.install.members[k].pkg) in s.trans.unresolved.members
                          && Key(tr.install.members[k].pkg) !in s.trans.install.members
  {
    var snap := Values(tr.install);
    var s := CheckAllRequires(env, tr);
    if s.status == Unresolvable {
      var i := FirstUnsatisfiable(env, snap);
      InstallPassMovesFirst(env, snap, tr.install, tr.unresolved, NoChange, i);
      assert tr.install.order[i] in tr.install.members;
    }
  }

  /**
   * A requirement round schedules only available packages for install and
   * installed packages for removal, and reports PACKAGES_ADDED exactly when
   * it scheduled one.
   */
  lemma RequiresRoundAdds(env: Env, tr: Trans)
    requires ValidTrans(tr)
    ensures var s := CheckAllRequires(env, tr);
            s.status != Unresolvable ==>
              && s.trans.install.members.Keys - tr.install.members.Keys <= AvailKeys(env)
              && s.trans.remove.members.Keys - tr.remove.members.Keys <= RpmdbKeys(env)
              && (s.status == PackagesAdded <==>
                    s.trans.install.members.Keys != tr.install.members.Keys
                    || s.trans.remove.members.Keys != tr.remove.members.Keys)
  {
    var snap := Values(tr.install);
    InstallPassAdds(env, snap, tr.install, tr.unresolved, NoChange);
    var ip := InstallPass(env, snap, tr.install, tr.unresolved, NoChange);
    if ip.status != Unresolvable {
      RemovePassAdds(env, tr.remove.order, tr.remove, ip.status);
    }
  }

  /**
   * A requirement round that changes nothing leaves the install table and
   * the remove table's keys as they were, has every removal expanded, and
   * found every requirement of every package to install covered.
   */
  lemma RequiresRoundQuiet(env: Env, tr: Trans)
    requires ValidTrans(tr)
    ensures var s := CheckAllRequires(env, tr);
            s.status == NoChange ==>
              && s.trans.install == tr.install
              && s.trans.remove.members.Keys == tr.remove.members.Keys
              && AllResolved(s.trans.remove)
              && forall k :: k in tr.install.members ==> RequirementsCovered(env, tr.install, tr.install.members[k].pkg)
  {
    var snap := Values(tr.install);
    var ip := InstallPass(env, snap, tr.install, tr.unresolved, NoChange);
    var s := CheckAllRequires(env, tr);
    if s.status == NoChange {
      var rp := RemovePass(env, tr.remove.order, tr.remove, ip.status);
      RemovePassAdds(env, tr.remove.order, tr.remove, ip.status);
      assert s == Round(rp.status, tr.(install := ip.install, remove := rp.table));
      assert ip.status == NoChange;
      InstallPassCovers(env, snap, tr.install, tr.unresolved, NoChange);
      SnapshotCovers(tr.install);
      forall k | k in rp.table.members
        ensures rp.table.members[k].resolved
      {
        assert k in tr.remove.order;
      }
    }
  }

  /** A requirement round over a remove table already expanded leaves it exactly as it was. */
  lemma RequiresRoundSkipsResolved(env: Env, tr: Trans)
    requires ValidTrans(tr) && AllResolved(tr.remove)
    ensures var s := CheckAllRequires(env, tr);
            s.status != Unresolvable ==> s.trans.remove == tr.remove
  {
    var ip := InstallPass(env, Values(tr.install), tr.install, tr.unresolved, NoChange);
    if ip.status != Unresolvable {
      RemovePassSkipsResolved(env, tr.remove.order, tr.remove, ip.status);
    }
  }

  /** The order of the statuses when low_transaction_resolve combines two of them. */
  function Rank(s: Status): nat {
    match s
    case NoChange => 0
    case PackagesAdded => 1
    case Unresolvable => 2
  }

  /** How low_transaction_resolve combines the conflict and requirement statuses: the higher-ranked wins. */
  function Combine(conflicts: Status, requirements: Status): (s: Status)
    ensures Rank(s) == if Rank(conflicts) >= Rank(requirements) then Rank(conflicts) else Rank(requirements)
    ensures s == conflicts || s == requirements
  {
    if conflicts == Unresolvable || requirements == Unresolvable then Unresolvable
    else if conflicts == PackagesAdded || requirements == PackagesAdded then PackagesAdded
    else NoChange
  }

  /** One iteration of the loop of low_transaction_resolve: the conflict pass, then the requirement pass. */
  function ResolveStep(env: Env, tr: Trans): (s: Round)
    requires ValidTrans(tr)
    ensures ValidTrans(s.trans)
    ensures s.trans.update == tr.update
    ensures Grows(tr.remove, s.trans.remove)
    ensures s.trans.install.members.Keys <= tr.install.members.Keys + AvailKeys(env)
    ensures tr.unresolved.members.Keys <= s.trans.unresolved.members.Keys
  {
    var c := CheckAllConflicts(env, tr);
    var q := CheckAllRequires(env, c.trans);
    Round(Combine(c.status, q.status), q.trans)
  }

  /** A conflict round that adds nothing and passes leaves the transaction as it was. */
  lemma QuietConflicts(env: Env, tr: Trans)
    requires ValidTrans(tr) && ResolveStep(env, tr).status != Unresolvable
    ensures CheckAllConflicts(env, tr) == Round(NoChange, tr)
    ensures ResolveStep(env, tr) == CheckAllRequires(env, tr)
  {
  }

  /** A round that adds packages only adds: it keeps every scheduled package and schedules at least one more. */
  lemma StepAdds(env: Env, tr: Trans)
    requires ValidTrans(tr) && ResolveStep(env, tr).status == PackagesAdded
    ensures var s := ResolveStep(env, tr);
            && Extends(tr.install, s.trans.install)
            && s.trans.install.members.Keys - tr.install.members.Keys <= AvailKeys(env)
            && s.trans.remove.members.Keys - tr.remove.members.Keys <= RpmdbKeys(env)
            && (s.trans.install.members.Keys != tr.install.members.Keys
                || s.trans.remove.members.Keys != tr.remove.members.Keys)
  {
    QuietConflicts(env, tr);
    RequiresRoundAdds(env, tr);
  }

  /** A round that fails leaves some package unresolved. */
  lemma StepUnresolvable(env: Env, tr: Trans)
    requires ValidTrans(tr) && ResolveStep(env, tr).status == Unresolvable
    ensures exists k :: k in ResolveStep(env, tr).trans.unresolved.members
  {
    var c := CheckAllConflicts(env, tr);
    ConflictRoundMoves(env, tr);
    RequiresRoundMoves(env, c.trans);
  }

  /**
   * A round that changes nothing found every package to install clean and
   * its requirements covered, and every removal expanded.
   */
  lemma StepQuiet(env: Env, tr: Trans)
    requires ValidTrans(tr) && ResolveStep(env, tr).status == NoChange
    ensures var s := ResolveStep(env, tr);
            && s.trans.install == tr.install
            && s.trans.unresolved == tr.unresolved
            && s.trans.remove.members.Keys == tr.remove.members.Keys
            && AllResolved(s.trans.remove)
            && forall k :: k in tr.install.members ==>
                 Clean(env, tr.install, tr.install.members[k].pkg)
                 && RequirementsCovered(env, tr.install, tr.install.members[k].pkg)
  {
    QuietConflicts(env, tr);
    RequiresRoundQuiet(env, tr);
  }

  /** How far the transaction is from scheduling every available and every installed package. */
  ghost function Measure(env: Env, tr: Trans): nat {
    |AvailKeys(env) - tr.install.members.Keys| + |RpmdbKeys(env) - tr.remove.members.Keys|
  }

  lemma ShrinkingGap(universe: set<string>, before: set<string>, after: set<string>)
    requires before <= after && after - before <= universe
    ensures |universe - after| <= |universe - before|
    ensures after != before ==> |universe - after| < |universe - before|
  {
    SubsetSmaller(universe - after, universe - before);
    if after != before {
      var k :| k in after && k !in before;
      assert k in universe - before && k !in universe - after;
    }
  }

  /** A subset is no larger, and a proper subset is strictly smaller. */
  lemma {:induction false} SubsetSmaller(a: set<string>, b: set<string>)
    requires a <= b
    ensures |a| <= |b|
    ensures a != b ==> |a| < |b|
    decreases |b|
  {
    if a != b {
      var x :| x in b && x !in a;
      SubsetSmaller(a, b - {x});
    }
  }

  /** A round that adds packages brings the transaction strictly closer to its bound. */
  lemma AddedRoundProgresses(env: Env, tr: Trans)
    requires ValidTrans(tr) && ResolveStep(env, tr).status == PackagesAdded
    ensures Measure(env, ResolveStep(env, tr).trans) < Measure(env, tr)
  {
    var s := ResolveStep(env, tr);
    StepAdds(env, tr);
    ShrinkingGap(AvailKeys(env), tr.install.members.Keys, s.trans.install.members.Keys);
    ShrinkingGap(RpmdbKeys(env), tr.remove.members.Keys, s.trans.remove.members.Keys);
  }

  /** LowTransactionResult; low_transaction_resolve never returns LOW_TRANSACTION_ERROR. */
  datatype Outcome = Ok | Unresolved

  datatype Resolution = Resolution(result: Outcome, trans: Trans)

  /**
   * low_transaction_resolve: rounds repeat while a round adds packages; the
   * last round's status decides the result.
   */
  function Resolve(env: Env, tr: Trans): (r: Resolution)
    requires ValidTrans(tr)
    ensures ValidTrans(r.trans)
    ensures r.trans.update == tr.update
    ensures r.result == Ok ==> ResolveStep(env, r.trans) == Round(NoChange, r.trans)
    ensures r.result == Ok ==> forall k :: k in r.trans.install.members ==>
              Clean(env, r.trans.install, r.trans.install.members[k].pkg)
              && RequirementsCovered(env, r.trans.install, r.trans.install.members[k].pkg)
    ensures r.result == Ok ==> AllResolved(r.trans.remove)
    ensures r.result == Unresolved ==> exists k :: k in r.trans.unresolved.members
    ensures tr.unresolved.members.Keys <= r.trans.unresolved.members.Keys
    ensures r.trans.install.members.Keys <= tr.install.members.Keys + AvailKeys(env)
    ensures Grows(tr.remove, r.trans.remove)
    decreases Measure(env, tr)
  {
    var s := ResolveStep(env, tr);
    if s.status == PackagesAdded then
      AddedRoundProgresses(env, tr);
      var r := Resolve(env, s.trans);
      GrowsTransitive(tr.remove, s.trans.remove, r.trans.remove);
      r
    else if s.status == NoChange then
      StepQuiet(env, tr);
      QuietRoundIsFixpoint(env, tr);
      Resolution(Ok, s.trans)
    else
      StepUnresolvable(env, tr);
      Resolution(Unresolved, s.trans)
  }

  /** Resolution schedules only available packages for install and installed packages for removal. */
  lemma {:induction false} ResolveStaysWithin(env: Env, tr: Trans)
    requires ValidTrans(tr)
    ensures Resolve(env, tr).trans.remove.members.Keys <= tr.remove.members.Keys + RpmdbKeys(env)
    decreases Measure(env, tr)
  {
    var s := ResolveStep(env, tr);
    if s.status == PackagesAdded {
      StepAdds(env, tr);
      AddedRoundProgresses(env, tr);
      ResolveStaysWithin(env, s.trans);
    } else if s.status == NoChange {
      StepQuiet(env, tr);
    } else {
      var c := CheckAllConflicts(env, tr);
      var q := CheckAllRequires(env, c.trans);
      if q.status != Unresolvable { RequiresRoundAdds(env, c.trans); }
    }
  }

  /** After a round that changes nothing, another round changes nothing either. */
  lemma QuietRoundIsFixpoint(env: Env, tr: Trans)
    requires ValidTrans(tr) && ResolveStep(env, tr).status == NoChange
    ensures ResolveStep(env, ResolveStep(env, tr).trans) == Round(NoChange, ResolveStep(env, tr).trans)
  {
    var t1 := ResolveStep(env, tr).trans;
    StepQuiet(env, tr);
    QuietConflicts(env, tr);
    var ip := InstallPass(env, Values(tr.install), tr.install, tr.unresolved, NoChange);
    RemovePassAdds(env, tr.remove.order, tr.remove, ip.status);
    assert ip.status == NoChange && ip.install == tr.install;
    var c1 := CheckAllConflicts(env, t1);
    assert c1 == Round(NoChange, t1);
    RemovePassSkipsResolved(env, t1.remove.order, t1.remove, NoChange);
    var q1 := CheckAllRequires(env, t1);
    assert q1 == Round(NoChange, t1);
  }

  /** A round keeps the remove table closed under dependents. */
  lemma StepKeepsClosed(env: Env, tr: Trans)
    requires ValidTrans(tr) && RemovalClosed(env, tr.remove)
    ensures RemovalClosed(env, ResolveStep(env, tr).trans.remove)
  {
    var c := CheckAllConflicts(env, tr);
    var t := c.trans;
    var ip := InstallPass(env, Values(t.install), t.install, t.unresolved, NoChange);
    if ip.status != Unresolvable {
      RemovePassClosed(env, t.remove.order, t.remove, ip.status);
    }
  }

  /** Resolution keeps the remove table closed under dependents. */
  lemma {:induction false} ResolveKeepsClosed(env: Env, tr: Trans)
    requires ValidTrans(tr) && RemovalClosed(env, tr.remove)
    ensures RemovalClosed(env, Resolve(env, tr).trans.remove)
    decreases Measure(env, tr)
  {
    var s := ResolveStep(env, tr);
    StepKeepsClosed(env, tr);
    if s.status == PackagesAdded {
      AddedRoundProgresses(env, tr);
      ResolveKeepsClosed(env, s.trans);
    }
  }

  /**
   * A transaction whose removals were only just scheduled (none expanded
   * yet) and that resolves OK has every installed dependent of every removed
   * package scheduled for removal too.
   */
  lemma ResolvedRemovalIsClosed(env: Env, tr: Trans)
    requires ValidTrans(tr)
    requires forall k :: k in tr.remove.members ==> !tr.remove.members[k].resolved
    requires Resolve(env, tr).result == Ok
    ensures forall k :: k in Resolve(env, tr).trans.remove.members ==>
              Dependents(env, Resolve(env, tr).trans.remove.members[k].pkg) <= Resolve(env, tr).trans.remove.members.Keys
  {
    ResolveKeepsClosed(env, tr);
  }
}

=== FILE: transaction_rules.dfy ===
/**
 * The per-package rules of src/low-transaction.c: how one requirement is
 * met, how one package's requirements are checked, which installed packages a
 * removal drags along, and which conflicts make a package unresolvable.
 *
 * The installed-package database and the available repositories are
 * sequences of packages; a search over them is the filter of
 * test/unit/low-fake-repo.c, and the first hit is the first match in sequence
 * order.
 */
module TransactionRules {
  import opened CText
  import opened Package
  import opened FakeRepo
  import opened TransactionTables

  /** LowTransactionStatus */
  datatype Status = NoChange | PackagesAdded | Unresolvable

  /** What a transaction consults: the installed packages, the available packages, and the satisfaction test. */
  datatype Env = Env(rpmdb: seq<Package>, repos: seq<Package>, sat: Satisfies)

  /** A repository search for packages providing `d`. */
  function Providers(ps: seq<Package>, d: Dependency, sat: Satisfies): seq<Package> {
    Filter(ps, (q: Package) => AnySatisfies(q.provideDeps, d, sat))
  }

  /** A repository search for packages requiring `d`. */
  function Requirers(ps: seq<Package>, d: Dependency, sat: Satisfies): seq<Package> {
    Filter(ps, (q: Package) => AnySatisfies(q.requireDeps, d, sat))
  }

  /** A repository search for packages conflicting with `d`. */
  function Conflicters(ps: seq<Package>, d: Dependency, sat: Satisfies): seq<Package> {
    Filter(ps, (q: Package) => AnySatisfies(q.conflictDeps, d, sat))
  }

  /** A repository search for packages owning the file `f`. */
  function FileOwners(ps: seq<Package>, f: string): seq<Package> {
    Filter(ps, (q: Package) => f in q.files)
  }

  /** low_transaction_dep_in_deplist: compares names only, ignoring sense and evr. */
  function DepInDeplist(needle: Dependency, haystack: seq<Dependency>): (r: bool)
    ensures r <==> exists i :: 0 <= i < |haystack| && haystack[i].name == needle.name
    decreases |haystack|
  {
    if |haystack| == 0 then false
    else if haystack[0].name == needle.name then true
    else
      var r := DepInDeplist(needle, haystack[1..]);
      assert forall i :: 1 <= i < |haystack| ==> haystack[i] == haystack[1..][i - 1];
      r
  }

  /** low_transaction_dep_in_filelist: exact string equality against each file. */
  function DepInFilelist(needle: string, haystack: seq<string>): (r: bool)
    ensures r <==> needle in haystack
    decreases |haystack|
  {
    if |haystack| == 0 then false
    else if haystack[0] == needle then true
    else
      var r := DepInFilelist(needle, haystack[1..]);
      assert haystack == [haystack[0]] + haystack[1..];
      r
  }

  /** A requirement whose name begins with '/' is a file path; only those are looked up in file lists. */
  predicate IsFilePath(name: string) {
    CharAt(name, 0) == '/'
  }

  /** The package meets `req` itself: one of its provides has that name, or it owns that file. */
  ghost predicate SelfProvided(p: Package, req: Dependency) {
    (exists i :: 0 <= i < |p.provideDeps| && p.provideDeps[i].name == req.name) || req.name in p.files
  }

  /** `q` meets `req`: a provide satisfies it, or `req` is a path `q` owns. */
  ghost predicate ProvidedBy(q: Package, req: Dependency, sat: Satisfies) {
    AnySatisfies(q.provideDeps, req, sat) || (IsFilePath(req.name) && req.name in q.files)
  }

  /** Some package of `ps` meets `req`. */
  ghost predicate ProvidedIn(ps: seq<Package>, req: Dependency, sat: Satisfies) {
    exists q :: q in ps && ProvidedBy(q, req, sat)
  }

  /** Nothing anywhere meets `req`: not the package, not an installed package, not an available one. */
  ghost predicate Unsatisfiable(env: Env, p: Package, req: Dependency) {
    !SelfProvided(p, req) && !ProvidedIn(env.rpmdb, req, env.sat) && !ProvidedIn(env.repos, req, env.sat)
  }

  ghost predicate HasUnsatisfiable(env: Env, p: Package) {
    exists i :: 0 <= i < |p.requireDeps| && Unsatisfiable(env, p, p.requireDeps[i])
  }

  /**
   * `req` needs nothing more: the package meets it, an installed package
   * does, or an available provider's key is already scheduled.
   */
  ghost predicate Covered(env: Env, install: Table, p: Package, req: Dependency) {
    || SelfProvided(p, req)
    || ProvidedIn(env.rpmdb, req, env.sat)
    || exists q :: q in env.repos && ProvidedBy(q, req, env.sat) && Key(q) in install.members
  }

  ghost predicate RequirementsCovered(env: Env, install: Table, p: Package) {
    forall i :: 0 <= i < |p.requireDeps| ==> Covered(env, install, p, p.requireDeps[i])
  }

  /** The keys of the available packages. */
  ghost function AvailKeys(env: Env): set<string> {
    KeysOf(env.repos)
  }

  /** The keys of the installed packages. */
  ghost function RpmdbKeys(env: Env): set<string> {
    KeysOf(env.rpmdb)
  }

  /** How one requirement came out: met (perhaps by scheduling a provider), or not met at all. */
  datatype Lookup = Met(added: bool, install: Table) | Unmet

  function Schedule(install: Table, q: Package): (r: Lookup)
    requires Valid(install)
    ensures r.Met? && Valid(r.install) && Extends(install, r.install)
    ensures Key(q) in r.install.members
    ensures r.added <==> Key(q) !in install.members
    ensures r.added ==> r.install.members == install.members[Key(q) := Member(q, false)]
    ensures !r.added ==> r.install == install
  {
    var a := AddToHash(install, q);
    Met(a.added, a.table)
  }

  /**
   * One iteration of the requirement loop in
   * low_transaction_check_package_requires: skip a self-provided requirement;
   * accept one an installed package meets (by provides, or by file for a path);
   * otherwise schedule the first available provider (by provides, or by file
   * for a path); otherwise the requirement is unmet.
   */
  function ResolveRequirement(env: Env, install: Table, p: Package, req: Dependency): (r: Lookup)
    requires Valid(install)
    ensures r.Unmet? <==> Unsatisfiable(env, p, req)
    ensures r.Met? ==> Valid(r.install) && Extends(install, r.install)
    ensures r.Met? && !r.added ==> r.install == install
    ensures r.Met? && r.added ==> exists q :: q in env.repos && ProvidedBy(q, req, env.sat)
                                            && Key(q) !in install.members
                                            && r.install.members == install.members[Key(q) := Member(q, false)]
    ensures r.Met? && (SelfProvided(p, req) || ProvidedIn(env.rpmdb, req, env.sat)) ==> !r.added
    ensures r.Met? && !r.added ==> SelfProvided(p, req) || ProvidedIn(env.rpmdb, req, env.sat)
                                   || exists q :: q in env.repos && ProvidedBy(q, req, env.sat) && Key(q) in install.members
  {
    var self := DepInDeplist(req, p.provideDeps) || DepInFilelist(req.name, p.files);
    var installed := Providers(env.rpmdb, req, env.sat);
    var installedFiles := FileOwners(env.rpmdb, req.name);
    var avail := Providers(env.repos, req, env.sat);
    var availFiles := FileOwners(env.repos, req.name);
    assert ProvidedIn(env.rpmdb, req, env.sat) <==> |installed| > 0 || (IsFilePath(req.name) && |installedFiles| > 0) by {
      if ProvidedIn(env.rpmdb, req, env.sat) {
        var q :| q in env.rpmdb && ProvidedBy(q, req, env.sat);
        assert q in installed || (IsFilePath(req.name) && q in installedFiles);
      }
      if |installed| > 0 { assert installed[0] in installed; }
      if |installedFiles| > 0 { assert installedFiles[0] in installedFiles; }
    }
    assert ProvidedIn(env.repos, req, env.sat) <==> |avail| > 0 || (IsFilePath(req.name) && |availFiles| > 0) by {
      if ProvidedIn(env.repos, req, env.sat) {
        var q :| q in env.repos && ProvidedBy(q, req, env.sat);
        assert q in avail || (IsFilePath(req.name) && q in availFiles);
      }
      if |avail| > 0 { assert avail[0] in avail; }
      if |availFiles| > 0 { assert availFiles[0] in availFiles; }
    }
    if self then Met(false, install)
    else if |installed| > 0 then Met(false, install)
    else if IsFilePath(req.name) && |installedFiles| > 0 then Met(false, install)
    else if |avail| > 0 then
      assert avail[0] in avail;
      Schedule(install, avail[0])
    else if IsFilePath(req.name) && |availFiles| > 0 then
      assert availFiles[0] in availFiles;
      Schedule(install, availFiles[0])
    else Unmet
  }

  /** A status and the table it was computed with. */
  datatype Checked = Checked(status: Status, table: Table)

  /**
   * The requirement loop of low_transaction_check_package_requires from
   * `reqs` on, with `status` what the earlier requirements produced. The
   * first unmet requirement returns UNRESOLVABLE at once; providers scheduled
   * before it stay scheduled.
   */
  function CheckRequiresFrom(env: Env, install: Table, p: Package, reqs: seq<Dependency>, status: Status): (r: Checked)
    requires Valid(install) && status != Unresolvable
    ensures Valid(r.table) && Extends(install, r.table)
    ensures r.table.members.Keys - install.members.Keys <= AvailKeys(env)
    ensures r.status == Unresolvable <==> exists i :: 0 <= i < |reqs| && Unsatisfiable(env, p, reqs[i])
    ensures r.status != Unresolvable ==>
              (r.status == PackagesAdded <==> status == PackagesAdded || r.table.members.Keys != install.members.Keys)
    ensures r.status == NoChange ==> r.table == install
    ensures r.status == NoChange ==> forall i :: 0 <= i < |reqs| ==> Covered(env, install, p, reqs[i])
    decreases |reqs|
  {
    if |reqs| == 0 then Checked(status, install)
    else
      assert forall i :: 1 <= i < |reqs| ==> reqs[i] == reqs[1..][i - 1];
      match ResolveRequirement(env, install, p, reqs[0])
      case Unmet => Checked(Unresolvable, install)
      case Met(added, t) =>
        assert t.members.Keys - install.members.Keys <= AvailKeys(env) by {
          KeysOfMembers(env.repos);
          if added {
            var q :| q in env.repos && ProvidedBy(q, reqs[0], env.sat) && Key(q) !in install.members
                     && t.members == install.members[Key(q) := Member(q, false)];
            assert t.members.Keys == install.members.Keys + {Key(q)};
          }
        }
        assert added <==> t.members.Keys != install.members.Keys by {
          if added {
            var q :| q in env.repos && Key(q) !in install.members && t.members == install.members[Key(q) := Member(q, false)];
            assert Key(q) in t.members;
          }
        }
        CheckRequiresFrom(env, t, p, reqs[1..], if added then PackagesAdded else status)
  }

  /** low_transaction_check_package_requires */
  function CheckPackageRequires(env: Env, install: Table, p: Package): (r: Checked)
    requires Valid(install)
    ensures Valid(r.table) && Extends(install, r.table)
    ensures r.table.members.Keys - install.members.Keys <= AvailKeys(env)
    ensures r.status == Unresolvable <==> HasUnsatisfiable(env, p)
    ensures r.status == PackagesAdded <==> !HasUnsatisfiable(env, p) && r.table.members.Keys != install.members.Keys
    ensures r.status == NoChange ==> r.table == install
    ensures r.status == NoChange ==> RequirementsCovered(env, install, p)
  {
    CheckRequiresFrom(env, install, p, p.requireDeps, NoChange)
  }

  /** The keys of the packages in `ps`. */
  ghost function KeysOf(ps: seq<Package>): set<string>
    decreases |ps|
  {
    if |ps| == 0 then {} else {Key(ps[0])} + KeysOf(ps[1..])
  }

  lemma {:induction false} KeysOfMembers(ps: seq<Package>)
    ensures forall x :: x in KeysOf(ps) <==> exists q :: q in ps && Key(q) == x
    decreases |ps|
  {
    if |ps| > 0 {
      KeysOfMembers(ps[1..]);
      assert forall q :: q in ps <==> q == ps[0] || q in ps[1..] by {
        assert ps == [ps[0]] + ps[1..];
      }
    }
  }

  lemma UnionChain(k0: set<string>, k1: set<string>, k2: set<string>, x: set<string>, y: set<string>)
    requires k1 == k0 + x && k2 == k1 + y
    ensures k2 == k0 + (x + y)
  {
  }

  /** Every package of `ps` added in turn; `added` when any of them was new. */
  function AddAll(t: Table, ps: seq<Package>): (r: Insertion)
    requires Valid(t)
    ensures Valid(r.table) && Extends(t, r.table)
    ensures r.table.members.Keys == t.members.Keys + KeysOf(ps)
    ensures r.added <==> r.table.members.Keys != t.members.Keys
    decreases |ps|
  {
    if |ps| == 0 then Insertion(false, t)
    else
      var a := AddToHash(t, ps[0]);
      var rest := AddAll(a.table, ps[1..]);
      UnionChain(t.members.Keys, a.table.members.Keys, rest.table.members.Keys, {Key(ps[0])}, KeysOf(ps[1..]));
      ExtendsTransitive(t, a.table, rest.table);
      GrowthReported(t.members.Keys, a.table.members.Keys, rest.table.members.Keys, a.added, rest.added);
      Insertion(a.added || rest.added, rest.table)
  }

  /** Two growth steps, each reporting whether it grew, report together whether the whole grew. */
  lemma GrowthReported(k0: set<string>, k1: set<string>, k2: set<string>, g1: bool, g2: bool)
    requires k0 <= k1 <= k2
    requires g1 <==> k1 != k0
    requires g2 <==> k2 != k1
    ensures g1 || g2 <==> k2 != k0
  {
  }

  /** `q` requires something `deps` satisfies. */
  ghost predicate RequiresOneOf(q: Package, deps: seq<Dependency>, sat: Satisfies) {
    exists i :: 0 <= i < |deps| && AnySatisfies(q.requireDeps, deps[i], sat)
  }

  /** The keys of the installed packages that require one of `deps`. */
  ghost function RequirerKeys(env: Env, deps: seq<Dependency>): set<string> {
    set q | q in env.rpmdb && RequiresOneOf(q, deps, env.sat) :: Key(q)
  }

  lemma RequirerKeysOfHead(env: Env, deps: seq<Dependency>)
    requires |deps| > 0
    ensures KeysOf(Requirers(env.rpmdb, deps[0], env.sat)) + RequirerKeys(env, deps[1..]) == RequirerKeys(env, deps)
  {
    var head := Requirers(env.rpmdb, deps[0], env.sat);
    KeysOfMembers(head);
    forall q | q in env.rpmdb
      ensures RequiresOneOf(q, deps, env.sat) <==> q in head || RequiresOneOf(q, deps[1..], env.sat)
    {
      if RequiresOneOf(q, deps, env.sat) {
        var i :| 0 <= i < |deps| && AnySatisfies(q.requireDeps, deps[i], env.sat);
        if i > 0 { assert deps[1..][i - 1] == deps[i]; }
      }
      if RequiresOneOf(q, deps[1..], env.sat) {
        var i :| 0 <= i < |deps[1..]| && AnySatisfies(q.requireDeps, deps[1..][i], env.sat);
        assert deps[1..][i] == deps[i + 1];
      }
    }
  }

  /** One removal loop of low_transaction_check_removal: every installed requirer of each of `deps`, scheduled for removal. */
  function AddRequirers(env: Env, remove: Table, deps: seq<Dependency>): (r: Insertion)
    requires Valid(remove)
    ensures Valid(r.table) && Extends(remove, r.table)
    ensures r.table.members.Keys == remove.members.Keys + RequirerKeys(env, deps)
    ensures r.added <==> r.table.members.Keys != remove.members.Keys
    decreases |deps|
  {
    if |deps| == 0 then Insertion(false, remove)
    else
      var a := AddAll(remove, Requirers(env.rpmdb, deps[0], env.sat));
      var rest := AddRequirers(env, a.table, deps[1..]);
      RequirerKeysOfHead(env, deps);
      UnionChain(remove.members.Keys, a.table.members.Keys, rest.table.members.Keys,
                 KeysOf(Requirers(env.rpmdb, deps[0], env.sat)), RequirerKeys(env, deps[1..]));
      ExtendsTransitive(remove, a.table, rest.table);
      GrowthReported(remove.members.Keys, a.table.members.Keys, rest.table.members.Keys, a.added, rest.added);
      Insertion(a.added || rest.added, rest.table)
  }

  /** The dependency built for each file of a removed package: the path, no sense, no evr. */
  function FileDeps(files: seq<string>): (ds: seq<Dependency>)
    ensures |ds| == |files|
    ensures forall i :: 0 <= i < |files| ==> ds[i] == Dependency(files[i], SenseNone, None)
  {
    seq(|files|, i requires 0 <= i < |files| => DependencyNew(files[i], SenseNone, None))
  }

  /** The keys of the installed packages that require a provide or a file of `p`. */
  ghost function Dependents(env: Env, p: Package): set<string> {
    RequirerKeys(env, p.provideDeps) + RequirerKeys(env, FileDeps(p.files))
  }

  lemma DependentsInstalled(env: Env, p: Package)
    ensures Dependents(env, p) <= RpmdbKeys(env)
  {
    KeysOfMembers(env.rpmdb);
  }

  lemma GapWithin(k0: set<string>, k1: set<string>, k2: set<string>, u: set<string>)
    requires k0 <= k1 <= k2 && k1 - k0 <= u && k2 - k1 <= u
    ensures k2 - k0 <= u
  {
  }

  /**
   * low_transaction_check_removal: every installed package requiring one of
   * the removed package's provides or files is scheduled for removal, and the
   * status says whether any of them was new. The file dependencies are built
   * with the corrected low_package_dependency_new (`Package.DependencyNew`).
   */
  function CheckRemoval(env: Env, remove: Table, p: Package): (r: Checked)
    requires Valid(remove)
    ensures Valid(r.table) && Extends(remove, r.table)
    ensures r.table.members.Keys == remove.members.Keys + Dependents(env, p)
    ensures r.table.members.Keys - remove.members.Keys <= RpmdbKeys(env)
    ensures r.status != Unresolvable
    ensures r.status == PackagesAdded <==> r.table.members.Keys != remove.members.Keys
  {
    var a := AddRequirers(env, remove, p.provideDeps);
    var b := AddRequirers(env, a.table, FileDeps(p.files));
    UnionChain(remove.members.Keys, a.table.members.Keys, b.table.members.Keys,
               RequirerKeys(env, p.provideDeps), RequirerKeys(env, FileDeps(p.files)));
    DependentsInstalled(env, p);
    ExtendsTransitive(remove, a.table, b.table);
    GrowthReported(remove.members.Keys, a.table.members.Keys, b.table.members.Keys, a.added, b.added);
    Checked(if a.added || b.added then PackagesAdded else NoChange, b.table)
  }

  /** What low_transaction_check_removal as written comes to: a checked table, or a crash in its file loop. */
  datatype RemovalOutcome = RemovalChecked(checked: Checked) | RemovalCrash

  /**
   * low_transaction_check_removal as written: the provides loop completes,
   * then the file loop builds each file's dependency with the written
   * low_package_dependency_new and a NULL evr, whose strdup(NULL) crashes
   * on the first file. Only a package without files gets through.
   */
  function CheckRemovalAsWritten(env: Env, remove: Table, p: Package): (r: RemovalOutcome)
    requires Valid(remove)
    ensures r.RemovalCrash? <==> |p.files| > 0
    ensures r.RemovalChecked? ==> Valid(r.checked.table) && Extends(remove, r.checked.table)
    ensures r.RemovalChecked? ==>
      r.checked.table.members.Keys == remove.members.Keys + RequirerKeys(env, p.provideDeps)
    ensures r.RemovalChecked? ==>
      (r.checked.status == PackagesAdded <==> r.checked.table.members.Keys != remove.members.Keys)
  {
    var a := AddRequirers(env, remove, p.provideDeps);
    if |p.files| == 0 then RemovalChecked(Checked(if a.added then PackagesAdded else NoChange, a.table))
    else if DependencyNewAsWritten(p.files[0], SenseNone, None).NullEvrCrash? then RemovalCrash
    else assert false; RemovalCrash
  }

  /**
   * The written function and the corrected one agree on every package
   * without files; on every package with files the written one crashes
   * where the corrected one schedules every installed dependent.
   */
  lemma CheckRemovalAsWrittenAgrees(env: Env, remove: Table, p: Package)
    requires Valid(remove)
    ensures |p.files| == 0 ==> CheckRemovalAsWritten(env, remove, p) == RemovalChecked(CheckRemoval(env, remove, p))
    ensures |p.files| > 0 ==> CheckRemovalAsWritten(env, remove, p) == RemovalCrash
    ensures CheckRemoval(env, remove, p).table.members.Keys == remove.members.Keys + Dependents(env, p)
  {
    if |p.files| == 0 {
      var a := AddRequirers(env, remove, p.provideDeps);
      assert FileDeps(p.files) == [];
      assert AddRequirers(env, a.table, []) == Insertion(false, a.table);
    }
  }

  /** `p` has a provide of this name (the name-only test of low_transaction_search_provides). */
  predicate ProvidesName(p: Package, name: string) {
    exists i :: 0 <= i < |p.provideDeps| && p.provideDeps[i].name == name
  }

  /** The package of the first of `ms` that provides `name`. */
  function FirstProvider(ms: seq<Member>, name: string): (r: Option<Package>)
    ensures r.None? <==> forall i :: 0 <= i < |ms| ==> !ProvidesName(ms[i].pkg, name)
    ensures r.Some? ==> exists i :: 0 <= i < |ms| && ms[i].pkg == r.value && ProvidesName(r.value, name)
                                    && forall j :: 0 <= j < i ==> !ProvidesName(ms[j].pkg, name)
    decreases |ms|
  {
    if |ms| == 0 then None
    else if ProvidesName(ms[0].pkg, name) then Some(ms[0].pkg)
    else
      var r := FirstProvider(ms[1..], name);
      assert forall i :: 1 <= i < |ms| ==> ms[i] == ms[1..][i - 1];
      r
  }

  /** A scheduled package provides `name`. */
  ghost predicate TableProvides(t: Table, name: string) {
    exists k :: k in t.members && ProvidesName(t.members[k].pkg, name)
  }

  /** low_transaction_search_provides: the first member of the table with a provide named `name`. */
  function SearchProvides(t: Table, name: string): (r: Option<Package>)
    requires Valid(t)
    ensures r.None? <==> !TableProvides(t, name)
    ensures r.Some? ==> exists k :: k in t.members && t.members[k].pkg == r.value
    ensures r.Some? ==> ProvidesName(r.value, name)
  {
    var vs := Values(t);
    var r := FirstProvider(vs, name);
    assert r.None? <==> !TableProvides(t, name) by {
      if TableProvides(t, name) {
        var k :| k in t.members && ProvidesName(t.members[k].pkg, name);
        var i :| 0 <= i < |t.order| && t.order[i] == k;
        assert vs[i].pkg == t.members[k].pkg;
      }
    }
    r
  }

  /** The member a conflict of `p` names, first conflict first (the third loop of low_transaction_check_all_conflicts). */
  function InstallConflict(install: Table, conflicts: seq<Dependency>): (r: Option<Package>)
    requires Valid(install)
    ensures r.None? <==> forall i :: 0 <= i < |conflicts| ==> !TableProvides(install, conflicts[i].name)
    ensures r.Some? ==> exists k :: k in install.members && install.members[k].pkg == r.value
    ensures r.Some? ==> exists i :: 0 <= i < |conflicts| && ProvidesName(r.value, conflicts[i].name)
    decreases |conflicts|
  {
    if |conflicts| == 0 then None
    else
      assert forall i :: 1 <= i < |conflicts| ==> conflicts[i] == conflicts[1..][i - 1];
      match SearchProvides(install, conflicts[0].name)
      case Some(q) => Some(q)
      case None => InstallConflict(install, conflicts[1..])
  }

  /** An installed package conflicts with a provide of `p`, or provides a conflict of `p`. */
  ghost predicate ConflictsWithInstalled(env: Env, p: Package) {
    || (exists i, q :: 0 <= i < |p.provideDeps| && q in env.rpmdb && AnySatisfies(q.conflictDeps, p.provideDeps[i], env.sat))
    || (exists i, q :: 0 <= i < |p.conflictDeps| && q in env.rpmdb && AnySatisfies(q.provideDeps, p.conflictDeps[i], env.sat))
  }

  /** The first two loops of low_transaction_check_all_conflicts: an rpmdb search per provide, then per conflict. */
  function CheckInstalledConflicts(env: Env, p: Package): (r: bool)
    ensures r <==> ConflictsWithInstalled(env, p)
  {
    var byProvide := exists i :: 0 <= i < |p.provideDeps| && |Conflicters(env.rpmdb, p.provideDeps[i], env.sat)| > 0;
    var byConflict := exists i :: 0 <= i < |p.conflictDeps| && |Providers(env.rpmdb, p.conflictDeps[i], env.sat)| > 0;
    assert byProvide ==> ConflictsWithInstalled(env, p) by {
      if byProvide {
        var i :| 0 <= i < |p.provideDeps| && |Conflicters(env.rpmdb, p.provideDeps[i], env.sat)| > 0;
        assert Conflicters(env.rpmdb, p.provideDeps[i], env.sat)[0] in Conflicters(env.rpmdb, p.provideDeps[i], env.sat);
      }
    }
    assert byConflict ==> ConflictsWithInstalled(env, p) by {
      if byConflict {
        var i :| 0 <= i < |p.conflictDeps| && |Providers(env.rpmdb, p.conflictDeps[i], env.sat)| > 0;
        assert Providers(env.rpmdb, p.conflictDeps[i], env.sat)[0] in Providers(env.rpmdb, p.conflictDeps[i], env.sat);
      }
    }
    assert ConflictsWithInstalled(env, p) ==> byProvide || byConflict by {
      if exists i, q :: 0 <= i < |p.provideDeps| && q in env.rpmdb && AnySatisfies(q.conflictDeps, p.provideDeps[i], env.sat) {
        var i, q :| 0 <= i < |p.provideDeps| && q in env.rpmdb && AnySatisfies(q.conflictDeps, p.provideDeps[i], env.sat);
        assert q in Conflicters(env.rpmdb, p.provideDeps[i], env.sat);
      }
      if exists i, q :: 0 <= i < |p.conflictDeps| && q in env.rpmdb && AnySatisfies(q.provideDeps, p.conflictDeps[i], env.sat) {
        var i, q :| 0 <= i < |p.conflictDeps| && q in env.rpmdb && AnySatisfies(q.provideDeps, p.conflictDeps[i], env.sat);
        assert q in Providers(env.rpmdb, p.conflictDeps[i], env.sat);
      }
    }
    byProvide || byConflict
  }
}

=== FILE: transaction_tables.dfy ===
/**
 * The transaction's hash tables of src/low-transaction.c: members keyed by
 * the package's NEVRA string, with idempotent insertion and removal.
 *
 * GHashTable's iteration order is unspecified; a table here keeps its keys in
 * insertion order next to the map, and every walk over a table follows that
 * order. None of the properties proved about the transaction depend on it.
 */
module TransactionTables {
  import opened CText
  import opened Package

  /**
   * The member key: "name-epoch:version-release.arch", or
   * "name-version-release.arch" for a package with a NULL epoch.
   */
  function Key(p: Package): string {
    match p.epoch
    case Some(e) => p.name + "-" + e + ":" + p.version + "-" + p.release + "." + p.arch
    case None => p.name + "-" + p.version + "-" + p.release + "." + p.arch
  }

  /** LowTransactionMember: the package and whether its removal was already expanded. */
  datatype Member = Member(pkg: Package, resolved: bool)

  /** A table: its keys in iteration order, and the members by key. */
  datatype Table = Table(order: seq<string>, members: map<string, Member>)

  predicate Distinct(s: seq<string>) {
    forall i, j :: 0 <= i < j < |s| ==> s[i] != s[j]
  }

  /** Every key is listed once, and the listed keys are exactly the members' keys. */
  ghost predicate Valid(t: Table) {
    && Distinct(t.order)
    && (forall k :: k in t.order <==> k in t.members)
  }

  /** Every member sits under its own package's key. */
  ghost predicate Keyed(t: Table) {
    forall k :: k in t.members ==> Key(t.members[k].pkg) == k
  }

  const Empty: Table := Table([], map[])

  lemma EmptyValid()
    ensures Valid(Empty) && Keyed(Empty)
  {
  }

  /** Adding, removing and marking keep every member under its own key. */
  lemma KeyedPreserved(t: Table, p: Package, k: string)
    requires Valid(t) && Keyed(t)
    ensures Keyed(AddToHash(t, p).table)
    ensures Keyed(RemoveFromHash(t, p))
    ensures k in t.members ==> Keyed(MarkResolved(t, k))
  {
  }

  /** The members, in iteration order (g_hash_table_get_values). */
  function Values(t: Table): (vs: seq<Member>)
    requires Valid(t)
    ensures |vs| == |t.order|
    ensures forall i :: 0 <= i < |vs| ==> vs[i] == t.members[t.order[i]]
  {
    seq(|t.order|, i requires 0 <= i < |t.order| && Valid(t) => t.members[t.order[i]])
  }

  /** The outcome of low_transaction_add_to_hash: whether it inserted, and the table after. */
  datatype Insertion = Insertion(added: bool, table: Table)

  /**
   * low_transaction_add_to_hash: insert an unresolved member for `p` when its
   * key is absent; otherwise leave the table as it was.
   */
  function AddToHash(t: Table, p: Package): (r: Insertion)
    requires Valid(t)
    ensures Valid(r.table)
    ensures r.added <==> Key(p) !in t.members
    ensures r.added ==> r.table.members == t.members[Key(p) := Member(p, false)]
    ensures !r.added ==> r.table == t
    ensures Key(p) in r.table.members
    ensures Extends(t, r.table)
    ensures r.table.members.Keys == t.members.Keys + {Key(p)}
    ensures r.added <==> r.table.members.Keys != t.members.Keys
  {
    var k := Key(p);
    if k in t.members then Insertion(false, t)
    else Insertion(true, Table(t.order + [k], t.members[k := Member(p, false)]))
  }

  /** `s` with every occurrence of `k` dropped. */
  function Without(s: seq<string>, k: string): (r: seq<string>)
    ensures forall x :: x in r <==> x in s && x != k
    ensures Distinct(s) ==> Distinct(r)
    ensures k !in s ==> r == s
    decreases |s|
  {
    if |s| == 0 then []
    else
      var rest := Without(s[1..], k);
      if s[0] == k then rest
      else
        assert Distinct(s) ==> s[0] !in s[1..];
        [s[0]] + rest
  }

  /** low_transaction_remove_from_hash: drop `p`'s key if present. */
  function RemoveFromHash(t: Table, p: Package): (r: Table)
    requires Valid(t)
    ensures Valid(r)
    ensures r.members == t.members - {Key(p)}
    ensures Key(p) !in t.members ==> r == t
  {
    var k := Key(p);
    if k in t.members then Table(Without(t.order, k), t.members - {k}) else t
  }

  /** Adding the same package twice: the second add reports FALSE and changes nothing. */
  lemma AddIdempotent(t: Table, p: Package)
    requires Valid(t)
    ensures AddToHash(AddToHash(t, p).table, p) == Insertion(false, AddToHash(t, p).table)
  {
  }

  /** Removing a package just added to a table that lacked it restores the table exactly. */
  lemma {:induction false} RemoveUndoesAdd(t: Table, p: Package)
    requires Valid(t) && Key(p) !in t.members
    ensures RemoveFromHash(AddToHash(t, p).table, p) == t
  {
    var k := Key(p);
    assert k !in t.order;
    WithoutAppend(t.order, k);
    assert t.members[k := Member(p, false)] - {k} == t.members;
  }

  lemma {:induction false} WithoutAppend(s: seq<string>, k: string)
    requires k !in s
    ensures Without(s + [k], k) == s
    decreases |s|
  {
    if |s| == 0 {
      assert [] + [k] == [k];
    } else {
      assert (s + [k])[1..] == s[1..] + [k];
      WithoutAppend(s[1..], k);
    }
  }

  /** The second of two tables keeps every member of the first unchanged, and its other members are unresolved. */
  ghost predicate Extends(t: Table, u: Table) {
    && t.members.Keys <= u.members.Keys
    && (forall k :: k in t.members ==> u.members[k] == t.members[k])
    && (forall k :: k in u.members && k !in t.members ==> !u.members[k].resolved)
  }

  lemma ExtendsTransitive(t: Table, u: Table, v: Table)
    requires Extends(t, u) && Extends(u, v)
    ensures Extends(t, v)
  {
  }

  /**
   * The second of two tables keeps every key of the first with the same
   * package, and a member once resolved stays resolved.
   */
  ghost predicate Grows(t: Table, u: Table) {
    && t.members.Keys <= u.members.Keys
    && (forall k :: k in t.members ==> u.members[k].pkg == t.members[k].pkg)
    && (forall k :: k in t.members && t.members[k].resolved ==> u.members[k].resolved)
  }

  lemma GrowsTransitive(t: Table, u: Table, v: Table)
    requires Grows(t, u) && Grows(u, v)
    ensures Grows(t, v)
  {
  }

  /** A table that extends another also grows it. */
  lemma ExtendsGrows(t: Table, u: Table)
    requires Extends(t, u)
    ensures Grows(t, u)
  {
  }

  /** Marks the member under `k` resolved. */
  function MarkResolved(t: Table, k: string): (u: Table)
    requires Valid(t) && k in t.members
    ensures Valid(u) && Grows(t, u)
    ensures u.order == t.order && u.members.Keys == t.members.Keys
    ensures u.members[k].resolved
    ensures forall j :: j in t.members && j != k ==> u.members[j] == t.members[j]
  {
    Table(t.order, t.members[k := t.members[k].(resolved := true)])
  }

  /** The transaction's four tables. */
  datatype Trans = Trans(install: Table, update: Table, remove: Table, unresolved: Table)

  ghost predicate ValidTrans(tr: Trans) {
    Valid(tr.install) && Valid(tr.update) && Valid(tr.remove) && Valid(tr.unresolved)
  }

  /** low_transaction_new: four empty tables. */
  function NewTrans(): (tr: Trans)
    ensures ValidTrans(tr)
    ensures tr.install.members == map[] && tr.update.members == map[]
    ensures tr.remove.members == map[] && tr.unresolved.members == map[]
  {
    Trans(Empty, Empty, Empty, Empty)
  }

  /** The result of low_transaction_add_install / add_remove: the returned flag and the transaction after. */
  datatype Scheduled = Scheduled(added: bool, trans: Trans)

  /** low_transaction_add_install: TRUE exactly when the package's key was not yet scheduled for install. */
  function AddInstall(tr: Trans, p: Package): (r: Scheduled)
    requires ValidTrans(tr)
    ensures ValidTrans(r.trans)
    ensures r.added <==> Key(p) !in tr.install.members
    ensures Key(p) in r.trans.install.members
    ensures !r.added ==> r.trans == tr
    ensures r.trans.update == tr.update && r.trans.remove == tr.remove && r.trans.unresolved == tr.unresolved
  {
    var a := AddToHash(tr.install, p);
    Scheduled(a.added, tr.(install := a.table))
  }

  /** low_transaction_add_update: schedules into the update table; returns nothing. */
  function AddUpdate(tr: Trans, p: Package): (r: Trans)
    requires ValidTrans(tr)
    ensures ValidTrans(r)
    ensures Key(p) in r.update.members
    ensures Key(p) in tr.update.members ==> r == tr
    ensures r.install == tr.install && r.remove == tr.remove && r.unresolved == tr.unresolved
  {
    tr.(update := AddToHash(tr.update, p).table)
  }

  /** low_transaction_add_remove: TRUE exactly when the package's key was not yet scheduled for removal. */
  function AddRemove(tr: Trans, p: Package): (r: Scheduled)
    requires ValidTrans(tr)
    ensures ValidTrans(r.trans)
    ensures r.added <==> Key(p) !in tr.remove.members
    ensures Key(p) in r.trans.remove.members
    ensures !r.added ==> r.trans == tr
    ensures r.trans.install == tr.install && r.trans.update == tr.update && r.trans.unresolved == tr.unresolved
  {
    var a := AddToHash(tr.remove, p);
    Scheduled(a.added, tr.(remove := a.table))
  }
}

=== FILE: util.dfy ===
/**
 * EVR splitting and comparison, and digest-name classification, from
 * src/low-util.c. `rpmvercmp` belongs to rpmlib and is a parameter here.
 */
module Util {
  import opened CText

  /** An epoch, version and release, as low_util_split_evr hands them back. */
  datatype Evr = Evr(epoch: string, version: string, release: string)

  /**
   * low_util_split_evr. The epoch is the text before the first ':' ("0" if
   * there is none); the release is the text after the last '-' ("0" if there
   * is none); the version starts after that colon and stops at that dash. When
   * the last dash comes before the first colon, the length handed to strndup
   * is negative, wraps to a huge size_t, and the version runs to the end.
   */
  function SplitEvr(evr: string): (r: Evr)
    ensures IndexOf(evr, ':').None? ==> r.epoch == "0"
    ensures IndexOf(evr, ':').Some? ==> r.epoch == evr[..IndexOf(evr, ':').value]
    ensures LastIndexOf(evr, '-').None? ==> r.release == "0"
    ensures LastIndexOf(evr, '-').Some? ==> r.release == evr[LastIndexOf(evr, '-').value + 1..]
    ensures r.version == evr[VersionStart(evr)..VersionEnd(evr)]
  {
    var start := VersionStart(evr);
    var e := match IndexOf(evr, ':') case Some(c) => evr[..c] case None => "0";
    var rel := match LastIndexOf(evr, '-') case Some(d) => evr[d + 1..] case None => "0";
    Evr(e, evr[start..VersionEnd(evr)], rel)
  }

  /** Where the version begins: just past the first colon, or at the start. */
  function VersionStart(evr: string): (i: nat)
    ensures i <= |evr|
  {
    match IndexOf(evr, ':')
    case Some(c) => c + 1
    case None => 0
  }

  /** Where the version ends: at the last dash if it lies past the colon, otherwise at the end. */
  function VersionEnd(evr: string): (j: nat)
    ensures VersionStart(evr) <= j <= |evr|
  {
    match LastIndexOf(evr, '-')
    case Some(d) => if d >= VersionStart(evr) then d else |evr|
    case None => |evr|
  }

  /** `e:v-r` splits back into its parts when the epoch has no ':' and the release has no '-'. */
  lemma {:induction false} SplitJoin(e: string, v: string, r: string)
    requires ':' !in e && '-' !in r
    ensures SplitEvr(e + ":" + v + "-" + r) == Evr(e, v, r)
  {
    var s := e + ":" + v + "-" + r;
    var c := |e|;
    var d := |e| + 1 + |v|;
    assert s[c] == ':';
    assert forall i :: 0 <= i < c ==> s[i] == e[i];
    assert IndexOf(s, ':') == Some(c);
    assert s[d] == '-';
    assert forall i :: d < i < |s| ==> s[i] == r[i - d - 1];
    assert LastIndexOf(s, '-') == Some(d);
    assert s[..c] == e && s[c + 1..d] == v && s[d + 1..] == r;
  }

  lemma {:induction false} NoColonJoined(v: string, r: string)
    requires ':' !in v && ':' !in r
    ensures IndexOf(v + "-" + r, ':').None?
  {
    var s := v + "-" + r;
    forall i | 0 <= i < |s|
      ensures s[i] != ':'
    {
      if i < |v| {
        assert s[i] == v[i];
      } else if i > |v| {
        assert s[i] == r[i - |v| - 1];
      }
    }
  }

  lemma {:induction false} LastDashJoined(v: string, r: string)
    requires '-' !in r
    ensures LastIndexOf(v + "-" + r, '-') == Some(|v|)
  {
    var s := v + "-" + r;
    assert s[|v|] == '-';
    assert forall i :: |v| < i < |s| ==> s[i] == r[i - |v| - 1];
  }

  /** A missing epoch reads as "0": with no colon anywhere, `v-r` and `0:v-r` split identically. */
  lemma {:induction false} MissingEpochIsZero(v: string, r: string)
    requires ':' !in v && ':' !in r && '-' !in r
    ensures SplitEvr(v + "-" + r) == SplitEvr("0" + ":" + v + "-" + r) == Evr("0", v, r)
  {
    assert SplitEvr(v + "-" + r) == Evr("0", v, r) by {
      var s := v + "-" + r;
      NoColonJoined(v, r);
      LastDashJoined(v, r);
      assert s[..|v|] == v && s[|v| + 1..] == r;
    }
    SplitJoin("0", v, r);
  }

  /** low_util_evr_cmp_worker: epochs decide first, then versions, then releases. */
  function EvrCmpWorker(a: Evr, b: Evr, vercmp: (string, string) -> int): (r: int)
    ensures vercmp(a.epoch, b.epoch) != 0 ==> r == vercmp(a.epoch, b.epoch)
    ensures vercmp(a.epoch, b.epoch) == 0 && vercmp(a.version, b.version) != 0 ==> r == vercmp(a.version, b.version)
    ensures vercmp(a.epoch, b.epoch) == 0 && vercmp(a.version, b.version) == 0 ==> r == vercmp(a.release, b.release)
  {
    var e := vercmp(a.epoch, b.epoch);
    if e != 0 then e
    else
      var v := vercmp(a.version, b.version);
      if v != 0 then v else vercmp(a.release, b.release)
  }

  /** low_util_evr_cmp */
  function EvrCmp(evr1: string, evr2: string, vercmp: (string, string) -> int): int {
    EvrCmpWorker(SplitEvr(evr1), SplitEvr(evr2), vercmp)
  }

  ghost predicate Antisymmetric(vercmp: (string, string) -> int) {
    forall x, y :: vercmp(x, y) == -vercmp(y, x)
  }

  /** With an antisymmetric rpmvercmp, swapping the arguments negates the EVR comparison. */
  lemma EvrCmpAntisymmetric(evr1: string, evr2: string, vercmp: (string, string) -> int)
    requires Antisymmetric(vercmp)
    ensures EvrCmp(evr1, evr2, vercmp) == -EvrCmp(evr2, evr1, vercmp)
  {
    var a, b := SplitEvr(evr1), SplitEvr(evr2);
    assert vercmp(a.epoch, b.epoch) == -vercmp(b.epoch, a.epoch);
    assert vercmp(a.version, b.version) == -vercmp(b.version, a.version);
    assert vercmp(a.release, b.release) == -vercmp(b.release, a.release);
  }

  /** A missing epoch compares exactly as an explicit "0:" epoch does, against anything. */
  lemma EvrCmpMissingEpoch(v: string, r: string, other: string, vercmp: (string, string) -> int)
    requires ':' !in v && ':' !in r && '-' !in r
    ensures EvrCmp(v + "-" + r, other, vercmp) == EvrCmp("0" + ":" + v + "-" + r, other, vercmp)
  {
    assert SplitEvr(v + "-" + r) == SplitEvr("0" + ":" + v + "-" + r) by {
      MissingEpochIsZero(v, r);
    }
  }

  /** The digest kinds of low-util.h. */
  datatype DigestType = Md5 | Sha1 | Sha256 | DigestUnknown | DigestNone

  /** low_util_digest_type_from_string */
  function DigestTypeFromString(s: string): (d: DigestType)
    ensures d == Md5 <==> s == "md5"
    ensures d == Sha1 <==> s == "sha" || s == "sha1"
    ensures d == Sha256 <==> s == "sha256"
    ensures d == DigestUnknown <==> s !in {"md5", "sha", "sha1", "sha256"}
    ensures d != DigestNone
  {
    if s == "md5" then Md5
    else if s == "sha" then Sha1
    else if s == "sha1" then Sha1
    else if s == "sha256" then Sha256
    else DigestUnknown
  }
}
